=== FILE: README.md ===
# Form builder core, modelled in Dafny

This project models the logic of a browser form builder. It covers two
versions of the application, and neither depends on the browser once the
page's state is passed in as parameters.

- **The plain version** is the `FormBuilder` class in app.js. It has:
  - field validation (`validateField`, `isValidEmail`, `isValidPassword`);
  - the derived-field engine (`calculateDerivedValue`, `calculateAge`,
    `evaluateFormula`, `evaluateConditional`, `updateDerivedFields`);
  - the state transitions of the form being edited, its field-id counter
    and the saved collection (`addField`, `saveFieldConfig`, `deleteField`,
    `reorderFields`, `clearForm`, `saveForm`/`saveToStorage`, `loadForm`,
    `deleteForm`).
- **The React version** is the `formBuilder` Redux slice in
  src/store/index.ts, with the record types of src/types/index.ts. Each
  reducer is a pure function of the state and the action's payload.

Modules:

- `Wrappers`: the `Option` type.
- `Lists`: `findIndex`, `filter`, and the left-to-right `forEach` written as
  a fold.
- `JsText`: the ECMAScript string operations the code uses. These are
  `trim`, the `\s` class, UTF-16 `length`, integer `toString`, `join`,
  `split`, and replacing every occurrence of a key.
- `Fields`: the field and form records of app.js, `getFieldTypeLabel`, the
  shape of a field added from the palette, and the option list of the field
  dialog.
- `Validation`: the rule chain of `validateField` and the two format checks.
- `Bindings`: the `parentValues` object as an association list. Assigning an
  existing key updates it in place, and a new key goes at the end.
- `Host`: what the JavaScript engine decides, passed in as a `Runtime` value.
  It holds `parseFloat(...) || 0` rendered back to text, `isNaN`,
  `Function(...)` for arithmetic and for conditions, and `new Date(...)` as a
  calendar date or none.
- `Conditional`: the pattern `if\s*\(\s*(.+?)\s*\)\s*"([^"]*?)"\s*else\s*"([^"]*?)"/i`.
  It is given two ways: as a backtracking search that follows the regular
  expression engine's preferences, and as a declarative description of every
  way a formula can fit it. The search is proved to return exactly the
  preferred fit.
- `Derived`: the derived-field engine.
- `Builder`: the plain version's state machine.
- `Store`: the Redux slice.

The host, the clock and the user's dialog answers are parameters:

- today's date for `calculateAge`;
- the fresh id (`Date.now().toString()`) and the timestamp
  (`new Date().toISOString()`) used when saving;
- the answers to `confirm(...)`;
- the page's controls: a map from field id to a `Control`, holding the
  value of the element with id `field_<id>` and the values of the field's
  checked inputs. A field has an entry only when such an element exists.
  On the preview app.js renders itself, radio and checkbox groups have no
  such element: their inputs are only named `field_<id>`
  (`Fields.PreviewPage`).

Three behaviours of the code are modelled as written and proved:

- **A parent shows up twice in a full name.** Every parent is bound under
  `field<id>` and under its label with whitespace removed. So `fullName`,
  which joins every non-empty bound value, repeats each value. One parent
  "Ann" gives "Ann Ann" (`Derived.FullNameRepeatsValues`), unless its
  label strips to `__proto__` (next item).
- **A label that strips to `__proto__` binds nothing.** `parentValues` is a
  plain object, and assigning a string to its `__proto__` key goes to the
  prototype setter, which ignores it. Such a parent is bound only under
  `field<id>` (`Derived.ParentWrites`), so one parent "Ann" gives "Ann"
  (`Derived.FullNameOfProtoLabel`), and no key `__proto__` is ever
  substituted into a formula (`Derived.GatherWritesFromParents`).
- **A label can overwrite a date parent's id key.** A label that strips to
  the date parent's `field<id>` key overwrites that binding. An example is
  a label "field 3" when field 3 is the date parent. `Derived.AgeUsesFirstDateParent`
  therefore states the `age` result under the hypothesis that no label
  strips to that key.

Where the design description and the code disagree, the model follows the
code:

- A parent id that names no field is skipped. It does not make the result
  empty (`Derived.DerivedSkipsUnknownParent`).
- An arithmetic result of `Infinity` is shown as text. Only `NaN` becomes
  "Invalid".
- An `age` parent that the host cannot parse as a date gives "NaN" rather
  than "".
- The Redux `saveForm` overwrites `createdAt` on every save, while the plain
  version keeps the first one.
- The Redux `createNewForm` leaves the field counter alone.
- On the preview app.js renders, a required radio or checkbox field is never
  enforced: `validateField` finds no element with the field's id and
  reports the field valid (`Validation.ChoiceGroupAlwaysPasses`). For the
  same reason a radio or checkbox parent never counts as filled in, so a
  derived field that lists one always shows "" (`Derived.ChoiceParentBlocksDerived`).
  The checkbox and radio branches of `Fields.LiveValue` are reached only on
  a page that gives such a group an element with that id.

## Model

| member | source | states |
|---|---|---|
| Fields.TypeLabel | app.js:284-296 | an unknown type, and only an unknown type, is labelled "Field" |
| Fields.NewField | app.js:268-276 | a palette field has the given id, the label "<type label> <id>", no rules, no default, and the options ["Option 1","Option 2"] exactly for select, radio and checkbox |
| Fields.FindField | app.js:986-987 | `find` by id returns a field with that id, the first one, and returns nothing exactly when no field has the id |
| Fields.ParseOptions | app.js:459-460 | an empty text gives no option list; otherwise every option is a non-blank line of the text and every non-blank line is kept |
| Fields.ParseOptionsOfLines | app.js:459-460 | a non-empty text without blank lines parses to exactly its lines, in order, and joining them with newlines gives the text back; the edit dialog fills the box by joining a field's options with newlines (app.js line 327), and this is the text it then parses |
| Fields.ParamText | app.js:934-939 | a rule entry prints as "true" or "false" exactly when it is a flag, and a non-negative bound prints as decimal digits; `Fields.ParamTextInjective` shows different entries print differently |
| Fields.ParamTextInjective | app.js:934-939 | two rule entries that print the same are the same entry |
| Fields.LiveValue | app.js:912-921 | a field that is not a choice group reads its element's value; a radio group reads "" or one of its checked values; a checkbox group's text contains every checked value |
| JsText.TrimStart | app.js:926 | the result is a suffix of the input, what it drops is all whitespace, and it starts with a non-space |
| JsText.TrimEnd | app.js:926 | the result is a prefix of the input, what it drops is all whitespace, and it ends with a non-space |
| JsText.Trim | app.js:926-931 | the trimmed text is empty exactly when the input is all whitespace, and otherwise starts and ends with a non-space |
| JsText.TrimIsInfix | app.js:747 | the trimmed text sits inside the input with only whitespace on either side |
| JsText.TrimIdempotent | app.js:747 | trimming a trimmed name changes nothing |
| JsText.StripWhitespace | app.js:1011 | removing every `\s` run leaves no whitespace, and leaves nothing exactly when the label was blank |
| JsText.StripWhitespaceOfOne | app.js:1011 | a single character is dropped exactly when it is whitespace and kept otherwise |
| JsText.StripWhitespaceAppend | app.js:1011 | removing whitespace from two texts joined is the same as removing it from each and joining the results |
| JsText.StripWhitespaceKeepsOthers | app.js:1011 | a label without whitespace is its own key |
| JsText.JsLength | app.js:934-938 | the JavaScript length of a text counts between one and two units per character |
| JsText.JsLengthOfOne | app.js:934-938 | a single character has length two exactly when it lies outside the Basic Multilingual Plane, and one otherwise |
| JsText.JsLengthAppend | app.js:934-938 | the length of two texts joined is the sum of their lengths |
| JsText.JsLengthOfBmp | app.js:934-938 | a text without astral characters has JavaScript length equal to its character count |
| JsText.NatToString | app.js:1031 | a natural number's decimal text is non-empty, all digits, and has no leading zero |
| JsText.IntToString | app.js:271 | an integer's text is a minus sign exactly for negatives, followed by the digits of its magnitude |
| JsText.NatToStringRoundTrip | app.js:1031 | reading back the decimal text of a number gives that number |
| JsText.IntToStringInjective | app.js:1010 | different integers have different texts, so different parents have different `field<id>` keys |
| JsText.Split | app.js:460 | the first piece of a split is a prefix of the text |
| JsText.SplitJoinRoundTrip | app.js:460 | joining the pieces of a split with the separator gives back the text |
| JsText.SplitPiecesAvoidKey | app.js:460 | no piece of a split contains the separator |
| JsText.SplitWithoutKey | app.js:460 | a text without the separator splits into itself alone |
| JsText.ReplaceAllIsJoinOfSplit | app.js:1075 | replacing every occurrence of a key is the same as splitting at the key and joining with the value |
| JsText.ReplaceAll | app.js:1075 | replacing every occurrence of a key; characterised by `JsText.ReplaceAllIsJoinOfSplit` and `JsText.ReplaceAllWithoutKey` |
| JsText.Join | app.js:1038 | `join`; `JsText.SplitJoinRoundTrip` makes it the inverse of `split`, and `JsText.JoinContainsParts` and `JsText.JoinEmptyIff` state what the joined text holds |
| JsText.JoinContainsParts | app.js:1038 | every piece occurs in the joined text |
| JsText.JoinContainsEvery | app.js:915 | every piece occurs in the joined text, for all pieces at once |
| JsText.JoinEmptyIff | app.js:1038 | joining pieces none of which is empty gives "" exactly for no pieces |
| JsText.ReplaceAllWithoutKey | app.js:1075 | a text that does not contain the key is left unchanged |
| Lists.IndexWhere | app.js:1270 | `findIndex` returns the first position that matches, or the length when none does |
| Lists.IndexWhereSkips | app.js:1022-1025 | an element the test rejects does not change whether `find` succeeds or what it finds |
| Lists.FoldSnoc | app.js:985 | a `forEach` over one more element is one more step after the rest |
| Lists.FoldSkips | app.js:985-987 | an element whose step changes nothing can be dropped from a `forEach` |
| Lists.Filter | app.js:528 | `filter` keeps exactly the elements that pass, and nothing else |
| Lists.FilterAppend | app.js:1262 | filtering keeps the relative order: the filter of a concatenation is the concatenation of the filters |
| Lists.FilterKeepsAll | app.js:1262 | when every element passes, `filter` returns the list unchanged |
| Lists.FilterKeepsDistinct | app.js:528 | filtering a list with distinct keys leaves distinct keys |
| Bindings.Keys | app.js:1073 | the keys of the bindings, one per entry, in entry order |
| Bindings.Values | app.js:1038 | the values of the bindings, one per entry, in entry order |
| Bindings.KeyIndex | app.js:1010-1011 | the position of a key is its first entry, or the length when it is unbound |
| Bindings.KeyIndexIs | app.js:1010-1011 | a position before which no entry has the key, and where the key sits or the list ends, is the key's position |
| Bindings.Assign | app.js:1010-1011 | after an assignment the key reads back the new value; an existing key keeps its place and a new key goes last; unique keys stay unique (an ordinary property assignment: the pass never assigns `__proto__`, see `Derived.GatherWritesFromParents`) |
| Bindings.AssignKeys | app.js:1010-1011 | the replace-in-place and append cases together give the facts `Assign` promises |
| Bindings.AssignReplaces | app.js:1010-1011 | assigning a bound key rewrites its entry and leaves the key order as it was |
| Bindings.AssignAppends | app.js:1010-1011 | assigning an unbound key adds it at the end |
| Bindings.AssignKeepsOthers | app.js:1010-1011 | an assignment changes the reading of no other key |
| Bindings.AssignAllLast | app.js:985-1012 | a run of assignments is the earlier ones followed by the last |
| Bindings.AssignAllSnoc | app.js:985-1012 | one more assignment at the end is applied after all the others |
| Bindings.LastWriteWins | app.js:985-1012 | after a run of assignments, each key reads the value last assigned to it, and an unassigned key is unbound |
| Bindings.LastWriteIs | app.js:985-1012 | when every assignment to a key uses the same value, that value is the last one assigned |
| Bindings.KeysAreWrittenOnce | app.js:985-1012 | after a run of assignments each key is bound once, and the bound keys are exactly the assigned ones |
| Bindings.BoundKeysUnique | app.js:985-1012 | a run of assignments never binds a key twice |
| Bindings.KeyIsBound | app.js:985-1012 | a key is bound after a run of assignments exactly when some assignment used it |
| Bindings.AssignedKeys | app.js:1010-1011 | the keys bound after one assignment are the old keys and the assigned one |
| Bindings.KeysInFirstWriteOrder | app.js:1038 | the keys end up in the order of their first assignment, which is the order `Object.values` reports them in |
| Bindings.KeysSnoc | app.js:1073 | adding an entry at the end adds its key at the end of the key list |
| Bindings.OrderStep | app.js:985-1012 | one more assignment keeps the bindings in order of first assignment |
| Bindings.BoundKeysWereWritten | app.js:985-1012 | every bound key was assigned at some point |
| Bindings.KeptOrder | app.js:985-1012 | an assignment that rebinds a key keeps the first-assignment order |
| Bindings.GrownOrder | app.js:985-1012 | an assignment that adds a key keeps the first-assignment order, the new key being assigned last |
| Bindings.FirstWriteOfNewKey | app.js:1010-1011 | a key first assigned by the last assignment has that assignment as its first |
| Bindings.FirstWriteExtends | app.js:985-1012 | assignments made later do not move a key's first assignment |
| Validation.EmailMatchesPattern | app.js:1118-1121 | an address passes `^[^\s@]+@[^\s@]+\.[^\s@]+$` exactly when it is a non-empty local part, '@', a name, '.', and a suffix, none containing '@' or whitespace |
| Validation.ValidEmailHasShape | app.js:1118-1121 | an address the pattern accepts splits into those five parts |
| Validation.ShapeIsValidEmail | app.js:1118-1121 | any split into those five parts makes the pattern accept the address |
| Validation.HasDigitIff | app.js:1124 | `/\d/` accepts a text exactly when some character lies between '0' and '9' |
| Validation.IsValidEmail | app.js:1118-1121 | `isValidEmail`; `Validation.EmailMatchesPattern` proves it accepts exactly the addresses of the shape the pattern describes |
| Validation.IsValidPassword | app.js:1123-1125 | `isValidPassword`; `Validation.HasDigitIff` and `Validation.PasswordRuleAlone` state it as at least eight UTF-16 units and an ASCII digit |
| Validation.PasswordRuleAlone | app.js:1123-1125 | with only the password rule, a non-blank value is valid exactly when it has at least eight UTF-16 units and a digit, and otherwise shows the password message |
| Validation.WithParam | app.js:931-949 | changing one rule's entry leaves every other rule's entry as it was |
| Validation.Failures | app.js:923-961 | the `errors` list; `Validation.ValidateReportsFirstFailure` ties it to the verdict |
| Validation.Validate | app.js:923-961 | a blank value is valid exactly when the field is not required, and a non-blank value with no rules is valid; `Validation.FirstFailingRuleWins`, `Validation.ValidIffNothingFails` and `Validation.ValidateReportsFirstFailure` characterise the rest |
| Validation.ValidateReportsFirstFailure | app.js:923-961 | the field is valid exactly when no message is collected, and otherwise shows the first one |
| Validation.RequiredBlankShortCircuits | app.js:926-931 | a required, blank value reports only "This field is required"; no other rule runs |
| Validation.FirstFailingRuleWins | app.js:931-954 | for a non-blank value, the message shown is that of the first failing rule in the order minLength, maxLength, email, password |
| Validation.ValidIffNothingFails | app.js:926-961 | a value is valid exactly when it is not a blank required value and, unless blank, breaks none of the four rules |
| Validation.FalsyRuleIsSkipped | app.js:934-946 | a rule whose entry is falsy has the same effect as no entry at all |
| Validation.LengthBoundsInclusive | app.js:934-938 | a value of exactly the bound's length passes both the minimum and the maximum |
| Validation.LengthBoundsTight | app.js:934-939 | one character short of the minimum or one over the maximum fails, with the message that names the bound |
| Validation.ValidateField | app.js:903-962 | an unknown field or a missing element is valid; only a field of the form can be invalid; a blank optional value is valid; a field of the form with an element gets the verdict of its own required flag and rules on its live value |
| Validation.ChoiceGroupAlwaysPasses | app.js:903-910 | on the preview app.js renders, a radio or checkbox field is always valid, even when required and nothing is ticked |
| Conditional.SkipSpaces | app.js:1096 | `\s*` consumes a run of whitespace and stops before a non-space or at the end |
| Conditional.NextQuote | app.js:1096 | `[^"]*?` followed by `"` stops at the first quote |
| Conditional.SkipExact | app.js:1096 | the whitespace run is the only one that ends before a non-space |
| Conditional.QuoteExact | app.js:1096 | the first quote after a position is the only quote with no quote before it |
| Conditional.Quoted | app.js:1096 | a quoted text found is an opening quote, quote-free text and a closing quote |
| Conditional.QuotedComplete | app.js:1096 | every quoted text is found |
| Conditional.MatchElse | app.js:1096 | the `else "..."` part found fits the pattern |
| Conditional.ElseComplete | app.js:1096 | every `else "..."` part that fits is found |
| Conditional.MatchClosing | app.js:1096 | the `) "..." else "..."` tail found fits the pattern |
| Conditional.ClosingComplete | app.js:1096 | every tail that fits is found |
| Conditional.TryEnds | app.js:1096 | extending the lazy condition keeps its start and only ever grows its end |
| Conditional.TryStarts | app.js:1096 | backtracking the condition's start stays within the whitespace after '(' |
| Conditional.AttemptAt | app.js:1096 | an attempt at a position reports that position |
| Conditional.FirstStart | app.js:1096 | the scan for a starting position returns the first one that succeeds |
| Conditional.Match | app.js:1096 | a match found fits the pattern |
| Conditional.TryEndsSound | app.js:1096 | a condition end found is on one line and followed by a tail that fits |
| Conditional.TryStartsSound | app.js:1096 | a condition start found lies in the whitespace after '(' and leads to a fit |
| Conditional.AttemptSound | app.js:1096 | an attempt that succeeds returns a fit |
| Conditional.TryEndsComplete | app.js:1096 | when a fit exists, extending the lazy condition finds one no longer than it |
| Conditional.TryStartsComplete | app.js:1096 | when a fit exists, backtracking over starts finds one the engine prefers to it |
| Conditional.StartFacts | app.js:1096 | every fit starts with `if`, spaces and '(' where the search looks, with its condition inside the leading whitespace |
| Conditional.AttemptComplete | app.js:1096 | an attempt at the start of a fit succeeds with a fit the engine prefers |
| Conditional.SearchComplete | app.js:1096 | the left-to-right scan finds a fit the engine prefers to any fit |
| Conditional.MatchIsPreferred | app.js:1096-1098 | there is no match exactly when nothing fits the pattern; a match is the engine's preferred fit: leftmost, then the shortest lazy condition |
| Derived.CalculateAge | app.js:1055-1065 | the age is the number of birthdays reached: today is on or after the age-th anniversary and before the next |
| Derived.AgeIsCompletedYears | app.js:1055-1065 | a number is the age exactly when the anniversaries bracket today, in both directions |
| Derived.AgeAroundBirthday | app.js:1058-1061 | on the birthday the age is the year difference, and on the day before it is one less |
| Derived.GatherSnoc | app.js:985-1012 | gathering one more parent is one more step after the others |
| Derived.GatherReady | app.js:983-1008 | all parents have values exactly when each parent is unknown, or has an element and a non-blank value |
| Derived.ExtendFacts | app.js:986-1011 | one parent's step clears readiness exactly when the parent is unsatisfied, keeps earlier assignments, binds its own value under its id key and, unless it is `__proto__`, its label key, and binds nothing under `__proto__` |
| Derived.Extend | app.js:985-1011 | one parent's turn of the `forEach`; characterised by `Derived.ExtendFacts` |
| Derived.ParentWrites | app.js:1010-1011 | a present parent's assignments always include its id key, include its label key exactly when that key is not `__proto__`, and carry only its own value |
| Derived.Turn | app.js:985 | the `forEach` callback as a fold step; `Derived.GatherSnoc` unfolds it |
| Derived.Gather | app.js:982-1012 | the whole `forEach` pass; `Derived.GatherReady`, `Derived.GatherBindsPresentParents` and `Derived.GatherWritesFromParents` characterise its readiness and its writes |
| Derived.GatherBindsPresentParents | app.js:1010-1011 | every parent that has an element has its value bound under `field<id>` and, unless the key is `__proto__`, under its stripped label |
| Derived.GatherBindsParent | app.js:1010-1011 | a given parent that has an element has its assignments made: the id key always, the label key unless it is `__proto__` |
| Derived.GatherKeeps | app.js:985-1012 | an assignment made for an early parent is still among the assignments at the end |
| Derived.GatherGrows | app.js:985-1012 | the last parent adds to the earlier assignments, and binds its value under its id key, and under its label key unless that is `__proto__`, when it has an element |
| Derived.GatherSkipsUnknown | app.js:986-987 | a parent id that names no field changes nothing |
| Derived.GatherWritesFromParents | app.js:1010-1011 | every assignment binds a parent's own value under that parent's id key or label key, and none binds `__proto__` |
| Derived.IdKeyInjective | app.js:1010 | different parent ids have different `field<id>` keys |
| Derived.GatherReadsParentsOnly | app.js:985-1004 | what is gathered depends only on the parents' controls |
| Derived.FirstDateParent | app.js:1022-1025 | the date parent is the first parent id naming a date field, and is none exactly when no parent does |
| Derived.FirstDateParentSkipsUnknown | app.js:1022-1025 | an id naming no field never becomes the date parent |
| Derived.SubstituteWithoutKeys | app.js:1073-1076 | a formula that mentions no key comes through substitution unchanged |
| Derived.Substitute | app.js:1073-1076 | the key-by-key replacement; `Derived.SubstituteWithoutKeys` and `Derived.FormulaWithoutKeys` characterise it |
| Derived.EvaluateFormula | app.js:1067-1090 | an empty formula gives ""; an expression outside the whitelist gives "Invalid formula"; otherwise an evaluation that throws gives "Error", a `NaN` result gives "Invalid", and any other result gives the host's rendering of it |
| Derived.RejectedFormulaIsNotEvaluated | app.js:1078-1081 | when the whitelist rejects the expression, the answer does not depend on the evaluator |
| Derived.FormulaWithoutKeys | app.js:1083-1089 | a whitelisted formula with no keys is evaluated as written: a throw gives "Error", NaN gives "Invalid", and otherwise the value's text |
| Derived.EvaluateConditional | app.js:1092-1098 | an empty formula gives "", and a formula nothing fits gives "Invalid condition" |
| Derived.ConditionalUsesPreferredMatch | app.js:1100-1115 | with a match, a throwing condition gives "Error", a truthy one the first text and a falsy one the second; neither text contains '"' |
| Derived.CalculateDerivedValue | app.js:977-1053 | a field that is not derived, has no parents, has an unknown type, or has an unsatisfied parent shows "" |
| Derived.ChoiceParentBlocksDerived | app.js:985-993 | on the preview app.js renders, a radio or checkbox parent is never filled in, so a derived field that lists it shows "" |
| Derived.AgeUsesFirstDateParent | app.js:1020-1034 | with every parent filled in: no date parent gives ""; otherwise the date parent's own value is parsed and gives its age, or "NaN" for a rejected date |
| Derived.AgeValue | app.js:1020-1034 | the `age` case; characterised by `Derived.AgeUsesFirstDateParent` |
| Derived.Dispatch | app.js:1014-1048 | the switch on the derived type once the parents are gathered; `Derived.CalculateDerivedValue` and the lemmas for each case characterise it |
| Derived.DateParentReadsBack | app.js:1010-1011 | when no label strips to a parent's id key, that key reads back the parent's value |
| Derived.DerivedSkipsUnknownParent | app.js:986-987 | dropping a parent id that names no field does not change the derived value, as long as another parent remains (an empty parent list gives "") |
| Derived.DerivedReadsParentsOnly | app.js:985-1004 | the derived value depends only on the controls of the field's parents |
| Derived.FullNameRepeatsValues | app.js:1036-1038 | one filled-in parent whose label key differs from its id key and from `__proto__` gives its value twice, joined by a space |
| Derived.FullNameOfProtoLabel | app.js:1036-1038 | one filled-in parent whose label strips to `__proto__` gives its value once |
| Derived.FullNameOfSingle | app.js:1038 | a single binding with a non-empty value gives that value |
| Derived.FullNameOfBindings | app.js:1036-1038 | for any bindings, the full name is "" exactly when every bound value is "", and every non-empty bound value occurs in it |
| Derived.FullNameOf | app.js:1036-1038 | the `fullName` case; characterised by `Derived.FullNameOfBindings` and `Derived.FullNameRepeatsValues` |
| Derived.FullNameOfPair | app.js:1038 | two bindings with the same non-empty value join into that value twice |
| Derived.Visit | app.js:968-974 | updating one derived field sets its own value to the computed one and leaves every other control, and every checked input, as it was |
| Derived.Recompute | app.js:966-974 | recomputing a list of fields touches only the controls of the derived fields in it |
| Derived.UpdateDerivedFields | app.js:965-975 | only the controls of derived fields change |
| Derived.RecomputeSees | app.js:966-974 | a derived field whose parents are not derived gets the value computed from the page as it was, whatever the order of the others |
| Derived.RecomputeUnfolds | app.js:966-974 | recomputing a list is visiting its first field and then recomputing the rest |
| Derived.RecomputeSkips | app.js:966-974 | a control whose id no field in the list has is left as it was |
| Derived.VisitKeepsAgreement | app.js:966-974 | updating another field does not change the controls of a field's non-derived parents |
| Derived.CalculatorReadsParents | app.js:977-1053 | the engine's value for a field depends only on the controls of its parents |
| Derived.DerivedValuesIndependentOfOrder | app.js:965-975 | after `updateDerivedFields`, a derived field whose parents are not derived shows exactly `calculateDerivedValue` of the page before the update |
| Builder.AddField | app.js:264-282 | "derived" changes nothing; any other type appends the new palette field numbered one past the counter, advances the counter by one, and keeps the form consistent |
| Builder.Edited | app.js:474-480 | a field the dialog is confirmed on takes the dialog's label, required flag, default and rules, and the typed options (its old ones when none were typed), and keeps its id, type and derived settings |
| Builder.SaveFieldConfig | app.js:444-517 | the dialog changes only the edited form's field list, never the saved collection, and keeps ids distinct and within the counter; a new field, or the first field with the edited id, takes the dialog's label, required flag, default and rules, and the typed options, keeping its old options when none were typed |
| Builder.EditKeepsShape | app.js:470-480 | editing keeps the counter, every id, type and derived setting, and changes no field but the edited one; with distinct ids the edited field takes the dialog's values; an id on no field changes nothing |
| Builder.CreateAppendsFreshField | app.js:481-509 | creating appends one field numbered one past the counter, of type "derived" exactly when the derived settings are present, holding the dialog's label, required flag, default, rules and parsed options, and keeps the earlier fields |
| Builder.DeleteField | app.js:526-532 | a declined deletion changes nothing; a confirmed one removes every field with the id, keeps every other field, and changes nothing outside the field list |
| Builder.DeleteFieldKeepsOrder | app.js:528 | the remaining fields keep their order, and the form stays consistent |
| Builder.Pick | app.js:538-542 | the reordered list is no longer than the order given and holds only fields of the form |
| Builder.PickIds | app.js:538-542 | the reordered ids are the given ids that name a field, in the given order |
| Builder.PickDistinct | app.js:538-542 | an order without repeats gives a list without repeated ids |
| Builder.ReorderFields | app.js:534-545 | reordering changes only the field list, and only into fields the form already had |
| Builder.ReorderKeepsConsistent | app.js:534-545 | reordering by an order without repeats keeps ids distinct and within the counter |
| Builder.ReorderByPermutation | app.js:534-545 | when the order lists every field's id and only those, no field is lost |
| Builder.PickEvery | app.js:538-542 | when every id of the order names a field, the new list has one field per id, in the order's order |
| Builder.SameIdSameField | app.js:540 | among fields with distinct ids, the id determines the field |
| Builder.ClearForm | app.js:714-726 | an empty form or a confirmed clear gives the empty form and the counter 0 and keeps the saved forms; a declined clear changes nothing |
| Builder.FormIndex | app.js:1270 | the position of a saved form is that of the first form with the id, or the length when none has it |
| Builder.Upsert | app.js:1268-1279 | saving replaces the form with the same id in place or appends it; other forms keep their places; ids stay unique |
| Builder.SaveForm | app.js:745-761 | a blank name changes nothing; otherwise the name is trimmed, an existing id and creation time are kept, missing ones are taken from the host, and the form is upserted into the saved collection |
| Builder.MaxId | app.js:1247 | the largest field id, or 0: no id exceeds it, and it is 0 or one of the ids |
| Builder.LoadForm | app.js:1241-1251 | an unknown id changes nothing; a known one opens the saved form and sets the counter to its largest field id, or 0 |
| Builder.DeleteForm | app.js:1260-1266 | afterwards no saved form has the id, every other form is kept, and the edited form is untouched |
| Builder.DeleteFormKeepsOthers | app.js:1262 | the other forms keep their order, and a missing id leaves the collection unchanged |
| Builder.SaveThenLoad | app.js:745-761 | loading a form just saved gives it back, with the counter at its largest field id |
| Builder.LoadedFormStaysConsistent | app.js:1241-1247 | a loaded form with distinct field ids is consistent, so the next field added gets an id no loaded field has |
| Builder.LoadedNextIdIsFresh | app.js:1241-1247 | whatever saved form is loaded, the counter is set so the next field id is on none of its fields |
| Builder.StepKeepsValid | app.js:264-1266 | every handler keeps ids distinct, within the counter, and one saved form per id |
| Builder.Step | app.js:264-1266 | one user action dispatched to its handler; `Builder.StepKeepsValid` shows every handler keeps the invariant |
| Builder.Run | app.js:264-1266 | a session of user actions; `Builder.RunKeepsValid` shows it keeps the invariant |
| Builder.SaveKeepsValid | app.js:745-761 | saving keeps the builder's invariant |
| Builder.RemoveFormKeepsValid | app.js:1260-1266 | deleting a saved form keeps the builder's invariant |
| Builder.RunKeepsValid | app.js:264-1266 | any session of user actions keeps the builder's invariant |
| Builder.InitialIsValid | app.js:3-16 | the start-up state in a fresh browser, with no saved forms, satisfies the invariant |
| Builder.StartUpIsValid | app.js:3-16 | at start-up with any stored collection that has one form per id, each with distinct field ids, the builder satisfies the invariant |
| Store.FieldIdForInjective | src/store/index.ts:32 | different counter readings give different `field_<n>` ids |
| Store.FieldIdFor | src/store/index.ts:32 | the id `field_<n>` for counter reading `n`; `Store.FieldIdForInjective` shows different readings give different ids |
| Store.Renumber | src/store/index.ts:54 | renumbering keeps every id and payload and sets each `order` to its position |
| Store.RenumberOrdered | src/store/index.ts:54 | renumbering a list that is already in order changes nothing |
| Store.CreateNewForm | src/store/index.ts:16-25 | a new form is empty, with the fresh id and time; preview data and errors are cleared; the saved forms and the counter are kept |
| Store.AddField | src/store/index.ts:27-38 | without an open form nothing changes; otherwise the field `field_<counter>` is appended with `order` the old length, the counter rises by exactly one, and nothing else changes |
| Store.UpdateField | src/store/index.ts:40-47 | the first field with the payload's id is replaced; the length and every other field, and the rest of the state, are unchanged |
| Store.DeleteField | src/store/index.ts:49-55 | no field keeps the id, every `order` equals its position, and nothing outside the field list changes |
| Store.DeleteFieldKeepsOrder | src/store/index.ts:52-54 | the remaining fields keep their relative order |
| Store.DeleteFieldKeepsOthers | src/store/index.ts:52-54 | every field with another id survives, renumbered to its new position |
| Store.ReorderFields | src/store/index.ts:57-64 | the fields become the payload, in payload order, with `order` equal to position, and nothing else changes |
| Store.SavedIndex | src/store/index.ts:75 | the position of a saved form is the first with the id, or the length when none has it |
| Store.Upsert | src/store/index.ts:75-80 | a form with the same id is replaced in place, otherwise the form is appended; other forms keep their places; ids stay unique |
| Store.SaveForm | src/store/index.ts:66-84 | without an open form nothing changes; otherwise the open form, with the given name and a new `createdAt`, is upserted, and the collection grows by at most one |
| Store.LoadForm | src/store/index.ts:93-100 | an unknown id changes nothing; otherwise the saved form is opened, preview data and errors are cleared, and the saved forms and the counter are kept |
| Store.SaveThenLoad | src/store/index.ts:66-100 | loading the form just saved gives it back with the new name and time |
| Store.UpdatePreviewData | src/store/index.ts:102-104 | only the given preview key changes, to the given value |
| Store.SetValidationErrors | src/store/index.ts:106-108 | the errors become the payload, and nothing else changes |
| Store.ClearValidationErrors | src/store/index.ts:110-112 | the errors become empty, and nothing else changes |
| Store.ReduceCounter | src/store/index.ts:16-112 | a reducer leaves the counter alone, except `addField` on an open form, which adds exactly one |
| Store.CounterNeverDecreases | src/store/index.ts:16-112 | over any sequence of actions the counter never goes down |
| Store.NextIdIsFresh | src/store/index.ts:32 | the id `addField` hands out is on no field, whether open or saved |
| Store.IssuedGrows | src/store/index.ts:37 | ids handed out stay handed out when the counter rises |
| Store.AddKeepsGood | src/store/index.ts:27-38 | `addField` keeps every id handed out by the counter and unique within its form |
| Store.AppendIssued | src/store/index.ts:30-37 | appending the field with the counter's id keeps the form's ids issued and distinct as the counter rises |
| Store.ReorderKeepsGood | src/store/index.ts:57-64 | a reorder payload of the form's own fields, without repeats, keeps the invariant |
| Store.DeleteKeepsGood | src/store/index.ts:49-55 | `deleteField` keeps the invariant |
| Store.UpdateKeepsGood | src/store/index.ts:40-47 | `updateField` keeps the invariant |
| Store.SaveKeepsGood | src/store/index.ts:66-84 | `saveForm` keeps the invariant, including one saved form per id |
| Store.ReduceKeepsGood | src/store/index.ts:16-112 | every reducer keeps the invariant |
| Store.Reduce | src/store/index.ts:16-112 | the slice's reducer; `Store.ReduceKeepsGood` and `Store.ReduceCounter` characterise it |
| Store.Run | src/store/index.ts:16-112 | a sequence of dispatched actions; `Store.RunKeepsGood` and `Store.CounterNeverDecreases` characterise it |
| Store.RunKeepsGood | src/store/index.ts:16-112 | any sequence of actions the page can send keeps the invariant |
| Store.InitialIsGood | src/store/index.ts:4-10 | the initial state satisfies the invariant |

## Left out

- Rendering, event wiring, modals, drag-and-drop, routing and
  notifications are presentation. The same goes for `editField` and
  `showFormMenu`, which only open a dialog or ask before calling
  `deleteForm`. The model takes the page's state and the dialog answers as
  parameters.
- `form.checkValidity()` in `saveFieldConfig` is left out. It is the
  browser's constraint check on the dialog, and the model starts after it
  passes.
- The guard in `showSaveModal` (at least one field) is left out. It only
  decides whether the name dialog opens, and `saveForm` itself does not
  check it.
- `localStorage` and JSON are left out. This includes `getSavedForms` with
  its fallback to an empty list, and the Redux `loadSavedForms`. The saved
  collection is a sequence held in the state. The collection read at
  start-up is a parameter of `Builder.StartUpIsValid`.
- `Date.now()` and `new Date().toISOString()` are parameters. So is today's
  date, which covers time zones.
- The meaning of `new Date(text)` is the host's `parseDate`, and an invalid
  date is modelled as none.
- `parseFloat`, `isNaN`, number-to-text conversion and `Function(...)` are
  fields of the `Runtime` value, because they are the JavaScript engine's
  floating-point and evaluation semantics.
- Binding keys are replaced literally. Their meaning as regular expressions
  is not modelled, nor is the "Error" a key that is not a valid pattern
  would cause when it throws. A label key such as "Age(" is one example.
- Keys that overlap, such as `field1` inside `field10`, get no special
  treatment: substitution happens in binding order, as the code does it.
- `$` patterns in replacement text are not modelled.
- JavaScript lists integer-like object keys first. The model keeps
  insertion order. No key the engine produces (`field<id>`, or a label
  without whitespace) is integer-like unless a label consists only of
  digits.
- An age is converted to text as plain decimal digits with an optional
  minus sign. JavaScript prints integers of the size an age can have the
  same way, so its exponent notation for very large numbers is not
  modelled.
- Fields.ParamText: a rule's bound is printed as plain decimal digits.
  JavaScript numbers are doubles, so a bound of 10^21 or more prints in
  exponent notation ("1e+21") and a bound past 2^53 loses digits when
  `parseInt` reads it. Neither is modelled.
- Store.FieldIdFor: the counter is printed as plain decimal digits, which
  matches JavaScript only below 10^21.
- Store.NextIdIsFresh and Store.FieldIdForInjective: the counters are
  unbounded integers. In JavaScript `++this.currentFieldId` and
  `state.currentFieldId++` stop changing once the counter reaches 2^53, so
  both facts, and the freshness of `Builder.AddField` and
  `Builder.SaveFieldConfig` ids, hold only below that.
- Object prototype keys in `getFieldTypeLabel` (a type named
  `constructor`) are left out. Every type outside the eight known ones is
  labelled "Field". In `calculateDerivedValue`'s `parentValues` only
  `__proto__` behaves unlike a plain key, and that case is modelled
  (`Derived.ParentWrites`). Other inherited names, such as `constructor`,
  are ordinary own keys once assigned.
- `renderPreview` and the preview's submit and reset handlers are left out.
  They only call `validateField` and `updateDerivedFields`, which are
  modelled.
- `Derived.AgeUsesFirstDateParent`: does not state the result when some label
  strips to the date parent's `field<id>` key. In that case the code reads
  that other field's value instead.
- `Derived.EvaluateConditional`: when the pattern matches, the outcome is
  stated by `Derived.ConditionalUsesPreferredMatch` rather than in the
  function's own contract.
- `Derived.CalculateDerivedValue`: the results of the `fullName`,
  `calculation` and `conditional` cases are stated by `Derived.FullNameRepeatsValues`,
  `Derived.EvaluateFormula` and `Derived.ConditionalUsesPreferredMatch`. They
  are not restated for the whole engine.
- src/types/index.ts has only interfaces. They are mirrored as the `Store`
  datatypes and carry nothing to prove.

=== FILE: Bindings.dfy ===
/** The value bindings a derived field is computed from (`parentValues` in
    `calculateDerivedValue`): an association list whose keys keep the order in
    which they were first assigned, where assigning a key again updates its
    value in place. */
module Bindings {
  import opened Wrappers
  import opened Lists

  datatype Entry = Entry(key: string, value: string)

  function Keys(b: seq<Entry>): (ks: seq<string>)
    ensures |ks| == |b|
    ensures forall i | 0 <= i < |b| :: ks[i] == b[i].key
  {
    seq(|b|, i requires 0 <= i < |b| => b[i].key)
  }

  /** `Object.values`: the values in key order. */
  function Values(b: seq<Entry>): (vs: seq<string>)
    ensures |vs| == |b|
    ensures forall i | 0 <= i < |b| :: vs[i] == b[i].value
  {
    seq(|b|, i requires 0 <= i < |b| => b[i].value)
  }

  predicate UniqueKeys(b: seq<Entry>) {
    forall i, j | 0 <= i < j < |b| :: b[i].key != b[j].key
  }

  /** Position of `k` among the keys, `|b|` when absent. */
  function KeyIndex(b: seq<Entry>, k: string): (i: nat)
    ensures i <= |b|
    ensures i < |b| ==> b[i].key == k
    ensures forall j | 0 <= j < i :: b[j].key != k
  {
    if b == [] then 0 else if b[0].key == k then 0 else 1 + KeyIndex(b[1..], k)
  }

  lemma KeyIndexIs(b: seq<Entry>, k: string, n: nat)
    requires n <= |b|
    requires n < |b| ==> b[n].key == k
    requires forall j | 0 <= j < n :: b[j].key != k
    ensures KeyIndex(b, k) == n
  {
  }

  /** `values[k]`. */
  function Lookup(b: seq<Entry>, k: string): Option<string> {
    var i := KeyIndex(b, k);
    if i < |b| then Some(b[i].value) else None
  }

  /** `values[k] = v`. */
  function Assign(b: seq<Entry>, k: string, v: string): (r: seq<Entry>)
    ensures Lookup(r, k) == Some(v)
    ensures k in Keys(b) ==> Keys(r) == Keys(b)
    ensures k !in Keys(b) ==> Keys(r) == Keys(b) + [k]
    ensures UniqueKeys(b) ==> UniqueKeys(r)
  {
    var i := KeyIndex(b, k);
    var r := if i < |b| then b[i := Entry(k, v)] else b + [Entry(k, v)];
    AssignKeys(b, k, v, r);
    r
  }

  lemma AssignKeys(b: seq<Entry>, k: string, v: string, r: seq<Entry>)
    requires var i := KeyIndex(b, k); r == if i < |b| then b[i := Entry(k, v)] else b + [Entry(k, v)]
    ensures Lookup(r, k) == Some(v)
    ensures k in Keys(b) ==> Keys(r) == Keys(b)
    ensures k !in Keys(b) ==> Keys(r) == Keys(b) + [k]
    ensures UniqueKeys(b) ==> UniqueKeys(r)
  {
    var i := KeyIndex(b, k);
    if i < |b| {
      AssignReplaces(b, k, v, i);
    } else {
      AssignAppends(b, k, v);
    }
  }

  lemma AssignReplaces(b: seq<Entry>, k: string, v: string, i: nat)
    requires i == KeyIndex(b, k) && i < |b|
    ensures var r := b[i := Entry(k, v)];
      && Lookup(r, k) == Some(v) && k in Keys(b) && Keys(r) == Keys(b)
      && (UniqueKeys(b) ==> UniqueKeys(r))
  {
    var r := b[i := Entry(k, v)];
    KeyIndexIs(r, k, i);
    assert Keys(b)[i] == k;
    assert forall j | 0 <= j < |r| :: r[j].key == b[j].key;
  }

  lemma AssignAppends(b: seq<Entry>, k: string, v: string)
    requires KeyIndex(b, k) == |b|
    ensures var r := b + [Entry(k, v)];
      && Lookup(r, k) == Some(v) && k !in Keys(b) && Keys(r) == Keys(b) + [k]
      && (UniqueKeys(b) ==> UniqueKeys(r))
  {
    var r := b + [Entry(k, v)];
    KeyIndexIs(r, k, |b|);
    assert forall j | 0 <= j < |b| :: Keys(b)[j] != k;
  }

  /** Assigning one key leaves every other key's value as it was. */
  lemma AssignKeepsOthers(b: seq<Entry>, k: string, v: string, x: string)
    requires x != k
    ensures Lookup(Assign(b, k, v), x) == Lookup(b, x)
  {
    var i := KeyIndex(b, k);
    var r := Assign(b, k, v);
    assert r == if i < |b| then b[i := Entry(k, v)] else b + [Entry(k, v)];
    var n := KeyIndex(b, x);
    if n < |b| {
      assert r[n] == b[n];
      KeyIndexIs(r, x, n);
    } else {
      KeyIndexIs(r, x, |r|);
    }
  }

  /** The assignments `writes` carried out one after another on `b`. */
  function AssignAll(b: seq<Entry>, writes: seq<Entry>): seq<Entry> {
    FoldLeft(Write, b, writes)
  }

  /** One write, as a step of `AssignAll`. */
  function Write(b: seq<Entry>, w: Entry): seq<Entry> {
    Assign(b, w.key, w.value)
  }

  lemma AssignAllLast(writes: seq<Entry>)
    requires writes != []
    ensures var last := writes[|writes| - 1];
      AssignAll([], writes) == Assign(AssignAll([], writes[..|writes| - 1]), last.key, last.value)
  {
  }

  /** The value of the last write to `k`, if any. */
  function LastWrite(writes: seq<Entry>, k: string): Option<string> {
    if writes == [] then None
    else if writes[|writes| - 1].key == k then Some(writes[|writes| - 1].value)
    else LastWrite(writes[..|writes| - 1], k)
  }

  /** Position of the first write to `k`, `|writes|` when there is none. */
  function FirstWrite(writes: seq<Entry>, k: string): nat {
    KeyIndex(writes, k)
  }

  /** Reading a key back gives its last written value, and a key never
      written is unbound. */
  lemma {:induction false} LastWriteWins(writes: seq<Entry>, k: string)
    ensures Lookup(AssignAll([], writes), k) == LastWrite(writes, k)
  {
    if writes != [] {
      var init, last := writes[..|writes| - 1], writes[|writes| - 1];
      LastWriteWins(init, k);
      AssignAllLast(writes);
      if last.key != k {
        AssignKeepsOthers(AssignAll([], init), last.key, last.value, k);
      }
    }
  }

  /** When some write gives `k` the value `v` and every write to `k` does,
      `k` is last written with `v`. */
  lemma {:induction false} LastWriteIs(writes: seq<Entry>, k: string, v: string)
    requires Entry(k, v) in writes
    requires forall w | w in writes && w.key == k :: w.value == v
    ensures LastWrite(writes, k) == Some(v)
    decreases |writes|
  {
    var init, last := writes[..|writes| - 1], writes[|writes| - 1];
    assert writes == init + [last];
    if last.key != k {
      assert Entry(k, v) in init;
      LastWriteIs(init, k, v);
    }
  }

  /** The bound keys are exactly the written ones, each once. */
  lemma KeysAreWrittenOnce(writes: seq<Entry>)
    ensures UniqueKeys(AssignAll([], writes))
    ensures forall k :: k in Keys(AssignAll([], writes)) <==> k in Keys(writes)
  {
    BoundKeysUnique(writes);
    forall k ensures k in Keys(AssignAll([], writes)) <==> k in Keys(writes) {
      KeyIsBound(writes, k);
    }
  }

  lemma {:induction false} BoundKeysUnique(writes: seq<Entry>)
    ensures UniqueKeys(AssignAll([], writes))
  {
    if writes != [] {
      BoundKeysUnique(writes[..|writes| - 1]);
      AssignAllLast(writes);
    }
  }

  /** A key is bound exactly when it was written. */
  lemma {:induction false} KeyIsBound(writes: seq<Entry>, k: string)
    ensures k in Keys(AssignAll([], writes)) <==> k in Keys(writes)
  {
    if writes != [] {
      var init, last := writes[..|writes| - 1], writes[|writes| - 1];
      KeyIsBound(init, k);
      var b := AssignAll([], init);
      AssignedKeys(b, last.key, last.value, k);
      assert k in Keys(writes) <==> k in Keys(init) || k == last.key by {
        assert writes == init + [last];
        KeysSnoc(init, last);
      }
      AssignAllLast(writes);
    }
  }

  lemma AssignAllSnoc(init: seq<Entry>, last: Entry)
    ensures AssignAll([], init + [last]) == Assign(AssignAll([], init), last.key, last.value)
  {
    FoldSnoc(Write, [], init, last);
  }

  lemma AssignedKeys(b: seq<Entry>, k: string, v: string, x: string)
    ensures x in Keys(Assign(b, k, v)) <==> x in Keys(b) || x == k
  {
    if k in Keys(b) {
      assert Keys(Assign(b, k, v)) == Keys(b);
    } else {
      assert Keys(Assign(b, k, v)) == Keys(b) + [k];
    }
  }

  /** The bound keys come in the order of their first write. */
  lemma {:induction false} KeysInFirstWriteOrder(writes: seq<Entry>)
    ensures forall i, j | 0 <= i < j < |AssignAll([], writes)| ::
              FirstWrite(writes, AssignAll([], writes)[i].key) < FirstWrite(writes, AssignAll([], writes)[j].key)
  {
    if writes != [] {
      var init := writes[..|writes| - 1];
      KeysInFirstWriteOrder(init);
      assert writes == init + [writes[|writes| - 1]];
      OrderStep(init, writes[|writes| - 1]);
    }
  }

  lemma KeysSnoc(init: seq<Entry>, last: Entry)
    ensures Keys(init + [last]) == Keys(init) + [last.key]
  {
    assert forall i | 0 <= i < |init| :: (init + [last])[i] == init[i];
  }

  lemma OrderStep(init: seq<Entry>, last: Entry)
    requires forall i, j | 0 <= i < j < |AssignAll([], init)| ::
               FirstWrite(init, AssignAll([], init)[i].key) < FirstWrite(init, AssignAll([], init)[j].key)
    ensures forall i, j | 0 <= i < j < |AssignAll([], init + [last])| ::
              FirstWrite(init + [last], AssignAll([], init + [last])[i].key)
                < FirstWrite(init + [last], AssignAll([], init + [last])[j].key)
  {
    var b := AssignAll([], init);
    var r := AssignAll([], init + [last]);
    AssignAllSnoc(init, last);
    BoundKeysWereWritten(init);
    if last.key in Keys(b) {
      KeptOrder(init, last, b, r);
    } else {
      assert last.key !in Keys(init) by {
        KeysAreWrittenOnce(init);
      }
      GrownOrder(init, last, b, r);
    }
  }

  lemma BoundKeysWereWritten(writes: seq<Entry>)
    ensures forall i | 0 <= i < |AssignAll([], writes)| :: AssignAll([], writes)[i].key in Keys(writes)
  {
    var b := AssignAll([], writes);
    KeysAreWrittenOnce(writes);
    forall i | 0 <= i < |b| ensures b[i].key in Keys(writes) {
      assert Keys(b)[i] == b[i].key;
    }
  }

  lemma KeptOrder(init: seq<Entry>, last: Entry, b: seq<Entry>, r: seq<Entry>)
    requires forall i | 0 <= i < |b| :: b[i].key in Keys(init)
    requires forall i, j | 0 <= i < j < |b| :: FirstWrite(init, b[i].key) < FirstWrite(init, b[j].key)
    requires Keys(r) == Keys(b)
    ensures forall i, j | 0 <= i < j < |r| ::
              FirstWrite(init + [last], r[i].key) < FirstWrite(init + [last], r[j].key)
  {
    forall i, j | 0 <= i < j < |r|
      ensures FirstWrite(init + [last], r[i].key) < FirstWrite(init + [last], r[j].key)
    {
      assert r[i].key == Keys(r)[i] == b[i].key && r[j].key == Keys(r)[j] == b[j].key;
      FirstWriteExtends(init, last, b[i].key);
      FirstWriteExtends(init, last, b[j].key);
    }
  }

  lemma GrownOrder(init: seq<Entry>, last: Entry, b: seq<Entry>, r: seq<Entry>)
    requires forall i | 0 <= i < |b| :: b[i].key in Keys(init)
    requires last.key !in Keys(init)
    requires forall i, j | 0 <= i < j < |b| :: FirstWrite(init, b[i].key) < FirstWrite(init, b[j].key)
    requires last.key !in Keys(b)
    requires Keys(r) == Keys(b) + [last.key]
    ensures forall i, j | 0 <= i < j < |r| ::
              FirstWrite(init + [last], r[i].key) < FirstWrite(init + [last], r[j].key)
  {
    var w := init + [last];
    FirstWriteOfNewKey(init, last);
    forall i, j | 0 <= i < j < |r| ensures FirstWrite(w, r[i].key) < FirstWrite(w, r[j].key) {
      assert r[i].key == Keys(r)[i] == b[i].key;
      FirstWriteExtends(init, last, b[i].key);
      if j < |b| {
        assert r[j].key == Keys(r)[j] == b[j].key;
        FirstWriteExtends(init, last, b[j].key);
      } else {
        assert r[j].key == Keys(r)[j] == last.key;
      }
    }
  }

  lemma FirstWriteOfNewKey(init: seq<Entry>, last: Entry)
    requires last.key !in Keys(init)
    ensures FirstWrite(init + [last], last.key) == |init|
  {
    var w := init + [last];
    forall m | 0 <= m < |init| ensures w[m].key != last.key {
      assert w[m] == init[m];
      assert Keys(init)[m] == init[m].key;
    }
    KeyIndexIs(w, last.key, |init|);
  }

  lemma FirstWriteExtends(init: seq<Entry>, last: Entry, k: string)
    requires k in Keys(init)
    ensures FirstWrite(init + [last], k) == FirstWrite(init, k)
    ensures FirstWrite(init, k) < |init|
  {
    var m :| 0 <= m < |init| && Keys(init)[m] == k;
    assert init[m].key == k;
    var n := KeyIndex(init, k);
    assert n <= m && FirstWrite(init, k) == n;
    var w := init + [last];
    assert w[n].key == k;
    assert forall j | 0 <= j < n :: w[j] == init[j];
    KeyIndexIs(w, k, n);
  }
}

=== FILE: Builder.dfy ===
/** The state the plain form builder (`FormBuilder` in app.js) keeps between
    user actions: the form being edited, the field id counter
    (`currentFieldId`), and the saved collection that lives in local storage.
    Each handler is a total transition on that state; dialogs' answers, the
    typed form name, the fresh id and the clock are parameters. */
module Builder {
  import opened Wrappers
  import opened JsText
  import opened Lists
  import opened Fields

  datatype Builder = Builder(current: Form, counter: int, saved: seq<Form>)

  /** The state at start-up in a fresh browser, whose storage holds no saved
      forms. */
  const Initial := Builder(EmptyForm, 0, [])

  /** Every field of the edited form has its own id, no greater than the
      counter, so the next id handed out is new. */
  predicate Consistent(b: Builder) {
    DistinctIds(b.current.fields)
    && forall i | 0 <= i < |b.current.fields| :: b.current.fields[i].id <= b.counter
  }

  /** At most one saved form per id. */
  predicate UniqueFormIds(saved: seq<Form>) {
    forall i, j | 0 <= i < j < |saved| :: saved[i].id != saved[j].id
  }

  /** The invariant the builder keeps: a consistent edited form, and a saved
      collection with one entry per id whose forms have distinct field ids. */
  predicate Valid(b: Builder) {
    Consistent(b) && UniqueFormIds(b.saved)
    && forall i | 0 <= i < |b.saved| :: DistinctIds(b.saved[i].fields)
  }

  /* --------------------------------------------------------------- fields */

  /** `addField`: a palette type other than "derived" appends a fresh field
      numbered one past the counter; "derived" only opens the dialog. */
  function AddField(b: Builder, k: FieldKind): (r: Builder)
    ensures k == Derived ==> r == b
    ensures k != Derived ==>
              && r.counter == b.counter + 1
              && r.current.fields == b.current.fields + [NewField(b.counter + 1, k)]
              && r.current.(fields := b.current.fields) == b.current
              && r.saved == b.saved
    ensures Consistent(b) ==> Consistent(r)
  {
    if k == Derived then b
    else
      var id := b.counter + 1;
      Builder(b.current.(fields := b.current.fields + [NewField(id, k)]), id, b.saved)
  }

  /** What the field dialog holds when it is confirmed. `derived` is present
      when the derived-field section is shown. */
  datatype FieldInput = FieldInput(
    caption: string,
    required: bool,
    defaultValue: string,
    validation: Rules,
    optionsText: string,
    derived: Option<DerivedConfig>)

  /** A field holds what the dialog submitted: its label, required flag,
      default and rules, and the typed options — or `before`, the options it
      already had, when none were typed. */
  predicate TakesInput(f: Field, input: FieldInput, before: Option<seq<string>>) {
    && f.caption == input.caption
    && f.required == input.required
    && f.defaultValue == input.defaultValue
    && f.validation == input.validation
    && f.options == if input.optionsText == "" then before else ParseOptions(input.optionsText)
  }

  /** An existing field once the dialog is confirmed on it: the dialog's
      attributes replace its own, and its id, type and derived settings stay. */
  function Edited(f: Field, input: FieldInput): (g: Field)
    ensures TakesInput(g, input, f.options)
    ensures g.id == f.id && g.kind == f.kind && g.derived == f.derived
  {
    var options := ParseOptions(input.optionsText);
    f.(caption := input.caption, required := input.required,
       defaultValue := input.defaultValue, validation := input.validation,
       options := if options.Some? then options else f.options)
  }

  /** `saveFieldConfig`. A truthy `editing` id updates the first field with
      that id (label, required flag, default, rules, and the options when any
      were typed), leaving its type and derived settings alone; without one,
      a new field numbered one past the counter is appended, of type
      "derived" when the derived section is shown and "text" otherwise. */
  function SaveFieldConfig(b: Builder, editing: Option<int>, input: FieldInput): (r: Builder)
    ensures r.saved == b.saved && r.current.(fields := b.current.fields) == b.current
    ensures Consistent(b) ==> Consistent(r)
    ensures editing.None? || editing.value == 0 ==>
              |r.current.fields| == |b.current.fields| + 1
              && TakesInput(r.current.fields[|b.current.fields|], input, None)
    ensures editing.Some? && editing.value != 0 ==>
              && |r.current.fields| == |b.current.fields|
              && forall i | 0 <= i < |b.current.fields| && b.current.fields[i].id == editing.value ::
                   (forall j | 0 <= j < i :: b.current.fields[j].id != editing.value) ==>
                   TakesInput(r.current.fields[i], input, b.current.fields[i].options)
  {
    if editing.Some? && editing.value != 0 then
      var id := editing.value;
      var fields := b.current.fields;
      var i := IndexWhere(fields, (f: Field) => f.id == id);
      if i == |fields| then b
      else
        b.(current := b.current.(fields := fields[i := Edited(fields[i], input)]))
    else
      var id := b.counter + 1;
      var kind := if input.derived.Some? then Derived else Text;
      var f := Field(id, kind, input.caption, input.required, input.defaultValue,
                     input.validation, ParseOptions(input.optionsText), input.derived);
      Builder(b.current.(fields := b.current.fields + [f]), id, b.saved)
  }

  /** Editing changes only the edited field's dialog attributes: the ids,
      types and derived settings of every field stay as they were. */
  lemma EditKeepsShape(b: Builder, id: int, input: FieldInput)
    requires id != 0
    ensures var r := SaveFieldConfig(b, Some(id), input);
      && r.counter == b.counter
      && Ids(r.current.fields) == Ids(b.current.fields)
      && (forall i | 0 <= i < |b.current.fields| ::
            && r.current.fields[i].kind == b.current.fields[i].kind
            && r.current.fields[i].derived == b.current.fields[i].derived
            && (b.current.fields[i].id != id ==> r.current.fields[i] == b.current.fields[i]))
      && (DistinctIds(b.current.fields) ==>
            forall i | 0 <= i < |b.current.fields| && b.current.fields[i].id == id ::
              TakesInput(r.current.fields[i], input, b.current.fields[i].options))
      && (id !in Ids(b.current.fields) ==> r == b)
  {
    var fields := b.current.fields;
    var r := SaveFieldConfig(b, Some(id), input);
    var i := IndexWhere(fields, (f: Field) => f.id == id);
    if i < |fields| {
      assert |r.current.fields| == |fields|;
      assert forall k | 0 <= k < |fields| :: r.current.fields[k].id == fields[k].id;
    }
  }

  /** Creating a field appends one whose id is one past the counter and whose
      type follows the dialog's derived section. */
  lemma CreateAppendsFreshField(b: Builder, editing: Option<int>, input: FieldInput)
    requires editing.None? || editing.value == 0
    ensures var r := SaveFieldConfig(b, editing, input);
      && r.counter == b.counter + 1
      && |r.current.fields| == |b.current.fields| + 1
      && r.current.fields[..|b.current.fields|] == b.current.fields
      && var f := r.current.fields[|b.current.fields|];
         && f.id == b.counter + 1 && (f.kind == Derived <==> input.derived.Some?) && f.derived == input.derived
         && TakesInput(f, input, None) && f.options == ParseOptions(input.optionsText)
  {
  }

  /** `deleteField` when the user confirms: every field with that id goes. */
  function DeleteField(b: Builder, id: int, confirmed: bool): (r: Builder)
    ensures !confirmed ==> r == b
    ensures confirmed ==> forall i | 0 <= i < |r.current.fields| :: r.current.fields[i].id != id
    ensures confirmed ==> forall i | 0 <= i < |b.current.fields| ::
              b.current.fields[i].id != id ==> b.current.fields[i] in r.current.fields
    ensures r.counter == b.counter && r.saved == b.saved && r.current.(fields := b.current.fields) == b.current
  {
    if !confirmed then b
    else b.(current := b.current.(fields := Filter(b.current.fields, (f: Field) => f.id != id)))
  }

  /** Deleting keeps the builder consistent and keeps the other fields in
      their order. */
  lemma DeleteFieldKeepsOrder(b: Builder, id: int, xs: seq<Field>, ys: seq<Field>)
    requires b.current.fields == xs + ys
    ensures var keep := (f: Field) => f.id != id;
      DeleteField(b, id, true).current.fields == Filter(xs, keep) + Filter(ys, keep)
    ensures Consistent(b) ==> Consistent(DeleteField(b, id, true))
  {
    var keep := (f: Field) => f.id != id;
    FilterAppend(xs, ys, keep);
    if DistinctIds(b.current.fields) {
      FilterKeepsDistinct(b.current.fields, keep, (f: Field) => f.id);
    }
  }

  /** The fields named by `order`, in that order: for each id the first field
      carrying it, ids naming no field skipped. */
  function Pick(fields: seq<Field>, order: seq<int>): (r: seq<Field>)
    ensures |r| <= |order|
    ensures forall i | 0 <= i < |r| :: r[i] in fields
  {
    if order == [] then []
    else
      match FindField(fields, order[0])
      case Some(f) => [f] + Pick(fields, order[1..])
      case None => Pick(fields, order[1..])
  }

  /** The ids that come out of `Pick` are exactly those of `order` that name
      a field, in the order given. */
  lemma {:induction false} PickIds(fields: seq<Field>, order: seq<int>)
    ensures Ids(Pick(fields, order)) == Filter(order, (id: int) => FindField(fields, id).Some?)
  {
    if order != [] {
      PickIds(fields, order[1..]);
      var rest := Pick(fields, order[1..]);
      match FindField(fields, order[0])
      case Some(f) =>
        assert Ids([f] + rest) == [f.id] + Ids(rest);
      case None =>
    }
  }

  /** Picking by a list without repeats gives distinct ids. */
  lemma PickDistinct(fields: seq<Field>, order: seq<int>)
    requires DistinctBy(order, (id: int) => id)
    ensures DistinctIds(Pick(fields, order))
  {
    var present := (id: int) => FindField(fields, id).Some?;
    PickIds(fields, order);
    FilterKeepsDistinct(order, present, (id: int) => id);
    var r := Pick(fields, order);
    forall i, j | 0 <= i < j < |r| ensures r[i].id != r[j].id {
      assert Ids(r)[i] == r[i].id && Ids(r)[j] == r[j].id;
    }
  }

  /** `reorderFields`: the fields rebuilt from the ids in the order the page
      shows them. */
  function ReorderFields(b: Builder, order: seq<int>): (r: Builder)
    ensures r.counter == b.counter && r.saved == b.saved
    ensures r.current.(fields := b.current.fields) == b.current
    ensures forall i | 0 <= i < |r.current.fields| :: r.current.fields[i] in b.current.fields
  {
    b.(current := b.current.(fields := Pick(b.current.fields, order)))
  }

  /** Reordering by the page's own list of ids, which has no repeats, keeps
      the builder consistent. */
  lemma ReorderKeepsConsistent(b: Builder, order: seq<int>)
    requires Consistent(b) && DistinctBy(order, (id: int) => id)
    ensures Consistent(ReorderFields(b, order))
  {
    PickDistinct(b.current.fields, order);
  }

  /** Reordering by a permutation of the current ids keeps every field. */
  lemma ReorderByPermutation(b: Builder, order: seq<int>)
    requires DistinctIds(b.current.fields)
    requires forall i | 0 <= i < |b.current.fields| :: b.current.fields[i].id in order
    requires forall k | 0 <= k < |order| :: FindField(b.current.fields, order[k]).Some?
    ensures forall i | 0 <= i < |b.current.fields| :: b.current.fields[i] in ReorderFields(b, order).current.fields
  {
    var fields := b.current.fields;
    var r := Pick(fields, order);
    PickEvery(fields, order);
    forall i | 0 <= i < |fields| ensures fields[i] in r {
      var k :| 0 <= k < |order| && order[k] == fields[i].id;
      SameIdSameField(fields, r[k], i);
    }
  }

  /** When every id of `order` names a field, `Pick` finds one field per id. */
  lemma PickEvery(fields: seq<Field>, order: seq<int>)
    requires forall k | 0 <= k < |order| :: FindField(fields, order[k]).Some?
    ensures |Pick(fields, order)| == |order|
    ensures forall k | 0 <= k < |order| :: Pick(fields, order)[k].id == order[k] && Pick(fields, order)[k] in fields
  {
    PickIds(fields, order);
    FilterKeepsAll(order, (id: int) => FindField(fields, id).Some?);
    assert Ids(Pick(fields, order)) == order;
  }

  /** In a list with distinct ids, a member with the id of position `i` is
      the field at `i`. */
  lemma SameIdSameField(fields: seq<Field>, f: Field, i: nat)
    requires DistinctIds(fields) && i < |fields|
    requires f in fields && f.id == fields[i].id
    ensures f == fields[i]
  {
    var m :| 0 <= m < |fields| && fields[m] == f;
    assert m == i;
  }

  /** `clearForm`: an empty form is cleared at once, a non-empty one only
      when the user confirms; clearing resets the counter. */
  function ClearForm(b: Builder, confirmed: bool): (r: Builder)
    ensures (b.current.fields == [] || confirmed) ==> r == Builder(EmptyForm, 0, b.saved)
    ensures !(b.current.fields == [] || confirmed) ==> r == b
  {
    if b.current.fields == [] || confirmed then Builder(EmptyForm, 0, b.saved) else b
  }

  /* ---------------------------------------------------------------- forms */

  /** The first saved form with id `id`, as an index (`|saved|` when none). */
  function FormIndex(saved: seq<Form>, id: Option<string>): (i: nat)
    ensures i <= |saved|
    ensures i < |saved| ==> saved[i].id == id
    ensures forall j | 0 <= j < i :: saved[j].id != id
  {
    IndexWhere(saved, (f: Form) => f.id == id)
  }

  /** `saveToStorage`: the saved form with the same id is replaced in place,
      or the form is appended. */
  function Upsert(saved: seq<Form>, form: Form): (r: seq<Form>)
    ensures |r| == |saved| || r == saved + [form]
    ensures FormIndex(r, form.id) < |r| && r[FormIndex(r, form.id)] == form
    ensures forall i | 0 <= i < |saved| && saved[i].id != form.id :: i < |r| && r[i] == saved[i]
    ensures forall i | 0 <= i < |r| :: r[i] == form || r[i] in saved
    ensures UniqueFormIds(saved) ==> UniqueFormIds(r)
  {
    var i := FormIndex(saved, form.id);
    var r := if i < |saved| then saved[i := form] else saved + [form];
    assert r[i] == form;
    r
  }

  /** JavaScript truthiness of an optional text. */
  predicate Truthy(t: Option<string>) {
    t.Some? && t.value != ""
  }

  /** `saveForm`: the typed name, trimmed, must not be blank; the form keeps
      an id and creation time it already has, takes `freshId` and `now`
      otherwise, and is written to the saved collection. */
  function SaveForm(b: Builder, typedName: string, freshId: string, now: string): (r: Builder)
    ensures Blank(typedName) ==> r == b
    ensures !Blank(typedName) ==>
              && r.current.name == Trim(typedName) && r.current.fields == b.current.fields
              && (Truthy(b.current.id) ==> r.current.id == b.current.id)
              && (!Truthy(b.current.id) ==> r.current.id == Some(freshId))
              && (Truthy(b.current.createdAt) ==> r.current.createdAt == b.current.createdAt)
              && (!Truthy(b.current.createdAt) ==> r.current.createdAt == Some(now))
              && r.saved == Upsert(b.saved, r.current)
              && r.counter == b.counter
  {
    var name := Trim(typedName);
    if name == [] then b
    else
      var form := b.current.(
        name := name,
        id := if Truthy(b.current.id) then b.current.id else Some(freshId),
        createdAt := if Truthy(b.current.createdAt) then b.current.createdAt else Some(now));
      Builder(form, b.counter, Upsert(b.saved, form))
  }

  /** The largest field id, or 0 (`Math.max(...ids, 0)`). */
  function MaxId(fields: seq<Field>): (m: int)
    ensures m >= 0
    ensures forall i | 0 <= i < |fields| :: fields[i].id <= m
    ensures m == 0 || exists i | 0 <= i < |fields| :: fields[i].id == m
  {
    if fields == [] then 0
    else
      var rest := MaxId(fields[1..]);
      assert forall i | 1 <= i < |fields| :: fields[i] == fields[1..][i - 1];
      if fields[0].id > rest then fields[0].id else rest
  }

  /** `loadForm`: the first saved form with that id becomes the edited form
      and the counter moves to its largest id; an unknown id changes
      nothing. */
  function LoadForm(b: Builder, id: string): (r: Builder)
    ensures FormIndex(b.saved, Some(id)) == |b.saved| ==> r == b
    ensures FormIndex(b.saved, Some(id)) < |b.saved| ==>
              r == Builder(b.saved[FormIndex(b.saved, Some(id))], MaxId(r.current.fields), b.saved)
  {
    var i := FormIndex(b.saved, Some(id));
    if i == |b.saved| then b
    else Builder(b.saved[i], MaxId(b.saved[i].fields), b.saved)
  }

  /** `deleteForm`: the saved forms with that id are dropped. */
  function DeleteForm(b: Builder, id: string): (r: Builder)
    ensures forall i | 0 <= i < |r.saved| :: r.saved[i].id != Some(id)
    ensures forall i | 0 <= i < |b.saved| :: b.saved[i].id != Some(id) ==> b.saved[i] in r.saved
    ensures r.current == b.current && r.counter == b.counter
  {
    b.(saved := Filter(b.saved, (f: Form) => f.id != Some(id)))
  }

  /** Deleting an id that is not saved changes nothing, and deleting keeps
      the remaining forms in their order. */
  lemma DeleteFormKeepsOthers(b: Builder, id: string, xs: seq<Form>, ys: seq<Form>)
    requires b.saved == xs + ys
    ensures var keep := (f: Form) => f.id != Some(id);
      DeleteForm(b, id).saved == Filter(xs, keep) + Filter(ys, keep)
    ensures (forall i | 0 <= i < |b.saved| :: b.saved[i].id != Some(id)) ==> DeleteForm(b, id) == b
  {
    var keep := (f: Form) => f.id != Some(id);
    FilterAppend(xs, ys, keep);
    if forall i | 0 <= i < |b.saved| :: b.saved[i].id != Some(id) {
      FilterKeepsAll(b.saved, keep);
    }
  }

  /** Saving and then loading the saved id gives back the form just saved,
      with the counter at its largest field id. */
  lemma SaveThenLoad(b: Builder, typedName: string, freshId: string, now: string)
    requires !Blank(typedName)
    ensures var s := SaveForm(b, typedName, freshId, now);
      s.current.id.Some? && LoadForm(s, s.current.id.value) == s.(counter := MaxId(s.current.fields))
  {
  }

  /** Whatever form is loaded, the next field added gets an id no loaded
      field has. */
  lemma LoadedNextIdIsFresh(b: Builder, id: string)
    requires FormIndex(b.saved, Some(id)) < |b.saved|
    ensures forall i | 0 <= i < |LoadForm(b, id).current.fields| ::
              LoadForm(b, id).current.fields[i].id != LoadForm(b, id).counter + 1
  {
  }

  /** After a load, the next field added gets an id no loaded field has. */
  lemma LoadedFormStaysConsistent(b: Builder, id: string)
    requires forall i | 0 <= i < |b.saved| :: DistinctIds(b.saved[i].fields)
    requires FormIndex(b.saved, Some(id)) < |b.saved|
    ensures Consistent(LoadForm(b, id))
    ensures forall i | 0 <= i < |LoadForm(b, id).current.fields| ::
              LoadForm(b, id).current.fields[i].id != LoadForm(b, id).counter + 1
  {
  }

  /* -------------------------------------------------------------- sessions */

  /** The user actions, with what each needs from the page and the host. */
  datatype Action =
    | Add(kind: FieldKind)
    | Configure(editing: Option<int>, input: FieldInput)
    | RemoveField(id: int, confirmed: bool)
    | Reorder(order: seq<int>)
    | Clear(confirmed: bool)
    | Save(typedName: string, freshId: string, now: string)
    | Load(formId: string)
    | RemoveForm(formId: string)

  function Step(b: Builder, a: Action): Builder {
    match a
    case Add(k) => AddField(b, k)
    case Configure(e, input) => SaveFieldConfig(b, e, input)
    case RemoveField(id, c) => DeleteField(b, id, c)
    case Reorder(order) => ReorderFields(b, order)
    case Clear(c) => ClearForm(b, c)
    case Save(n, newId, time) => SaveForm(b, n, newId, time)
    case Load(id) => LoadForm(b, id)
    case RemoveForm(id) => DeleteForm(b, id)
  }

  function Run(b: Builder, actions: seq<Action>): Builder
    decreases |actions|
  {
    if actions == [] then b else Run(Step(b, actions[0]), actions[1..])
  }

  /** The page lists each field once, so a reorder never repeats an id. */
  predicate WellFormed(a: Action) {
    a.Reorder? ==> DistinctBy(a.order, (id: int) => id)
  }

  /** One action keeps the invariant. */
  lemma StepKeepsValid(b: Builder, a: Action)
    requires Valid(b) && WellFormed(a)
    ensures Valid(Step(b, a))
  {
    match a
    case RemoveField(id, c) =>
      if c {
        DeleteFieldKeepsOrder(b, id, b.current.fields, []);
      }
    case Reorder(order) =>
      ReorderKeepsConsistent(b, order);
    case Save(n, newId, time) =>
      SaveKeepsValid(b, n, newId, time);
    case Load(id) =>
      if FormIndex(b.saved, Some(id)) < |b.saved| {
        LoadedFormStaysConsistent(b, id);
      }
    case RemoveForm(id) =>
      RemoveFormKeepsValid(b, id);
    case _ =>
  }

  lemma SaveKeepsValid(b: Builder, typedName: string, freshId: string, now: string)
    requires Valid(b)
    ensures Valid(SaveForm(b, typedName, freshId, now))
  {
    var r := SaveForm(b, typedName, freshId, now);
    if !Blank(typedName) {
      forall i | 0 <= i < |r.saved| ensures DistinctIds(r.saved[i].fields) {
        if r.saved[i] != r.current {
          assert r.saved[i] in b.saved;
        }
      }
    }
  }

  lemma RemoveFormKeepsValid(b: Builder, id: string)
    requires Valid(b)
    ensures Valid(DeleteForm(b, id))
  {
    FilterKeepsDistinct(b.saved, (f: Form) => f.id != Some(id), (f: Form) => f.id);
  }

  /** From start-up, any session of well-formed actions keeps the invariant:
      field ids stay distinct and below the counter, and the saved
      collection holds one form per id. */
  lemma {:induction false} RunKeepsValid(b: Builder, actions: seq<Action>)
    requires Valid(b)
    requires forall i | 0 <= i < |actions| :: WellFormed(actions[i])
    ensures Valid(Run(b, actions))
    decreases |actions|
  {
    if actions != [] {
      StepKeepsValid(b, actions[0]);
      RunKeepsValid(Step(b, actions[0]), actions[1..]);
    }
  }

  lemma InitialIsValid()
    ensures Valid(Initial)
  {
  }

  /** At start-up the saved collection is whatever storage holds; the
      builder starts valid whenever that collection has one form per id,
      each with distinct field ids, as every session leaves it. */
  lemma StartUpIsValid(saved: seq<Form>)
    requires UniqueFormIds(saved) && forall i | 0 <= i < |saved| :: DistinctIds(saved[i].fields)
    ensures Valid(Builder(EmptyForm, 0, saved))
  {
  }
}

=== FILE: Conditional.dfy ===
/** The grammar a conditional derived field's formula is read with: the
    case-insensitive, unanchored pattern
    `if\s*\(\s*(.+?)\s*\)\s*"([^"]*?)"\s*else\s*"([^"]*?)"` of
    `evaluateConditional`.

    A match is described declaratively by a `Layout`, the ten positions that
    split the text into the pattern's pieces, and `Fits` says when a layout is
    a way of matching. The engine's answer is one particular fitting layout,
    chosen by the pattern's priorities: the leftmost start, then the longest
    run of spaces before the condition (the greedy `\s*`), then the shortest
    condition (the lazy `.+?`). `Match` computes that choice by the same
    backtracking order, and the lemmas at the end show it is sound, complete,
    and the preferred fit. */
module Conditional {
  import opened Wrappers
  import opened JsText

  /** The characters `.` does not match. */
  predicate IsLineTerminator(c: char) {
    c == '\n' || c == '\r' || c == '\U{2028}' || c == '\U{2029}'
  }

  predicate SpaceAt(s: string, k: int) {
    0 <= k < |s| && IsWhitespace(s[k])
  }

  predicate BreakAt(s: string, k: int) {
    0 <= k < |s| && IsLineTerminator(s[k])
  }

  predicate QuoteAt(s: string, k: int) {
    0 <= k < |s| && s[k] == '"'
  }

  /** `s[i..j]` is a (possibly empty) run of whitespace. */
  predicate Spaces(s: string, i: int, j: int) {
    0 <= i <= j <= |s| && forall k | i <= k < j :: SpaceAt(s, k)
  }

  /** `s[i..j]` lies on one line. */
  predicate SingleLine(s: string, i: int, j: int) {
    0 <= i <= j <= |s| && forall k | i <= k < j :: !BreakAt(s, k)
  }

  /** `s[i..j]` holds no double quote. */
  predicate NoQuote(s: string, i: int, j: int) {
    0 <= i <= j <= |s| && forall k | i <= k < j :: !QuoteAt(s, k)
  }

  predicate CharAt(s: string, i: int, c: char) {
    0 <= i < |s| && s[i] == c
  }

  /** The keyword `if`, in any case, starts at `p`. */
  predicate IfAt(s: string, p: int) {
    0 <= p && p + 2 <= |s|
    && (s[p] == 'i' || s[p] == 'I') && (s[p + 1] == 'f' || s[p + 1] == 'F')
  }

  /** The keyword `else`, in any case, starts at `g`. */
  predicate ElseAt(s: string, g: int) {
    0 <= g && g + 4 <= |s|
    && (s[g] == 'e' || s[g] == 'E') && (s[g + 1] == 'l' || s[g + 1] == 'L')
    && (s[g + 2] == 's' || s[g + 2] == 'S') && (s[g + 3] == 'e' || s[g + 3] == 'E')
  }

  /** The positions of a match: `if` at `p`, `(` at `o`, the condition
      `s[a..b]`, `)` at `c`, the opening and closing quotes of the first text
      at `d` and `e`, `else` at `g`, and the quotes of the second text at `h`
      and `j`. */
  datatype Layout = Layout(p: nat, o: nat, a: nat, b: nat, c: nat, d: nat, e: nat, g: nat, h: nat, j: nat)

  /** The part of a match from the closing parenthesis on. */
  predicate ClosingFits(s: string, c: int, d: int, e: int, g: int, h: int, j: int) {
    CharAt(s, c, ')') && Spaces(s, c + 1, d) && CharAt(s, d, '"')
    && NoQuote(s, d + 1, e) && CharAt(s, e, '"')
    && Spaces(s, e + 1, g) && ElseAt(s, g) && Spaces(s, g + 4, h)
    && CharAt(s, h, '"') && NoQuote(s, h + 1, j) && CharAt(s, j, '"')
  }

  /** `L` is one way for the pattern to match `s`. */
  predicate Fits(s: string, L: Layout) {
    IfAt(s, L.p) && Spaces(s, L.p + 2, L.o) && CharAt(s, L.o, '(')
    && Spaces(s, L.o + 1, L.a) && L.a < L.b && SingleLine(s, L.a, L.b)
    && Spaces(s, L.b, L.c) && ClosingFits(s, L.c, L.d, L.e, L.g, L.h, L.j)
  }

  /** The pattern's priority among matches: `L` is preferred to, or the same
      as, `M`. */
  predicate Preferred(L: Layout, M: Layout) {
    L.p < M.p || (L.p == M.p && (L.a > M.a || (L.a == M.a && L.b <= M.b)))
  }

  /** The greedy `\s*` from `i`: the end of the whitespace run. */
  function SkipSpaces(s: string, i: nat): (j: nat)
    requires i <= |s|
    ensures Spaces(s, i, j)
    ensures j == |s| || !SpaceAt(s, j)
    decreases |s| - i
  {
    if i == |s| || !SpaceAt(s, i) then i else SkipSpaces(s, i + 1)
  }

  /** The lazy `[^"]*?` from `i` followed by `"`: the first quote. */
  function NextQuote(s: string, i: nat): (j: nat)
    requires i <= |s|
    ensures NoQuote(s, i, j)
    ensures j == |s| || QuoteAt(s, j)
    decreases |s| - i
  {
    if i == |s| || QuoteAt(s, i) then i else NextQuote(s, i + 1)
  }

  lemma SkipExact(s: string, i: nat, j: nat)
    requires Spaces(s, i, j) && j < |s| && !SpaceAt(s, j)
    ensures SkipSpaces(s, i) == j
  {
  }

  lemma QuoteExact(s: string, i: nat, j: nat)
    requires NoQuote(s, i, j) && CharAt(s, j, '"')
    ensures NextQuote(s, i) == j
  {
    assert QuoteAt(s, j);
  }

  /** The positions after the closing parenthesis at `c`. */
  datatype Closing = Closing(d: nat, e: nat, g: nat, h: nat, j: nat)

  /** A quoted text opening at `d`: the position of its closing quote. */
  function Quoted(s: string, d: nat): (r: Option<nat>)
    ensures r.Some? ==> CharAt(s, d, '"') && NoQuote(s, d + 1, r.value) && CharAt(s, r.value, '"')
  {
    if !CharAt(s, d, '"') then None
    else
      var e := NextQuote(s, d + 1);
      if CharAt(s, e, '"') then Some(e) else None
  }

  lemma QuotedComplete(s: string, d: nat, e: nat)
    requires CharAt(s, d, '"') && NoQuote(s, d + 1, e) && CharAt(s, e, '"')
    ensures Quoted(s, d) == Some(e)
  {
    QuoteExact(s, d + 1, e);
  }

  /** The positions of `else` and of the second text's quotes. */
  datatype ElsePart = ElsePart(g: nat, h: nat, j: nat)

  /** Matches `\s*else\s*"[^"]*?"` after the first text's closing quote at `e`. */
  function MatchElse(s: string, e: nat): (r: Option<ElsePart>)
    requires e < |s|
    ensures r.Some? ==> Spaces(s, e + 1, r.value.g) && ElseAt(s, r.value.g) && Spaces(s, r.value.g + 4, r.value.h)
                        && CharAt(s, r.value.h, '"') && NoQuote(s, r.value.h + 1, r.value.j) && CharAt(s, r.value.j, '"')
  {
    var g := SkipSpaces(s, e + 1);
    if !ElseAt(s, g) then None
    else
      var h := SkipSpaces(s, g + 4);
      match Quoted(s, h)
      case None => None
      case Some(j) => Some(ElsePart(g, h, j))
  }

  lemma ElseComplete(s: string, e: nat, g: nat, h: nat, j: nat)
    requires e < |s| && Spaces(s, e + 1, g) && ElseAt(s, g) && Spaces(s, g + 4, h)
    requires CharAt(s, h, '"') && NoQuote(s, h + 1, j) && CharAt(s, j, '"')
    ensures MatchElse(s, e) == Some(ElsePart(g, h, j))
  {
    SkipExact(s, e + 1, g);
    SkipExact(s, g + 4, h);
    QuotedComplete(s, h, j);
  }

  /** Matches the rest of the pattern from `c`; nothing after the condition
      backtracks, so there is at most one way. */
  function MatchClosing(s: string, c: nat): (r: Option<Closing>)
    ensures r.Some? ==> ClosingFits(s, c, r.value.d, r.value.e, r.value.g, r.value.h, r.value.j)
  {
    if !CharAt(s, c, ')') then None
    else
      var d := SkipSpaces(s, c + 1);
      match Quoted(s, d)
      case None => None
      case Some(e) =>
        match MatchElse(s, e)
        case None => None
        case Some(t) => Some(Closing(d, e, t.g, t.h, t.j))
  }

  lemma ClosingComplete(s: string, c: nat, d: nat, e: nat, g: nat, h: nat, j: nat)
    requires ClosingFits(s, c, d, e, g, h, j)
    ensures MatchClosing(s, c) == Some(Closing(d, e, g, h, j))
  {
    SkipExact(s, c + 1, d);
    QuotedComplete(s, d, e);
    ElseComplete(s, e, g, h, j);
  }

  /** The lazy `(.+?)` from `a`: tries the condition `s[a..b]` for `b` upward
      until one lets the rest match, stopping at the end of the line. */
  function TryEnds(s: string, p: nat, o: nat, a: nat, b: nat): (r: Option<Layout>)
    requires a < b
    ensures r.Some? ==> r.value.p == p && r.value.o == o && r.value.a == a && b <= r.value.b
    decreases |s| + 1 - b
  {
    if b > |s| || BreakAt(s, b - 1) then None
    else
      var c := SkipSpaces(s, b);
      match MatchClosing(s, c)
      case Some(t) => Some(Layout(p, o, a, b, c, t.d, t.e, t.g, t.h, t.j))
      case None => TryEnds(s, p, o, a, b + 1)
  }

  /** The greedy `\s*` before the condition: tries condition starts from `a`
      downward to just after the parenthesis. */
  function TryStarts(s: string, p: nat, o: nat, a: nat): (r: Option<Layout>)
    requires o < a
    ensures r.Some? ==> r.value.p == p && r.value.o == o && o < r.value.a <= a
    decreases a
  {
    match TryEnds(s, p, o, a, a + 1)
    case Some(L) => Some(L)
    case None => if a == o + 1 then None else TryStarts(s, p, o, a - 1)
  }

  /** The pattern anchored at `p`. */
  function AttemptAt(s: string, p: nat): (r: Option<Layout>)
    ensures r.Some? ==> r.value.p == p
  {
    if !IfAt(s, p) then None
    else
      var o := SkipSpaces(s, p + 2);
      if !CharAt(s, o, '(') then None
      else TryStarts(s, p, o, SkipSpaces(s, o + 1))
  }

  /** The first start from `p` on, below `n`, that `ok` accepts; `n` when
      there is none. */
  function FirstStart(n: nat, p: nat, ok: nat -> bool): (q: nat)
    requires p <= n
    ensures p <= q <= n
    ensures q < n ==> ok(q)
    ensures forall k | p <= k < q :: !ok(k)
    decreases n - p
  {
    if p == n || ok(p) then p else FirstStart(n, p + 1, ok)
  }

  /** The unanchored search: the anchored attempt at the first start that
      succeeds. */
  function SearchFrom(s: string, p: nat): (r: Option<Layout>)
    requires p <= |s|
  {
    var q := FirstStart(|s|, p, (k: nat) => AttemptAt(s, k).Some?);
    if q < |s| then AttemptAt(s, q) else None
  }

  /** `formula.match(...)`: the match the engine takes, if any. */
  function Match(s: string): (r: Option<Layout>)
    ensures r.Some? ==> Fits(s, r.value)
  {
    var q := FirstStart(|s|, 0, (k: nat) => AttemptAt(s, k).Some?);
    if q < |s| then AttemptSound(s, q); SearchFrom(s, 0) else None
  }

  /* -------------------------------------------------------- soundness */

  lemma {:induction false} TryEndsSound(s: string, p: nat, o: nat, a: nat, b: nat)
    requires a < b && SingleLine(s, a, b - 1)
    ensures var r := TryEnds(s, p, o, a, b);
      r.Some? ==> SingleLine(s, a, r.value.b) && Spaces(s, r.value.b, r.value.c)
                  && ClosingFits(s, r.value.c, r.value.d, r.value.e, r.value.g, r.value.h, r.value.j)
    decreases |s| + 1 - b
  {
    if b <= |s| && !BreakAt(s, b - 1) {
      assert SingleLine(s, a, b);
      var c := SkipSpaces(s, b);
      match MatchClosing(s, c)
      case Some(t) =>
        assert TryEnds(s, p, o, a, b) == Some(Layout(p, o, a, b, c, t.d, t.e, t.g, t.h, t.j));
      case None =>
        TryEndsSound(s, p, o, a, b + 1);
    }
  }

  lemma {:induction false} TryStartsSound(s: string, p: nat, o: nat, a: nat)
    requires o < a && Spaces(s, o + 1, a)
    ensures var r := TryStarts(s, p, o, a);
      r.Some? ==> Spaces(s, o + 1, r.value.a) && r.value.a < r.value.b
                  && SingleLine(s, r.value.a, r.value.b) && Spaces(s, r.value.b, r.value.c)
                  && ClosingFits(s, r.value.c, r.value.d, r.value.e, r.value.g, r.value.h, r.value.j)
    decreases a
  {
    TryEndsSound(s, p, o, a, a + 1);
    match TryEnds(s, p, o, a, a + 1)
    case Some(L) =>
      assert TryStarts(s, p, o, a) == Some(L);
    case None =>
      if a != o + 1 {
        TryStartsSound(s, p, o, a - 1);
      }
  }

  /** What the anchored attempt finds is a way of matching. */
  lemma AttemptSound(s: string, p: nat)
    ensures AttemptAt(s, p).Some? ==> Fits(s, AttemptAt(s, p).value)
  {
    if IfAt(s, p) {
      var o := SkipSpaces(s, p + 2);
      if CharAt(s, o, '(') {
        var top := SkipSpaces(s, o + 1);
        TryStartsSound(s, p, o, top);
        assert AttemptAt(s, p) == TryStarts(s, p, o, top);
      }
    }
  }

  /* ----------------------------------------------------- completeness */

  lemma {:induction false} TryEndsComplete(s: string, p: nat, o: nat, a: nat, b: nat, M: Layout)
    requires a < b && M.a == a && b <= M.b
    requires SingleLine(s, M.a, M.b) && Spaces(s, M.b, M.c)
    requires ClosingFits(s, M.c, M.d, M.e, M.g, M.h, M.j)
    ensures TryEnds(s, p, o, a, b).Some?
    ensures TryEnds(s, p, o, a, b).value.b <= M.b
    decreases |s| + 1 - b
  {
    assert b <= |s| && !BreakAt(s, b - 1);
    var c := SkipSpaces(s, b);
    if b == M.b {
      SkipExact(s, b, M.c);
      ClosingComplete(s, M.c, M.d, M.e, M.g, M.h, M.j);
    } else if MatchClosing(s, c).None? {
      TryEndsComplete(s, p, o, a, b + 1, M);
    }
  }

  lemma {:induction false} TryStartsComplete(s: string, p: nat, o: nat, a: nat, M: Layout)
    requires o < M.a <= a && M.p == p
    requires TryEnds(s, p, o, M.a, M.a + 1).Some? && TryEnds(s, p, o, M.a, M.a + 1).value.b <= M.b
    ensures TryStarts(s, p, o, a).Some?
    ensures Preferred(TryStarts(s, p, o, a).value, M)
    decreases a
  {
    if a != M.a && TryEnds(s, p, o, a, a + 1).None? {
      TryStartsComplete(s, p, o, a - 1, M);
    }
  }

  /** What a fitting layout tells about the search anchored at its start. */
  lemma StartFacts(s: string, M: Layout)
    requires Fits(s, M)
    ensures IfAt(s, M.p) && SkipSpaces(s, M.p + 2) == M.o && CharAt(s, M.o, '(')
    ensures M.o < M.a <= SkipSpaces(s, M.o + 1)
    ensures TryEnds(s, M.p, M.o, M.a, M.a + 1).Some?
    ensures TryEnds(s, M.p, M.o, M.a, M.a + 1).value.b <= M.b
  {
    assert !SpaceAt(s, M.o);
    SkipExact(s, M.p + 2, M.o);
    TryEndsComplete(s, M.p, M.o, M.a, M.a + 1, M);
  }

  lemma AttemptComplete(s: string, M: Layout, top: nat)
    requires IfAt(s, M.p) && SkipSpaces(s, M.p + 2) == M.o && CharAt(s, M.o, '(')
    requires top == SkipSpaces(s, M.o + 1)
    requires TryStarts(s, M.p, M.o, top).Some? && Preferred(TryStarts(s, M.p, M.o, top).value, M)
    ensures AttemptAt(s, M.p).Some?
    ensures Preferred(AttemptAt(s, M.p).value, M)
  {
  }

  /** The unanchored search settles at or before any start where the anchored
      attempt is preferred to `M`. */
  lemma SearchComplete(s: string, M: Layout)
    requires M.p < |s|
    requires AttemptAt(s, M.p).Some? && Preferred(AttemptAt(s, M.p).value, M)
    ensures Match(s).Some?
    ensures Preferred(Match(s).value, M)
  {
    var ok := (k: nat) => AttemptAt(s, k).Some?;
    assert ok(M.p);
  }

  /** The engine finds a match exactly when the pattern can match, and the one
      it finds is preferred to every other way of matching. */
  lemma MatchIsPreferred(s: string)
    ensures Match(s).None? <==> forall L :: !Fits(s, L)
    ensures Match(s).Some? ==> forall M | Fits(s, M) :: Preferred(Match(s).value, M)
  {
    forall M | Fits(s, M) ensures Match(s).Some? && Preferred(Match(s).value, M) {
      StartFacts(s, M);
      var top := SkipSpaces(s, M.o + 1);
      TryStartsComplete(s, M.p, M.o, top, M);
      AttemptComplete(s, M, top);
      SearchComplete(s, M);
    }
  }
}

=== FILE: Derived.dfy ===
/** Derived fields (`calculateDerivedValue` and its helpers in app.js): a
    read-only field whose value is computed from the live values of its
    parent fields, as an age, a full name, an arithmetic formula or a
    conditional text. */
module Derived {
  import opened Wrappers
  import opened JsText
  import opened Lists
  import opened Fields
  import opened Bindings
  import opened Host
  import opened Conditional

  /* ------------------------------------------------------------------ age */

  /** Date `d` falls strictly before date `e`. */
  predicate Earlier(d: CivilDate, e: CivilDate) {
    d.year < e.year
    || (d.year == e.year && (d.month < e.month || (d.month == e.month && d.day < e.day)))
  }

  /** The `n`th anniversary of `birth`. */
  function Anniversary(birth: CivilDate, n: int): CivilDate {
    CivilDate(birth.year + n, birth.month, birth.day)
  }

  /** `calculateAge`: whole years from `birth` to `today`, one less while this
      year's birthday is still to come. The result is the number of
      anniversaries reached: the `age`th has happened, the next has not. */
  function CalculateAge(birth: CivilDate, today: CivilDate): (age: int)
    ensures !Earlier(today, Anniversary(birth, age))
    ensures Earlier(today, Anniversary(birth, age + 1))
  {
    var age := today.year - birth.year;
    var monthDiff := today.month - birth.month;
    if monthDiff < 0 || (monthDiff == 0 && today.day < birth.day) then age - 1 else age
  }

  /** Only one count of years sits between two consecutive anniversaries, so
      the age is determined by that property. */
  lemma AgeIsCompletedYears(birth: CivilDate, today: CivilDate, n: int)
    ensures n == CalculateAge(birth, today)
        <==> !Earlier(today, Anniversary(birth, n)) && Earlier(today, Anniversary(birth, n + 1))
  {
  }

  /** On the birthday the age is the full difference of years; the day
      before, one less. */
  lemma AgeAroundBirthday(birth: CivilDate, year: int)
    ensures CalculateAge(birth, CivilDate(year, birth.month, birth.day)) == year - birth.year
    ensures CalculateAge(birth, CivilDate(year, birth.month, birth.day - 1)) == year - birth.year - 1
  {
  }

  /* ------------------------------------------------------ parent values */

  /** The binding key a parent is known by through its id. */
  function IdKey(id: int): string {
    "field" + IntToString(id)
  }

  /** The binding key a parent is known by through its label. */
  function CaptionKey(f: Field): string {
    StripWhitespace(f.caption)
  }

  /** The one key a plain object does not store: assigning a string to
      `__proto__` goes to the prototype setter, which ignores it. */
  const ProtoKey := "__proto__"

  /** The assignments a present parent makes to `parentValues`: its value
      under its id key, then under its label key unless that key is
      `__proto__`. */
  function ParentWrites(f: Field, id: int, v: string): (ws: seq<Entry>)
    ensures Entry(IdKey(id), v) in ws
    ensures Entry(CaptionKey(f), v) in ws <==> CaptionKey(f) != ProtoKey
    ensures forall w <- ws :: w.value == v && w.key != ProtoKey && (w.key == IdKey(id) || w.key == CaptionKey(f))
  {
    assert IdKey(id)[0] != ProtoKey[0];
    [Entry(IdKey(id), v)] + if CaptionKey(f) == ProtoKey then [] else [Entry(CaptionKey(f), v)]
  }

  /** A parent id that names a field of the form and has an element on the
      page: it contributes bindings. */
  predicate Present(fields: seq<Field>, controls: map<int, Control>, id: int) {
    FindField(fields, id).Some? && id in controls
  }

  /** The live value of a present parent. */
  function ParentValue(fields: seq<Field>, controls: map<int, Control>, id: int): string
    requires Present(fields, controls, id)
  {
    LiveValue(FindField(fields, id).value, controls[id])
  }

  /** A parent id does not hold the derived value back: it names no field,
      or it has an element with a non-blank value. */
  predicate Satisfied(fields: seq<Field>, controls: map<int, Control>, id: int) {
    FindField(fields, id).None?
    || (id in controls && !Blank(ParentValue(fields, controls, id)))
  }

  /** The outcome of the `parentFields.forEach` pass: whether every parent has
      a value, and the assignments made to `parentValues`, in order. */
  datatype Gathered = Gathered(ready: bool, writes: seq<Entry>)

  /** One parent's turn in the pass. An id naming no field is skipped; one
      without an element clears `ready` and binds nothing; otherwise the value
      is bound under the id key and then under the label key (which a
      `__proto__` key leaves unbound), and a blank value clears `ready`. */
  function Extend(fields: seq<Field>, controls: map<int, Control>, g: Gathered, id: int): Gathered {
    match FindField(fields, id)
    case None => g
    case Some(f) =>
      if id !in controls then Gathered(false, g.writes)
      else
        var v := LiveValue(f, controls[id]);
        Gathered(g.ready && !Blank(v), g.writes + ParentWrites(f, id, v))
  }

  /** The turn function of the pass over a given form and page. */
  function Turn(fields: seq<Field>, controls: map<int, Control>): (Gathered, int) -> Gathered {
    (g: Gathered, id: int) => Extend(fields, controls, g, id)
  }

  /** Visits the parents in order. */
  function Gather(fields: seq<Field>, controls: map<int, Control>, parents: seq<int>): Gathered {
    FoldLeft(Turn(fields, controls), Gathered(true, []), parents)
  }

  lemma GatherSnoc(fields: seq<Field>, controls: map<int, Control>, parents: seq<int>)
    requires parents != []
    ensures Gather(fields, controls, parents)
         == Extend(fields, controls, Gather(fields, controls, parents[..|parents| - 1]), parents[|parents| - 1])
  {
  }

  /** The pass ends ready exactly when every parent is satisfied. */
  lemma {:induction false} GatherReady(fields: seq<Field>, controls: map<int, Control>, parents: seq<int>)
    ensures Gather(fields, controls, parents).ready
        <==> forall i | 0 <= i < |parents| :: Satisfied(fields, controls, parents[i])
    decreases |parents|
  {
    if parents != [] {
      var init := parents[..|parents| - 1];
      GatherSnoc(fields, controls, parents);
      ExtendFacts(fields, controls, Gather(fields, controls, init), parents[|parents| - 1]);
      GatherReady(fields, controls, init);
      assert forall i | 0 <= i < |init| :: init[i] == parents[i];
    }
  }

  /** One turn: `ready` survives exactly when the parent is satisfied, earlier
      writes are kept, and a present parent's two bindings are added. */
  lemma ExtendFacts(fields: seq<Field>, controls: map<int, Control>, g: Gathered, id: int)
    ensures Extend(fields, controls, g, id).ready == (g.ready && Satisfied(fields, controls, id))
    ensures forall w | w in g.writes :: w in Extend(fields, controls, g, id).writes
    ensures forall w | w in Extend(fields, controls, g, id).writes ::
              || w in g.writes
              || (&& Present(fields, controls, id) && w.value == ParentValue(fields, controls, id) && w.key != ProtoKey
                  && (w.key == IdKey(id) || w.key == CaptionKey(FindField(fields, id).value)))
    ensures Present(fields, controls, id) ==>
              var v := ParentValue(fields, controls, id);
              && Entry(IdKey(id), v) in Extend(fields, controls, g, id).writes
              && (CaptionKey(FindField(fields, id).value) != ProtoKey ==>
                    Entry(CaptionKey(FindField(fields, id).value), v) in Extend(fields, controls, g, id).writes)
  {
  }

  /** Every present parent's value is bound under its id key and, unless it
      is `__proto__`, under its label key. */
  lemma GatherBindsPresentParents(fields: seq<Field>, controls: map<int, Control>, parents: seq<int>)
    ensures forall i | 0 <= i < |parents| && Present(fields, controls, parents[i]) ::
              var v := ParentValue(fields, controls, parents[i]);
              && Entry(IdKey(parents[i]), v) in Gather(fields, controls, parents).writes
              && (CaptionKey(FindField(fields, parents[i]).value) != ProtoKey ==>
                    Entry(CaptionKey(FindField(fields, parents[i]).value), v) in Gather(fields, controls, parents).writes)
  {
    forall i | 0 <= i < |parents| && Present(fields, controls, parents[i]) {
      GatherBindsParent(fields, controls, parents, i, parents[i], ParentValue(fields, controls, parents[i]));
    }
  }

  /** The bindings of the parent at position `k`, whose id is `id` and whose
      value is `v`. */
  lemma GatherBindsParent(fields: seq<Field>, controls: map<int, Control>, parents: seq<int>, k: nat,
                          id: int, v: string)
    requires k < |parents| && parents[k] == id && Present(fields, controls, id)
    requires v == ParentValue(fields, controls, id)
    ensures Entry(IdKey(id), v) in Gather(fields, controls, parents).writes
    ensures CaptionKey(FindField(fields, id).value) != ProtoKey ==>
              Entry(CaptionKey(FindField(fields, id).value), v) in Gather(fields, controls, parents).writes
  {
    var upto := parents[..k + 1];
    assert upto[..k] == parents[..k] && upto[k] == id;
    GatherGrows(fields, controls, upto);
    GatherKeeps(fields, controls, parents, k, Entry(IdKey(id), v));
    if CaptionKey(FindField(fields, id).value) != ProtoKey {
      GatherKeeps(fields, controls, parents, k, Entry(CaptionKey(FindField(fields, id).value), v));
    }
  }

  /** A write made by the time the pass reaches position `k` is still there
      at the end. */
  lemma {:induction false} GatherKeeps(fields: seq<Field>, controls: map<int, Control>, parents: seq<int>, k: nat, e: Entry)
    requires k < |parents| && e in Gather(fields, controls, parents[..k + 1]).writes
    ensures e in Gather(fields, controls, parents).writes
    decreases |parents|
  {
    if k + 1 == |parents| {
      assert parents[..k + 1] == parents;
    } else {
      var init := parents[..|parents| - 1];
      assert init[..k + 1] == parents[..k + 1];
      GatherKeeps(fields, controls, init, k, e);
      GatherGrows(fields, controls, parents);
    }
  }

  /** The pass only adds writes, and a present last parent adds its own. */
  lemma GatherGrows(fields: seq<Field>, controls: map<int, Control>, parents: seq<int>)
    requires parents != []
    ensures var g0 := Gather(fields, controls, parents[..|parents| - 1]);
      forall w | w in g0.writes :: w in Gather(fields, controls, parents).writes
    ensures var id := parents[|parents| - 1];
      Present(fields, controls, id) ==>
        var v := ParentValue(fields, controls, id);
        && Entry(IdKey(id), v) in Gather(fields, controls, parents).writes
        && (CaptionKey(FindField(fields, id).value) != ProtoKey ==>
              Entry(CaptionKey(FindField(fields, id).value), v) in Gather(fields, controls, parents).writes)
  {
    GatherSnoc(fields, controls, parents);
    ExtendFacts(fields, controls, Gather(fields, controls, parents[..|parents| - 1]), parents[|parents| - 1]);
  }

  /** A parent id that names no field of the form changes nothing, wherever
      it stands in the list. */
  lemma GatherSkipsUnknown(fields: seq<Field>, controls: map<int, Control>, xs: seq<int>, x: int, ys: seq<int>)
    requires FindField(fields, x).None?
    ensures Gather(fields, controls, xs + [x] + ys) == Gather(fields, controls, xs + ys)
  {
    var turn := Turn(fields, controls);
    forall g ensures turn(g, x) == g {
    }
    FoldSkips(turn, Gathered(true, []), xs, x, ys);
  }

  /** Every binding the pass makes is the value of a present parent, under
      that parent's id key or label key, and none is under `__proto__`. */
  lemma {:induction false} GatherWritesFromParents(fields: seq<Field>, controls: map<int, Control>, parents: seq<int>)
    ensures forall w | w in Gather(fields, controls, parents).writes ::
              exists i | 0 <= i < |parents| ::
                && Present(fields, controls, parents[i])
                && w.value == ParentValue(fields, controls, parents[i])
                && (w.key == IdKey(parents[i]) || w.key == CaptionKey(FindField(fields, parents[i]).value))
    ensures forall w | w in Gather(fields, controls, parents).writes :: w.key != ProtoKey
    decreases |parents|
  {
    if parents != [] {
      var init := parents[..|parents| - 1];
      var n := |parents| - 1;
      GatherSnoc(fields, controls, parents);
      ExtendFacts(fields, controls, Gather(fields, controls, init), parents[n]);
      GatherWritesFromParents(fields, controls, init);
      forall w | w in Gather(fields, controls, parents).writes
        ensures exists i | 0 <= i < |parents| ::
                  && Present(fields, controls, parents[i])
                  && w.value == ParentValue(fields, controls, parents[i])
                  && (w.key == IdKey(parents[i]) || w.key == CaptionKey(FindField(fields, parents[i]).value))
      {
        if w in Gather(fields, controls, init).writes {
          var i :| 0 <= i < |init| && Present(fields, controls, init[i])
                   && w.value == ParentValue(fields, controls, init[i])
                   && (w.key == IdKey(init[i]) || w.key == CaptionKey(FindField(fields, init[i]).value));
          assert parents[i] == init[i];
        } else {
          assert parents[n] == parents[n];
        }
      }
    }
  }

  /** Different ids give different id keys. */
  lemma IdKeyInjective(a: int, b: int)
    requires IdKey(a) == IdKey(b)
    ensures a == b
  {
    assert IdKey(a)[5..] == IntToString(a);
    assert IdKey(b)[5..] == IntToString(b);
    IntToStringInjective(a, b);
  }

  /** The pass reads the page only at the parents' ids. */
  lemma {:induction false} GatherReadsParentsOnly(fields: seq<Field>, c1: map<int, Control>, c2: map<int, Control>, parents: seq<int>)
    requires forall i | 0 <= i < |parents| :: (parents[i] in c1 <==> parents[i] in c2)
    requires forall i | 0 <= i < |parents| && parents[i] in c1 :: c1[parents[i]] == c2[parents[i]]
    ensures Gather(fields, c1, parents) == Gather(fields, c2, parents)
    decreases |parents|
  {
    if parents != [] {
      var init := parents[..|parents| - 1];
      assert forall i | 0 <= i < |init| :: init[i] == parents[i];
      GatherReadsParentsOnly(fields, c1, c2, init);
    }
  }

  /** `id` names a field of the form, and that field is a date picker. */
  predicate NamesDate(fields: seq<Field>, id: int) {
    var f := FindField(fields, id);
    f.Some? && f.value.kind == FieldKind.Date
  }

  /** The first parent naming a date field, in list order. */
  function FirstDateParent(fields: seq<Field>, parents: seq<int>): (r: Option<int>)
    ensures r.Some? ==> r.value in parents && NamesDate(fields, r.value)
    ensures r.Some? ==> exists i | 0 <= i < |parents| :: parents[i] == r.value && forall j | 0 <= j < i :: !NamesDate(fields, parents[j])
    ensures r.None? <==> forall i | 0 <= i < |parents| :: !NamesDate(fields, parents[i])
  {
    var i := IndexWhere(parents, (id: int) => NamesDate(fields, id));
    if i < |parents| then Some(parents[i]) else None
  }

  /** A parent id that names no field cannot be the date parent, wherever it
      stands. */
  lemma FirstDateParentSkipsUnknown(fields: seq<Field>, xs: seq<int>, x: int, ys: seq<int>)
    requires FindField(fields, x).None?
    ensures FirstDateParent(fields, xs + [x] + ys) == FirstDateParent(fields, xs + ys)
  {
    IndexWhereSkips(xs, x, ys, (id: int) => NamesDate(fields, id));
  }

  /** The `age` case: the first date parent's value (read back under its id
      key), parsed by the host; no such parent, a falsy id or an empty value
      gives "", and an invalid date "NaN". */
  function AgeValue(rt: Runtime, today: CivilDate, dateParent: Option<int>, b: seq<Entry>): string {
    match dateParent
    case None => ""
    case Some(id) =>
      if id == 0 then ""
      else
        match Lookup(b, IdKey(id))
        case None => ""
        case Some(v) =>
          if v == "" then ""
          else
            match rt.parseDate(v)
            case None => "NaN"
            case Some(birth) => IntToString(CalculateAge(birth, today))
  }

  /** The `fullName` case: the non-empty bound values, in key order, joined
      by single spaces. */
  function FullNameOf(b: seq<Entry>): string {
    Join(Filter(Values(b), (v: string) => v != ""), " ")
  }

  /* ------------------------------------------------------- substitution */

  /** Each key of `b` in turn, every occurrence in `e` replaced by the
      rendering of its value. */
  function Substitute(e: string, b: seq<Entry>, render: string -> string): string
    decreases |b|
  {
    if b == [] then e
    else Substitute(ReplaceAll(e, b[0].key, render(b[0].value)), b[1..], render)
  }

  /** A text that mentions no key comes through unchanged. */
  lemma {:induction false} SubstituteWithoutKeys(e: string, b: seq<Entry>, render: string -> string)
    requires forall i | 0 <= i < |b| :: b[i].key != [] && !Contains(e, b[i].key)
    ensures Substitute(e, b, render) == e
    decreases |b|
  {
    if b != [] {
      ReplaceAllWithoutKey(e, b[0].key, render(b[0].value));
      SubstituteWithoutKeys(e, b[1..], render);
    }
  }

  /* ------------------------------------------------------------ formula */

  /** The characters `[0-9+\-*\/.() ]`. */
  predicate ArithmeticChar(c: char) {
    ('0' <= c <= '9') || c == '+' || c == '-' || c == '*' || c == '/' || c == '.'
    || c == '(' || c == ')' || c == ' '
  }

  /** The whitelist an expression must pass before it is evaluated. */
  predicate Arithmetic(e: string) {
    e != [] && forall i | 0 <= i < |e| :: ArithmeticChar(e[i])
  }

  /** The expression a formula becomes: every key replaced by its value read
      as a number. */
  function FormulaExpression(rt: Runtime, formula: string, b: seq<Entry>): string {
    Substitute(formula, b, rt.numeral)
  }

  /** `evaluateFormula`. */
  function EvaluateFormula(rt: Runtime, formula: string, b: seq<Entry>): (r: string)
    ensures formula == [] ==> r == ""
    ensures formula != [] && !Arithmetic(FormulaExpression(rt, formula, b)) ==> r == "Invalid formula"
    ensures formula != [] && Arithmetic(FormulaExpression(rt, formula, b)) ==>
              (rt.arithmetic(FormulaExpression(rt, formula, b)).Raised? ==> r == "Error")
              && (rt.arithmetic(FormulaExpression(rt, formula, b)).NotANumber? ==> r == "Invalid")
              && (rt.arithmetic(FormulaExpression(rt, formula, b)).Value? ==>
                    r == rt.arithmetic(FormulaExpression(rt, formula, b)).text)
  {
    if formula == [] then ""
    else
      var e := FormulaExpression(rt, formula, b);
      if !Arithmetic(e) then "Invalid formula"
      else
        match rt.arithmetic(e)
        case Raised => "Error"
        case NotANumber => "Invalid"
        case Value(t) => t
  }

  /** The whitelist is checked before anything is evaluated: a rejected
      expression gives the same answer whatever the evaluator would do. */
  lemma RejectedFormulaIsNotEvaluated(rt1: Runtime, rt2: Runtime, formula: string, b: seq<Entry>)
    requires rt1.numeral == rt2.numeral
    requires !Arithmetic(FormulaExpression(rt1, formula, b))
    ensures EvaluateFormula(rt1, formula, b) == EvaluateFormula(rt2, formula, b)
  {
  }

  /** A formula that names no key is evaluated as written. */
  lemma FormulaWithoutKeys(rt: Runtime, formula: string, b: seq<Entry>)
    requires Arithmetic(formula)
    requires forall i | 0 <= i < |b| :: b[i].key != [] && !Contains(formula, b[i].key)
    ensures rt.arithmetic(formula) == Raised ==> EvaluateFormula(rt, formula, b) == "Error"
    ensures rt.arithmetic(formula) == NotANumber ==> EvaluateFormula(rt, formula, b) == "Invalid"
    ensures rt.arithmetic(formula).Value? ==> EvaluateFormula(rt, formula, b) == rt.arithmetic(formula).text
  {
    SubstituteWithoutKeys(formula, b, rt.numeral);
  }

  /* -------------------------------------------------------- conditional */

  /** A value as it enters a condition: bare when the host reads it as a
      number, in double quotes otherwise. */
  function Operand(rt: Runtime, v: string): string {
    if rt.numeric(v) then v else "\"" + v + "\""
  }

  /** `evaluateConditional`. */
  function EvaluateConditional(rt: Runtime, formula: string, b: seq<Entry>): (r: string)
    ensures formula == [] ==> r == ""
    ensures formula != [] && (forall L :: !Fits(formula, L)) ==> r == "Invalid condition"
  {
    if formula == [] then ""
    else
      match Match(formula)
      case None =>
        MatchIsPreferred(formula);
        "Invalid condition"
      case Some(L) =>
        var test := Substitute(formula[L.a..L.b], b, v => Operand(rt, v));
        match rt.condition(test)
        case Threw => "Error"
        case Yields(t) => if t then formula[L.d + 1..L.e] else formula[L.h + 1..L.j]
  }

  /** When the grammar matches, the answer comes from the match the pattern
      prefers: "Error" when the substituted condition throws, and otherwise
      the first quoted text for a truthy condition and the second for a falsy
      one; both texts are free of double quotes. */
  lemma ConditionalUsesPreferredMatch(rt: Runtime, formula: string, b: seq<Entry>)
    requires Match(formula).Some?
    ensures ConditionalOutcome(rt, formula, b, Match(formula).value)
  {
    var L := Match(formula).value;
    var first := formula[L.d + 1..L.e];
    var second := formula[L.h + 1..L.j];
    forall i | 0 <= i < |first| ensures first[i] != '"' {
      assert first[i] == formula[L.d + 1 + i];
      assert !QuoteAt(formula, L.d + 1 + i);
    }
    forall i | 0 <= i < |second| ensures second[i] != '"' {
      assert second[i] == formula[L.h + 1 + i];
      assert !QuoteAt(formula, L.h + 1 + i);
    }
  }

  /** What the conditional evaluates to given the match `L`. */
  predicate ConditionalOutcome(rt: Runtime, formula: string, b: seq<Entry>, L: Layout)
    requires Fits(formula, L)
  {
    var r := EvaluateConditional(rt, formula, b);
    var test := Substitute(formula[L.a..L.b], b, v => Operand(rt, v));
    var first := formula[L.d + 1..L.e];
    var second := formula[L.h + 1..L.j];
    (forall i | 0 <= i < |first| :: first[i] != '"')
    && (forall i | 0 <= i < |second| :: second[i] != '"')
    && (rt.condition(test) == Threw ==> r == "Error")
    && (rt.condition(test) == Yields(true) ==> r == first)
    && (rt.condition(test) == Yields(false) ==> r == second)
  }

  /* ------------------------------------------------------------ dispatch */

  /** The switch on the derived type, once every parent has a value: `b` are
      the bindings and `dateParent` the first date parent. */
  function Dispatch(rt: Runtime, today: CivilDate, kind: DerivedKind, formula: string,
                    g: Gathered, dateParent: Option<int>): string
  {
    if !g.ready then ""
    else
      var b := AssignAll([], g.writes);
      match kind
      case Age => AgeValue(rt, today, dateParent, b)
      case FullName => FullNameOf(b)
      case Calculation => EvaluateFormula(rt, formula, b)
      case Conditional => EvaluateConditional(rt, formula, b)
      case UnknownKind(_) => ""
  }

  /** `calculateDerivedValue` for field `f`, with the form's fields and the
      page's controls. */
  function CalculateDerivedValue(rt: Runtime, today: CivilDate, fields: seq<Field>, controls: map<int, Control>, f: Field): (r: string)
    ensures f.derived.None? ==> r == ""
    ensures f.derived.Some? && f.derived.value.parents == [] ==> r == ""
    ensures f.derived.Some? && f.derived.value.kind.UnknownKind? ==> r == ""
    ensures f.derived.Some? ==>
              (exists i | 0 <= i < |f.derived.value.parents| :: !Satisfied(fields, controls, f.derived.value.parents[i]))
              ==> r == ""
  {
    match f.derived
    case None => ""
    case Some(cfg) =>
      if cfg.parents == [] then ""
      else
        GatherReady(fields, controls, cfg.parents);
        Dispatch(rt, today, cfg.kind, cfg.formula, Gather(fields, controls, cfg.parents), FirstDateParent(fields, cfg.parents))
  }

  /** On the preview app.js renders, a radio or checkbox parent never counts
      as filled in, since it has no element by id, so a derived field that
      lists one always shows "". */
  lemma ChoiceParentBlocksDerived(rt: Runtime, today: CivilDate, fields: seq<Field>, controls: map<int, Control>,
                                  f: Field, id: int)
    requires PreviewPage(fields, controls)
    requires f.derived.Some? && id in f.derived.value.parents
    requires FindField(fields, id).Some? && ChoiceGroup(FindField(fields, id).value)
    ensures !Satisfied(fields, controls, id)
    ensures CalculateDerivedValue(rt, today, fields, controls, f) == ""
  {
    var i :| 0 <= i < |fields| && fields[i] == FindField(fields, id).value;
    assert id !in controls;
    var k :| 0 <= k < |f.derived.value.parents| && f.derived.value.parents[k] == id;
    assert !Satisfied(fields, controls, f.derived.value.parents[k]);
  }

  /** The `age` case, once every parent is filled in: no date parent gives
      ""; otherwise, unless the first date parent's id is 0 or some label
      spells its id key, its own value is read back and the result is the
      age at the date the host parses, or "NaN" for a date it rejects. */
  lemma AgeUsesFirstDateParent(rt: Runtime, today: CivilDate, fields: seq<Field>, controls: map<int, Control>, f: Field)
    requires f.derived.Some? && f.derived.value.kind == Age && f.derived.value.parents != []
    requires forall i | 0 <= i < |f.derived.value.parents| :: Satisfied(fields, controls, f.derived.value.parents[i])
    ensures FirstDateParent(fields, f.derived.value.parents).None? ==>
              CalculateDerivedValue(rt, today, fields, controls, f) == ""
    ensures var d := FirstDateParent(fields, f.derived.value.parents);
      d.Some? && d.value != 0 && (forall k | 0 <= k < |fields| :: CaptionKey(fields[k]) != IdKey(d.value)) ==>
        && Present(fields, controls, d.value)
        && CalculateDerivedValue(rt, today, fields, controls, f) ==
             match rt.parseDate(ParentValue(fields, controls, d.value))
             case None => "NaN"
             case Some(birth) => IntToString(CalculateAge(birth, today))
  {
    var parents := f.derived.value.parents;
    var g := Gather(fields, controls, parents);
    GatherReady(fields, controls, parents);
    var d := FirstDateParent(fields, parents);
    assert CalculateDerivedValue(rt, today, fields, controls, f) == AgeValue(rt, today, d, AssignAll([], g.writes));
    if d.Some? && d.value != 0 && (forall k | 0 <= k < |fields| :: CaptionKey(fields[k]) != IdKey(d.value)) {
      var id := d.value;
      var m :| 0 <= m < |parents| && parents[m] == id;
      assert Satisfied(fields, controls, parents[m]);
      var v := ParentValue(fields, controls, id);
      DateParentReadsBack(fields, controls, parents, m, id, v);
      var b := AssignAll([], g.writes);
      assert AgeValue(rt, today, d, b) == match rt.parseDate(v)
             case None => "NaN"
             case Some(birth) => IntToString(CalculateAge(birth, today));
    }
  }

  /** The parent at position `m`, when no label spells its id key, reads
      back its own value under that key. */
  lemma DateParentReadsBack(fields: seq<Field>, controls: map<int, Control>, parents: seq<int>, m: nat,
                            id: int, v: string)
    requires m < |parents| && parents[m] == id && Present(fields, controls, id)
    requires v == ParentValue(fields, controls, id)
    requires forall k | 0 <= k < |fields| :: CaptionKey(fields[k]) != IdKey(id)
    ensures Lookup(AssignAll([], Gather(fields, controls, parents).writes), IdKey(id)) == Some(v)
  {
    var g := Gather(fields, controls, parents);
    GatherBindsParent(fields, controls, parents, m, id, v);
    GatherWritesFromParents(fields, controls, parents);
    forall w | w in g.writes && w.key == IdKey(id) ensures w.value == v {
      var i :| 0 <= i < |parents| && Present(fields, controls, parents[i])
               && w.value == ParentValue(fields, controls, parents[i])
               && (w.key == IdKey(parents[i]) || w.key == CaptionKey(FindField(fields, parents[i]).value));
      var q := FindField(fields, parents[i]).value;
      var k :| 0 <= k < |fields| && fields[k] == q;
      assert CaptionKey(fields[k]) != IdKey(id);
      IdKeyInjective(parents[i], id);
    }
    LastWriteIs(g.writes, IdKey(id), v);
    LastWriteWins(g.writes, IdKey(id));
  }

  /** A parent id naming no field can be dropped from the list, as long as
      others remain. */
  lemma DerivedSkipsUnknownParent(rt: Runtime, today: CivilDate, fields: seq<Field>, controls: map<int, Control>,
                                  f: Field, xs: seq<int>, x: int, ys: seq<int>)
    requires f.derived.Some? && f.derived.value.parents == xs + [x] + ys
    requires FindField(fields, x).None? && xs + ys != []
    ensures CalculateDerivedValue(rt, today, fields, controls, f)
         == CalculateDerivedValue(rt, today, fields, controls, f.(derived := Some(f.derived.value.(parents := xs + ys))))
  {
    GatherSkipsUnknown(fields, controls, xs, x, ys);
    FirstDateParentSkipsUnknown(fields, xs, x, ys);
  }

  /** The value depends on the page only through the parents' elements. */
  lemma DerivedReadsParentsOnly(rt: Runtime, today: CivilDate, fields: seq<Field>, c1: map<int, Control>, c2: map<int, Control>, f: Field)
    requires f.derived.Some?
    requires forall i | 0 <= i < |f.derived.value.parents| ::
               var id := f.derived.value.parents[i];
               (id in c1 <==> id in c2) && (id in c1 ==> c1[id] == c2[id])
    ensures CalculateDerivedValue(rt, today, fields, c1, f) == CalculateDerivedValue(rt, today, fields, c2, f)
  {
    GatherReadsParentsOnly(fields, c1, c2, f.derived.value.parents);
  }

  /** Each parent's value is bound under two keys, so a full name repeats
      it: a single parent whose label key is neither its id key nor
      `__proto__` gives "v v". */
  lemma FullNameRepeatsValues(rt: Runtime, today: CivilDate, fields: seq<Field>, controls: map<int, Control>, f: Field, id: int)
    requires f.derived.Some? && f.derived.value.kind == FullName && f.derived.value.parents == [id]
    requires Present(fields, controls, id) && !Blank(ParentValue(fields, controls, id))
    requires CaptionKey(FindField(fields, id).value) != IdKey(id)
    requires CaptionKey(FindField(fields, id).value) != ProtoKey
    ensures var v := ParentValue(fields, controls, id);
      CalculateDerivedValue(rt, today, fields, controls, f) == v + " " + v
  {
    var v := ParentValue(fields, controls, id);
    var k1, k2 := IdKey(id), CaptionKey(FindField(fields, id).value);
    var g := Gather(fields, controls, [id]);
    assert g == Gathered(true, [Entry(k1, v), Entry(k2, v)]) by {
      assert [id][..0] == [];
      assert Gather(fields, controls, []) == Gathered(true, []);
    }
    assert v != "";
    FullNameOfPair(k1, k2, v);
  }

  /** A single parent whose label strips to `__proto__` is bound only under
      its id key, so its value appears once. */
  lemma FullNameOfProtoLabel(rt: Runtime, today: CivilDate, fields: seq<Field>, controls: map<int, Control>, f: Field, id: int)
    requires f.derived.Some? && f.derived.value.kind == FullName && f.derived.value.parents == [id]
    requires Present(fields, controls, id) && !Blank(ParentValue(fields, controls, id))
    requires CaptionKey(FindField(fields, id).value) == ProtoKey
    ensures CalculateDerivedValue(rt, today, fields, controls, f) == ParentValue(fields, controls, id)
  {
    var v := ParentValue(fields, controls, id);
    var g := Gather(fields, controls, [id]);
    assert g == Gathered(true, [Entry(IdKey(id), v)]) by {
      assert [id][..0] == [];
      assert Gather(fields, controls, []) == Gathered(true, []);
    }
    assert v != "";
    FullNameOfSingle(IdKey(id), v);
  }

  lemma FullNameOfSingle(k: string, v: string)
    requires v != ""
    ensures FullNameOf(AssignAll([], [Entry(k, v)])) == v
  {
    var e := Entry(k, v);
    assert [e][..0] == [];
    AssignAllLast([e]);
    assert AssignAll([], [e]) == [e];
    assert Values([e]) == [v];
    FilterKeepsAll([v], (x: string) => x != "");
  }

  /** `fullName` over any bindings: the name is "" exactly when every bound
      value is "", and every value that is not "" appears in it. */
  lemma FullNameOfBindings(b: seq<Entry>)
    ensures FullNameOf(b) == "" <==> forall i | 0 <= i < |b| :: b[i].value == ""
    ensures forall i | 0 <= i < |b| && b[i].value != "" :: Contains(FullNameOf(b), b[i].value)
  {
    var keep := (x: string) => x != "";
    var names := Filter(Values(b), keep);
    assert FullNameOf(b) == Join(names, " ");
    JoinEmptyIff(names, " ");
    if names == [] {
      forall i | 0 <= i < |b| ensures b[i].value == "" {
        assert Values(b)[i] == b[i].value;
      }
    }
    forall i | 0 <= i < |b| && b[i].value != ""
      ensures Contains(FullNameOf(b), b[i].value)
    {
      assert keep(Values(b)[i]);
      var k :| 0 <= k < |names| && names[k] == b[i].value;
      JoinContainsParts(names, " ", k);
    }
  }

  lemma FullNameOfPair(k1: string, k2: string, v: string)
    requires k1 != k2 && v != ""
    ensures FullNameOf(AssignAll([], [Entry(k1, v), Entry(k2, v)])) == v + " " + v
  {
    var w := [Entry(k1, v), Entry(k2, v)];
    assert w[..1] == [Entry(k1, v)];
    assert [Entry(k1, v)][..0] == [];
    AssignAllLast([Entry(k1, v)]);
    assert AssignAll([], [Entry(k1, v)]) == [Entry(k1, v)];
    AssignAllLast(w);
    assert AssignAll([], w) == w;
    assert Values(w) == [v, v];
    var keep := (x: string) => x != "";
    FilterKeepsAll([v, v], keep);
    assert Join([v, v], " ") == v + " " + Join([v], " ");
  }

  /* -------------------------------------------------------- recomputation */

  /** How the pass computes a derived field's value from the page. */
  type Evaluator = (map<int, Control>, Field) -> string

  /** One visit of `updateDerivedFields`: a derived field with an element
      gets its freshly computed value; nothing else is touched. */
  function Visit(value: Evaluator, controls: map<int, Control>, f: Field): (r: map<int, Control>)
    ensures r.Keys == controls.Keys
    ensures forall id | id in controls :: r[id].checked == controls[id].checked
    ensures forall id | id in controls && !(f.kind == Derived && f.id == id) :: r[id] == controls[id]
    ensures f.kind == Derived && f.id in controls ==> r[f.id].value == value(controls, f)
  {
    if f.kind == Derived && f.id in controls
    then controls[f.id := Control(value(controls, f), controls[f.id].checked)]
    else controls
  }

  /** `updateDerivedFields` over the fields still to visit, in form order, so
      a later derived field sees the values written before it. */
  function Recompute(value: Evaluator, pending: seq<Field>, controls: map<int, Control>): (r: map<int, Control>)
    ensures r.Keys == controls.Keys
    ensures forall id | id in controls && (forall i | 0 <= i < |pending| :: !(pending[i].kind == Derived && pending[i].id == id)) ::
              r[id] == controls[id]
    ensures forall id | id in controls :: r[id].checked == controls[id].checked
    decreases |pending|
  {
    if pending == [] then controls
    else
      assert forall i | 1 <= i < |pending| :: pending[i] == pending[1..][i - 1];
      Recompute(value, pending[1..], Visit(value, controls, pending[0]))
  }

  /** The evaluator of `updateDerivedFields`: `calculateDerivedValue`. */
  function Calculator(rt: Runtime, today: CivilDate, fields: seq<Field>): Evaluator {
    (c: map<int, Control>, f: Field) => CalculateDerivedValue(rt, today, fields, c, f)
  }

  /** `updateDerivedFields`. */
  function UpdateDerivedFields(rt: Runtime, today: CivilDate, fields: seq<Field>, controls: map<int, Control>): (r: map<int, Control>)
    ensures r.Keys == controls.Keys
    ensures forall id | id in controls && (forall i | 0 <= i < |fields| :: !(fields[i].kind == Derived && fields[i].id == id)) ::
              r[id] == controls[id]
  {
    Recompute(Calculator(rt, today, fields), fields, controls)
  }

  /** No derived field among `pending` has an id in `ids`. */
  predicate NoDerivedAmong(pending: seq<Field>, ids: seq<int>) {
    forall i, k | 0 <= i < |pending| && 0 <= k < |ids| :: pending[i].kind == Derived ==> pending[i].id != ids[k]
  }

  /** Controls `c1` and `c2` agree at every id of `ids`. */
  predicate AgreeAt(c1: map<int, Control>, c2: map<int, Control>, ids: seq<int>) {
    forall i | 0 <= i < |ids| :: (ids[i] in c1 <==> ids[i] in c2) && (ids[i] in c1 ==> c1[ids[i]] == c2[ids[i]])
  }

  /** `value` computes `f` from its parents' elements alone. */
  ghost predicate ReadsParents(value: Evaluator, f: Field, c0: map<int, Control>) {
    f.derived.Some? && forall c | AgreeAt(c, c0, f.derived.value.parents) :: value(c, f) == value(c0, f)
  }

  /** A derived field visited at position `k` of the pass holds, at the end,
      the value computed from any page `c0` that agrees with the page at its
      parents. */
  lemma {:induction false} RecomputeSees(value: Evaluator, pending: seq<Field>, c: map<int, Control>, c0: map<int, Control>, k: nat)
    requires k < |pending| && pending[k].kind == Derived && pending[k].id in c
    requires ReadsParents(value, pending[k], c0)
    requires forall i | 0 <= i < |pending| && i != k :: pending[i].id != pending[k].id
    requires NoDerivedAmong(pending, pending[k].derived.value.parents)
    requires AgreeAt(c, c0, pending[k].derived.value.parents)
    ensures Recompute(value, pending, c)[pending[k].id].value == value(c0, pending[k])
    decreases |pending|
  {
    var next := Visit(value, c, pending[0]);
    RecomputeUnfolds(value, pending, c);
    if k == 0 {
      RecomputeSeesHead(value, pending, c, c0);
    } else {
      TailKeepsPremises(pending, k);
      VisitKeepsAgreement(value, pending, c, c0, k);
      RecomputeSees(value, pending[1..], next, c0, k - 1);
    }
  }

  /** The head of the pass is written once and no later field overwrites it. */
  lemma RecomputeSeesHead(value: Evaluator, pending: seq<Field>, c: map<int, Control>, c0: map<int, Control>)
    requires pending != [] && pending[0].kind == Derived && pending[0].id in c
    requires ReadsParents(value, pending[0], c0)
    requires forall i | 0 <= i < |pending| && i != 0 :: pending[i].id != pending[0].id
    requires AgreeAt(c, c0, pending[0].derived.value.parents)
    ensures Recompute(value, pending[1..], Visit(value, c, pending[0]))[pending[0].id].value == value(c0, pending[0])
  {
    assert forall i | 0 <= i < |pending[1..]| :: pending[1..][i] == pending[i + 1];
    RecomputeSkips(value, pending[1..], Visit(value, c, pending[0]), pending[0].id);
  }

  /** Dropping the head of the pass keeps the premises about a later field. */
  lemma TailKeepsPremises(pending: seq<Field>, k: nat)
    requires 0 < k < |pending| && pending[k].derived.Some?
    requires forall i | 0 <= i < |pending| && i != k :: pending[i].id != pending[k].id
    requires NoDerivedAmong(pending, pending[k].derived.value.parents)
    ensures pending[1..][k - 1] == pending[k]
    ensures forall i | 0 <= i < |pending[1..]| && i != k - 1 :: pending[1..][i].id != pending[k].id
    ensures NoDerivedAmong(pending[1..], pending[k].derived.value.parents)
  {
    assert forall i | 0 <= i < |pending[1..]| :: pending[1..][i] == pending[i + 1];
  }

  lemma RecomputeUnfolds(value: Evaluator, pending: seq<Field>, c: map<int, Control>)
    requires pending != []
    ensures Recompute(value, pending, c) == Recompute(value, pending[1..], Visit(value, c, pending[0]))
  {
  }

  /** An id no field of the pass carries keeps its control. */
  lemma RecomputeSkips(value: Evaluator, pending: seq<Field>, c: map<int, Control>, id: int)
    requires id in c && forall i | 0 <= i < |pending| :: pending[i].id != id
    ensures Recompute(value, pending, c)[id] == c[id]
  {
  }

  /** Visiting the head of the pass leaves the parents of a later field alone. */
  lemma VisitKeepsAgreement(value: Evaluator, pending: seq<Field>, c: map<int, Control>, c0: map<int, Control>, k: nat)
    requires 0 < k < |pending| && pending[k].derived.Some?
    requires NoDerivedAmong(pending, pending[k].derived.value.parents)
    requires AgreeAt(c, c0, pending[k].derived.value.parents)
    ensures AgreeAt(Visit(value, c, pending[0]), c0, pending[k].derived.value.parents)
  {
    var parents := pending[k].derived.value.parents;
    forall i | 0 <= i < |parents| ensures pending[0].kind == Derived ==> pending[0].id != parents[i] {
    }
  }

  /** `calculateDerivedValue` reads the page only at the parents. */
  lemma CalculatorReadsParents(rt: Runtime, today: CivilDate, fields: seq<Field>, f: Field, c0: map<int, Control>)
    requires f.derived.Some?
    ensures ReadsParents(Calculator(rt, today, fields), f, c0)
  {
    forall c | AgreeAt(c, c0, f.derived.value.parents)
      ensures Calculator(rt, today, fields)(c, f) == Calculator(rt, today, fields)(c0, f)
    {
      DerivedReadsParentsOnly(rt, today, fields, c, c0, f);
    }
  }

  /** When no derived field feeds another, every derived field of a form with
      distinct ids ends up holding the value computed from the page as it was
      before the pass: the order of the pass does not matter. */
  lemma DerivedValuesIndependentOfOrder(rt: Runtime, today: CivilDate, fields: seq<Field>, controls: map<int, Control>, k: nat)
    requires DistinctIds(fields)
    requires k < |fields| && fields[k].kind == Derived && fields[k].id in controls
    requires fields[k].derived.Some?
    requires NoDerivedAmong(fields, fields[k].derived.value.parents)
    ensures UpdateDerivedFields(rt, today, fields, controls)[fields[k].id].value
         == CalculateDerivedValue(rt, today, fields, controls, fields[k])
  {
    CalculatorReadsParents(rt, today, fields, fields[k], controls);
    RecomputeSees(Calculator(rt, today, fields), fields, controls, controls, k);
  }
}

=== FILE: Fields.dfy ===
/** The field and form records of the plain (class-based) form builder in
    app.js, and the pure pieces of building a field: its type label, its
    default shape when added from the palette, and the option list typed into
    the configuration dialog. */
module Fields {
  import opened Wrappers
  import opened JsText
  import opened Lists

  /** A field's `type`. The palette can hand over any `data-type` string;
      `Other` carries one that is none of the known eight. */
  datatype FieldKind =
    | Text | Number | TextArea | Select | Radio | Checkbox | Date | Derived
    | Other(name: UnknownName)

  /** A `data-type` string that names none of the known eight types. */
  type UnknownName = s: string
    | s !in {"text", "number", "textarea", "select", "radio", "checkbox", "date", "derived"}
    witness "custom"

  /** The types that come with a list of options. */
  predicate HasChoices(k: FieldKind) {
    k == Select || k == Radio || k == Checkbox
  }

  /** `getFieldTypeLabel`: the display name of a type, "Field" when unknown. */
  function TypeLabel(k: FieldKind): (t: string)
    ensures k.Other? <==> t == "Field"
  {
    match k
    case Text => "Text Input"
    case Number => "Number Input"
    case TextArea => "Text Area"
    case Select => "Select Dropdown"
    case Radio => "Radio Buttons"
    case Checkbox => "Checkboxes"
    case Date => "Date Picker"
    case Derived => "Derived Field"
    case Other(_) => "Field"
  }

  /** The value stored under a validation rule: `parseInt(input) || true`
      gives a non-zero integer or `true`; stored forms may hold any of these. */
  datatype RuleParam = Bound(n: int) | Flag(on: bool)

  /** JavaScript truthiness of a rule entry; an absent entry is `undefined`. */
  predicate Enabled(p: Option<RuleParam>) {
    match p
    case None => false
    case Some(Bound(n)) => n != 0
    case Some(Flag(b)) => b
  }

  /** The number a rule entry becomes in `length < param` (`true` is 1). */
  function Amount(p: RuleParam): int {
    match p
    case Bound(n) => n
    case Flag(b) => if b then 1 else 0
  }

  /** The text a rule entry becomes inside a message template. */
  function ParamText(p: RuleParam): (t: string)
    ensures p.Flag? <==> t in {"true", "false"}
    ensures p.Bound? && p.n >= 0 ==> forall i | 0 <= i < |t| :: IsDigit(t[i])
  {
    match p
    case Bound(n) => IntToString(n)
    case Flag(b) => if b then "true" else "false"
  }

  /** Different rule entries print differently, so a message names its
      entry exactly. */
  lemma ParamTextInjective(p: RuleParam, q: RuleParam)
    requires ParamText(p) == ParamText(q)
    ensures p == q
  {
    if p.Bound? && q.Bound? {
      IntToStringInjective(p.n, q.n);
    }
  }

  /** A field's `validation` object; a missing object has no rules. */
  datatype Rules = Rules(
    minLength: Option<RuleParam>,
    maxLength: Option<RuleParam>,
    email: Option<RuleParam>,
    password: Option<RuleParam>)

  const NoRules := Rules(None, None, None, None)

  /** A derived field's `derivedType`; the dialog's select may hold any text. */
  datatype DerivedKind = Age | FullName | Calculation | Conditional | UnknownKind(name: string)

  /** The attributes only a derived field has. `parents` lists field ids. */
  datatype DerivedConfig = DerivedConfig(kind: DerivedKind, formula: string, parents: seq<int>)

  /** A field; `caption` is the source's `label` (a reserved word here). */
  datatype Field = Field(
    id: int,
    kind: FieldKind,
    caption: string,
    required: bool,
    defaultValue: string,
    validation: Rules,
    options: Option<seq<string>>,
    derived: Option<DerivedConfig>)

  /** The document being edited or stored. `id` and `createdAt` are `null`
      until the first save. */
  datatype Form = Form(id: Option<string>, name: string, fields: seq<Field>, createdAt: Option<string>)

  const EmptyForm := Form(None, "", [], None)

  const DefaultOptions: seq<string> := ["Option 1", "Option 2"]

  /** The field `addField` builds for a palette type, given its fresh id. */
  function NewField(id: int, k: FieldKind): (f: Field)
    ensures f.id == id && f.kind == k
    ensures f.caption == TypeLabel(k) + " " + IntToString(id)
    ensures !f.required && f.defaultValue == "" && f.validation == NoRules && f.derived.None?
    ensures f.options.Some? <==> HasChoices(k)
    ensures f.options.Some? ==> f.options.value == DefaultOptions
  {
    Field(id, k, TypeLabel(k) + " " + IntToString(id), false, "", NoRules,
          if HasChoices(k) then Some(DefaultOptions) else None, None)
  }

  /** `fields.find(f => f.id === id)`. */
  function FindField(fields: seq<Field>, id: int): (r: Option<Field>)
    ensures r.Some? ==> r.value in fields && r.value.id == id
    ensures r.None? <==> forall i | 0 <= i < |fields| :: fields[i].id != id
    ensures r.Some? ==> exists i | 0 <= i < |fields| :: fields[i] == r.value && forall j | 0 <= j < i :: fields[j].id != id
  {
    var i := IndexWhere(fields, (f: Field) => f.id == id);
    if i < |fields| then Some(fields[i]) else None
  }

  /** The ids of `fields`, in order. */
  function Ids(fields: seq<Field>): (ids: seq<int>)
    ensures |ids| == |fields|
    ensures forall i | 0 <= i < |fields| :: ids[i] == fields[i].id
  {
    if fields == [] then [] else [fields[0].id] + Ids(fields[1..])
  }

  /** No two fields share an id. */
  predicate DistinctIds(fields: seq<Field>) {
    forall i, j | 0 <= i < j < |fields| :: fields[i].id != fields[j].id
  }

  /** What the page holds for a field while the form is filled in: the
      element's `value`, and the values of the field's checked inputs in
      document order. */
  datatype Control = Control(value: string, checked: seq<string>)

  /** A radio or checkbox group: its inputs are named `field_<id>`, but no
      element carries that id. */
  predicate ChoiceGroup(f: Field) {
    f.kind == Radio || f.kind == Checkbox
  }

  /** The controls of the preview app.js renders itself: a choice group never
      has an element found by id; any other field may. */
  predicate PreviewPage(fields: seq<Field>, controls: map<int, Control>) {
    forall i | 0 <= i < |fields| :: ChoiceGroup(fields[i]) ==> fields[i].id !in controls
  }

  /** The raw value validation and derivation read: the checked values joined
      with ", " for a checkbox group, the first checked value (or "") for a
      radio group, and the element's value otherwise. */
  function LiveValue(f: Field, c: Control): (r: string)
    ensures !ChoiceGroup(f) ==> r == c.value
    ensures f.kind == Radio ==> r == "" || r in c.checked
    ensures f.kind == Checkbox ==>
              forall k | 0 <= k < |c.checked| :: Contains(r, c.checked[k])
  {
    if f.kind == Checkbox then
      JoinContainsEvery(c.checked, ", ");
      Join(c.checked, ", ")
    else if f.kind == Radio then (if c.checked == [] then "" else c.checked[0])
    else c.value
  }

  /** The configuration dialog's option list: one option per line of the
      text, blank lines dropped, and no list at all for an empty text. */
  function ParseOptions(text: string): (r: Option<seq<string>>)
    ensures r.None? <==> text == ""
    ensures r.Some? ==> forall i | 0 <= i < |r.value| :: !Blank(r.value[i])
    ensures r.Some? ==> forall line <- Split(text, "\n") :: !Blank(line) ==> line in r.value
    ensures r.Some? ==> forall option <- r.value :: option in Split(text, "\n")
  {
    if text == "" then None
    else Some(Filter(Split(text, "\n"), (line: string) => !Blank(line)))
  }

  /** The edit dialog shows a field's options one per line; confirming it
      unchanged gives back the same list, in the same order, when no option
      is blank. */
  lemma ParseOptionsOfLines(text: string)
    requires text != ""
    requires forall line <- Split(text, "\n") :: !Blank(line)
    ensures ParseOptions(text) == Some(Split(text, "\n"))
    ensures Join(ParseOptions(text).value, "\n") == text
  {
    var lines := Split(text, "\n");
    FilterKeepsAll(lines, (line: string) => !Blank(line));
    SplitJoinRoundTrip(text, "\n");
  }
}

=== FILE: Host.dfy ===
/** What the derived-field engine asks of the JavaScript host and does not
    itself define: number parsing and printing, `isNaN`, evaluation of an
    expression string through `Function(...)`, and date parsing. The engine
    receives these as values, so every property proved about it holds for any
    behaviour of the host. */
module Host {
  import opened Wrappers

  /** A calendar date as `getFullYear`, `getMonth` (0 to 11) and `getDate`
      report it. */
  datatype CivilDate = CivilDate(year: int, month: int, day: int)

  /** The outcome of running an arithmetic expression: it throws, yields a
      value `isNaN` accepts, or yields a number whose `toString` is `text`. */
  datatype Completion = Raised | NotANumber | Value(text: string)

  /** The outcome of running a condition: it throws, or yields a value of the
      given truthiness. */
  datatype Truth = Threw | Yields(truthy: bool)

  datatype Runtime = Runtime(
    /** `(parseFloat(v) || 0).toString()`. */
    numeral: string -> string,
    /** `!isNaN(v)` for a string `v`. */
    numeric: string -> bool,
    /** `Function('"use strict"; return (' + e + ')')()` on a formula. */
    arithmetic: string -> Completion,
    /** The same on a condition. */
    condition: string -> Truth,
    /** `new Date(v)`, `None` for an invalid date. */
    parseDate: string -> Option<CivilDate>)
}

=== FILE: JsText.dfy ===
/** The small part of JavaScript's string behaviour the form builder relies on:
    what `trim` and the regular-expression class `\s` treat as white space,
    `String.prototype.length` (UTF-16 code units), the decimal rendering of
    integers, `Array.prototype.join`, and a literal replace-all. */
module JsText {

  /** ECMAScript WhiteSpace and LineTerminator code points. `trim` strips
      exactly these, and `\s` matches exactly these. */
  predicate IsWhitespace(c: char) {
    || c == '\t' || c == '\n' || c == '\U{000B}' || c == '\U{000C}' || c == '\r' || c == ' '
    || c == '\U{00A0}' || c == '\U{1680}' || ('\U{2000}' <= c <= '\U{200A}')
    || c == '\U{2028}' || c == '\U{2029}' || c == '\U{202F}' || c == '\U{205F}'
    || c == '\U{3000}' || c == '\U{FEFF}'
  }

  /** `!s.trim()`: the string is empty or white space only. */
  predicate Blank(s: string) {
    forall i | 0 <= i < |s| :: IsWhitespace(s[i])
  }

  /* ---------------------------------------------------------------- trim */

  function TrimStart(s: string): (r: string)
    ensures |r| <= |s| && r == s[|s| - |r|..]
    ensures Blank(s[..|s| - |r|])
    ensures |r| > 0 ==> !IsWhitespace(r[0])
  {
    if |s| > 0 && IsWhitespace(s[0]) then TrimStart(s[1..]) else s
  }

  function TrimEnd(s: string): (r: string)
    ensures |r| <= |s| && r == s[..|r|]
    ensures Blank(s[|r|..])
    ensures |r| > 0 ==> !IsWhitespace(r[|r| - 1])
  {
    if |s| > 0 && IsWhitespace(s[|s| - 1]) then TrimEnd(s[..|s| - 1]) else s
  }

  /** `s` with every leading and trailing white-space character removed. */
  function Trim(s: string): (r: string)
    ensures |r| <= |s|
    ensures |r| > 0 ==> !IsWhitespace(r[0]) && !IsWhitespace(r[|r| - 1])
    ensures r == [] <==> Blank(s)
  {
    var t := TrimStart(s);
    assert s == s[..|s| - |t|] + t;
    TrimEnd(t)
  }

  /** The trimmed string is the middle of `s`, with only white space cut on
      either side. */
  lemma TrimIsInfix(s: string) returns (i: nat)
    ensures i + |Trim(s)| <= |s|
    ensures s[i..i + |Trim(s)|] == Trim(s)
    ensures Blank(s[..i]) && Blank(s[i + |Trim(s)|..])
  {
    var t := TrimStart(s);
    i := |s| - |t|;
    TrimEndInfix(s, i, t);
  }

  /** The trailing half of `TrimIsInfix`, for the suffix `t` of `s` from `i`. */
  lemma TrimEndInfix(s: string, i: nat, t: string)
    requires i <= |s| && t == s[i..]
    ensures i + |TrimEnd(t)| <= |s|
    ensures s[i..i + |TrimEnd(t)|] == TrimEnd(t)
    ensures Blank(s[i + |TrimEnd(t)|..])
  {
    var r := TrimEnd(t);
    assert s[i + |r|..] == t[|r|..];
  }

  lemma TrimIdempotent(s: string)
    ensures Trim(Trim(s)) == Trim(s)
  {
    var r := Trim(s);
    if |r| > 0 {
      assert TrimStart(r) == r;
      assert TrimEnd(r) == r;
    }
  }

  /* ------------------------------------------------ whitespace removal */

  /** `s.replace(/\s+/g, '')`: every white-space character dropped. */
  function StripWhitespace(s: string): (r: string)
    ensures |r| <= |s|
    ensures forall i | 0 <= i < |r| :: !IsWhitespace(r[i])
    ensures r == [] <==> Blank(s)
  {
    if s == [] then []
    else if IsWhitespace(s[0]) then StripWhitespace(s[1..])
    else [s[0]] + StripWhitespace(s[1..])
  }

  /** Removal works character by character: a white-space character goes,
      any other stays. */
  lemma StripWhitespaceOfOne(ch: char)
    ensures StripWhitespace([ch]) == if IsWhitespace(ch) then [] else [ch]
  {
    assert [ch][1..] == [];
  }

  /** Removal distributes over concatenation. */
  lemma {:induction false} StripWhitespaceAppend(a: string, c: string)
    ensures StripWhitespace(a + c) == StripWhitespace(a) + StripWhitespace(c)
  {
    if a == [] {
      assert a + c == c;
    } else {
      assert (a + c)[0] == a[0];
      assert (a + c)[1..] == a[1..] + c;
      StripWhitespaceAppend(a[1..], c);
      if !IsWhitespace(a[0]) {
        assert StripWhitespace(a + c) == [a[0]] + (StripWhitespace(a[1..]) + StripWhitespace(c));
      }
    }
  }

  lemma {:induction false} StripWhitespaceKeepsOthers(s: string)
    requires forall i | 0 <= i < |s| :: !IsWhitespace(s[i])
    ensures StripWhitespace(s) == s
  {
    if s != [] {
      StripWhitespaceKeepsOthers(s[1..]);
    }
  }

  /* ------------------------------------------------------------ length */

  /** Code units a character occupies in UTF-16: two for a character outside
      the Basic Multilingual Plane, one otherwise. */
  function Utf16Units(c: char): nat {
    if c as int >= 0x1_0000 then 2 else 1
  }

  /** `s.length` in JavaScript. */
  function JsLength(s: string): (n: nat)
    ensures |s| <= n <= 2 * |s|
  {
    if s == [] then 0 else JsLength(s[..|s| - 1]) + Utf16Units(s[|s| - 1])
  }

  /** One character counts one unit, or two when it lies outside the Basic
      Multilingual Plane. */
  lemma JsLengthOfOne(ch: char)
    ensures JsLength([ch]) == Utf16Units(ch)
    ensures JsLength([ch]) == 2 <==> ch as int >= 0x1_0000
  {
    assert [ch][..0] == [];
  }

  /** Lengths add up over concatenation. */
  lemma {:induction false} JsLengthAppend(a: string, c: string)
    ensures JsLength(a + c) == JsLength(a) + JsLength(c)
  {
    if c == [] {
      assert a + c == a;
    } else {
      assert (a + c)[..|a + c| - 1] == a + c[..|c| - 1];
      assert (a + c)[|a + c| - 1] == c[|c| - 1];
      JsLengthAppend(a, c[..|c| - 1]);
    }
  }

  lemma {:induction false} JsLengthOfBmp(s: string)
    requires forall i | 0 <= i < |s| :: s[i] as int < 0x1_0000
    ensures JsLength(s) == |s|
  {
    if s != [] {
      JsLengthOfBmp(s[..|s| - 1]);
    }
  }

  /* ----------------------------------------------------------- numbers */

  predicate IsDigit(c: char) {
    '0' <= c <= '9'
  }

  function DigitChar(d: nat): (c: char)
    requires d < 10
    ensures IsDigit(c) && c as int - '0' as int == d
  {
    ('0' as int + d) as char
  }

  /** Plain decimal numeral of `n`, no leading zeros. */
  function NatToString(n: nat): (r: string)
    ensures |r| > 0
    ensures forall i | 0 <= i < |r| :: IsDigit(r[i])
    ensures r[0] == '0' ==> r == "0"
  {
    if n < 10 then [DigitChar(n)] else NatToString(n / 10) + [DigitChar(n % 10)]
  }

  /** `i.toString()` for an integer `i`. */
  function IntToString(i: int): (r: string)
    ensures |r| > 0
    ensures i >= 0 ==> r == NatToString(i)
    ensures i < 0 ==> r == "-" + NatToString(-i)
    ensures r[0] == '-' <==> i < 0
  {
    if i < 0 then "-" + NatToString(-i) else NatToString(i)
  }

  /** The value of a string of decimal digits. */
  function DecimalValue(s: string): nat
    requires forall i | 0 <= i < |s| :: IsDigit(s[i])
  {
    if s == [] then 0
    else
      assert IsDigit(s[|s| - 1]);
      DecimalValue(s[..|s| - 1]) * 10 + (s[|s| - 1] as int - '0' as int)
  }

  lemma {:induction false} NatToStringRoundTrip(n: nat)
    ensures DecimalValue(NatToString(n)) == n
  {
    if n >= 10 {
      var r := NatToString(n);
      assert r[..|r| - 1] == NatToString(n / 10);
      NatToStringRoundTrip(n / 10);
    }
  }

  /** Distinct integers render to distinct strings. */
  lemma IntToStringInjective(a: int, b: int)
    requires IntToString(a) == IntToString(b)
    ensures a == b
  {
    var s := IntToString(a);
    if a < 0 {
      assert s[1..] == NatToString(-a) == NatToString(-b);
      NatToStringRoundTrip(-a);
      NatToStringRoundTrip(-b);
    } else {
      NatToStringRoundTrip(a);
      NatToStringRoundTrip(b);
    }
  }

  /* -------------------------------------------------------------- join */

  /** `parts.join(sep)`. */
  function Join(parts: seq<string>, sep: string): string {
    if parts == [] then []
    else if |parts| == 1 then parts[0]
    else parts[0] + sep + Join(parts[1..], sep)
  }

  /* ------------------------------------------------------- replace-all */

  /** `t` occurs in `s` at position `j`. */
  predicate OccursAt(s: string, t: string, j: int) {
    0 <= j && j + |t| <= |s| && s[j..j + |t|] == t
  }

  /** Joining pieces none of which is empty gives "" only for no pieces. */
  lemma {:induction false} JoinEmptyIff(parts: seq<string>, sep: string)
    requires forall i | 0 <= i < |parts| :: parts[i] != ""
    ensures Join(parts, sep) == "" <==> parts == []
  {
    if |parts| > 1 {
      assert |Join(parts, sep)| >= |parts[0]| > 0;
    }
  }

  /** Every piece occurs in the joined text, all at once. */
  lemma JoinContainsEvery(parts: seq<string>, sep: string)
    ensures forall k | 0 <= k < |parts| :: Contains(Join(parts, sep), parts[k])
  {
    forall k: int | 0 <= k < |parts| ensures Contains(Join(parts, sep), parts[k]) {
      JoinContainsParts(parts, sep, k);
    }
  }

  /** Every piece occurs in the joined text. */
  lemma {:induction false} JoinContainsParts(parts: seq<string>, sep: string, k: nat)
    requires k < |parts|
    ensures Contains(Join(parts, sep), parts[k])
  {
    var s := Join(parts, sep);
    if |parts| == 1 || k == 0 {
      assert s[0..|parts[0]|] == parts[0];
      assert OccursAt(s, parts[k], 0);
    } else {
      JoinContainsParts(parts[1..], sep, k - 1);
      var j' :| 0 <= j' <= |Join(parts[1..], sep)| - |parts[k]| && OccursAt(Join(parts[1..], sep), parts[1..][k - 1], j');
      var head := parts[0] + sep;
      assert s == head + Join(parts[1..], sep);
      assert s[|head| + j'..|head| + j' + |parts[k]|] == Join(parts[1..], sep)[j'..j' + |parts[k]|];
      assert OccursAt(s, parts[k], |head| + j');
    }
  }

  predicate Contains(s: string, t: string) {
    exists j | 0 <= j <= |s| - |t| :: OccursAt(s, t, j)
  }

  /** Every occurrence of `key` in `s`, found left to right without overlap,
      replaced by `v`; an empty key inserts `v` before every character and at
      the end, as an empty global pattern does. */
  function ReplaceAll(s: string, key: string, v: string): string
    decreases |s|
  {
    if key == [] then
      (if s == [] then v else v + [s[0]] + ReplaceAll(s[1..], key, v))
    else if |s| < |key| then s
    else if s[..|key|] == key then v + ReplaceAll(s[|key|..], key, v)
    else [s[0]] + ReplaceAll(s[1..], key, v)
  }

  /** The pieces of `s` between the occurrences of a non-empty `key`, found
      left to right without overlap. */
  function Split(s: string, key: string): (pieces: seq<string>)
    requires key != []
    ensures |pieces| > 0
    ensures |pieces[0]| <= |s| && pieces[0] == s[..|pieces[0]|]
    decreases |s|
  {
    if |s| < |key| then [s]
    else if s[..|key|] == key then [[]] + Split(s[|key|..], key)
    else
      var rest := Split(s[1..], key);
      [[s[0]] + rest[0]] + rest[1..]
  }

  lemma JoinCons(p: string, rest: seq<string>, sep: string)
    requires rest != []
    ensures Join([p] + rest, sep) == p + sep + Join(rest, sep)
  {
    assert ([p] + rest)[1..] == rest;
  }

  lemma JoinHeadExtend(c: char, rest: seq<string>, sep: string)
    requires rest != []
    ensures Join([[c] + rest[0]] + rest[1..], sep) == [c] + Join(rest, sep)
  {
    if |rest| > 1 {
      JoinCons([c] + rest[0], rest[1..], sep);
      JoinCons(rest[0], rest[1..], sep);
      assert rest == [rest[0]] + rest[1..];
    }
  }

  /** Replacing is splitting at the key and joining with the replacement. */
  lemma {:induction false} ReplaceAllIsJoinOfSplit(s: string, key: string, v: string)
    requires key != []
    ensures ReplaceAll(s, key, v) == Join(Split(s, key), v)
    decreases |s|
  {
    if |s| < |key| {
    } else if s[..|key|] == key {
      ReplaceAllIsJoinOfSplit(s[|key|..], key, v);
      JoinCons([], Split(s[|key|..], key), v);
    } else {
      ReplaceAllIsJoinOfSplit(s[1..], key, v);
      JoinHeadExtend(s[0], Split(s[1..], key), v);
    }
  }

  /** Joining the pieces back with the key restores the string. */
  lemma {:induction false} SplitJoinRoundTrip(s: string, key: string)
    requires key != []
    ensures Join(Split(s, key), key) == s
    decreases |s|
  {
    if |s| < |key| {
    } else if s[..|key|] == key {
      var rest := Split(s[|key|..], key);
      assert Split(s, key) == [[]] + rest;
      SplitJoinRoundTrip(s[|key|..], key);
      JoinCons([], rest, key);
      assert s == key + s[|key|..];
    } else {
      var rest := Split(s[1..], key);
      assert Split(s, key) == [[s[0]] + rest[0]] + rest[1..];
      SplitJoinRoundTrip(s[1..], key);
      JoinHeadExtend(s[0], rest, key);
      assert s == [s[0]] + s[1..];
    }
  }

  /** No piece between two replaced occurrences still holds the key. */
  lemma {:induction false} SplitPiecesAvoidKey(s: string, key: string)
    requires key != []
    ensures forall i | 0 <= i < |Split(s, key)| :: !Contains(Split(s, key)[i], key)
    decreases |s|
  {
    var pieces := Split(s, key);
    if |s| < |key| {
    } else if s[..|key|] == key {
      SplitPiecesAvoidKey(s[|key|..], key);
      assert pieces == [[]] + Split(s[|key|..], key);
      forall i | 0 <= i < |pieces| ensures !Contains(pieces[i], key) {
        if i == 0 {
          assert |pieces[0]| == 0;
        } else {
          assert pieces[i] == Split(s[|key|..], key)[i - 1];
        }
      }
    } else {
      var rest := Split(s[1..], key);
      SplitPiecesAvoidKey(s[1..], key);
      var head := [s[0]] + rest[0];
      assert pieces == [head] + rest[1..];
      forall i | 0 <= i < |pieces| ensures !Contains(pieces[i], key) {
        if i == 0 {
          forall j | 0 <= j <= |head| - |key| ensures !OccursAt(head, key, j) {
            if j == 0 {
              assert head[..|key|] == s[..|key|];
            } else {
              assert head[j..j + |key|] == rest[0][j - 1..j - 1 + |key|];
              assert !OccursAt(rest[0], key, j - 1);
            }
          }
        } else {
          assert pieces[i] == rest[i];
        }
      }
    }
  }

  /** A string without the key is left as it is. */
  lemma ReplaceAllWithoutKey(s: string, key: string, v: string)
    requires key != [] && !Contains(s, key)
    ensures ReplaceAll(s, key, v) == s
  {
    ReplaceAllIsJoinOfSplit(s, key, v);
    SplitJoinRoundTrip(s, key);
    ReplaceAllIsJoinOfSplit(s, key, key);
    SplitWithoutKey(s, key);
  }

  lemma {:induction false} SplitWithoutKey(s: string, key: string)
    requires key != [] && !Contains(s, key)
    ensures Split(s, key) == [s]
    decreases |s|
  {
    if |s| >= |key| {
      assert !OccursAt(s, key, 0);
      assert !Contains(s[1..], key) by {
        forall j | 0 <= j <= |s[1..]| - |key| ensures !OccursAt(s[1..], key, j) {
          assert s[1..][j..j + |key|] == s[j + 1..j + 1 + |key|];
          assert !OccursAt(s, key, j + 1);
        }
      }
      SplitWithoutKey(s[1..], key);
      assert [s[0]] + s[1..] == s;
    }
  }
}

=== FILE: Lists.dfy ===
/** The array operations both versions of the builder lean on:
    `findIndex`, `filter`, and the left-to-right `forEach` that accumulates
    into a variable, written as a fold. */
module Lists {

  /** `xs.findIndex(p)`, with "not found" written as `|xs|` instead of -1. */
  function IndexWhere<T>(xs: seq<T>, p: T -> bool): (i: nat)
    ensures i <= |xs|
    ensures i < |xs| ==> p(xs[i])
    ensures forall j | 0 <= j < i :: !p(xs[j])
  {
    if xs == [] then 0
    else if p(xs[0]) then 0
    else 1 + IndexWhere(xs[1..], p)
  }

  /** An element `p` rejects does not change which element `findIndex`
      settles on, nor whether it finds one. */
  lemma {:induction false} IndexWhereSkips<T>(xs: seq<T>, x: T, ys: seq<T>, p: T -> bool)
    requires !p(x)
    ensures (IndexWhere(xs + [x] + ys, p) < |xs + [x] + ys|) == (IndexWhere(xs + ys, p) < |xs + ys|)
    ensures IndexWhere(xs + [x] + ys, p) < |xs + [x] + ys| ==>
              (xs + [x] + ys)[IndexWhere(xs + [x] + ys, p)] == (xs + ys)[IndexWhere(xs + ys, p)]
  {
    if xs == [] {
      assert xs + [x] + ys == [x] + ys && ([x] + ys)[1..] == ys && xs + ys == ys;
    } else {
      assert (xs + [x] + ys)[0] == xs[0] == (xs + ys)[0];
      assert (xs + [x] + ys)[1..] == xs[1..] + [x] + ys;
      assert (xs + ys)[1..] == xs[1..] + ys;
      IndexWhereSkips(xs[1..], x, ys, p);
    }
  }

  /** `f` applied to each element of `xs` in turn, starting from `a`. */
  function FoldLeft<A, T>(f: (A, T) -> A, a: A, xs: seq<T>): A
    decreases |xs|
  {
    if xs == [] then a else f(FoldLeft(f, a, xs[..|xs| - 1]), xs[|xs| - 1])
  }

  lemma FoldSnoc<A, T>(f: (A, T) -> A, a: A, xs: seq<T>, x: T)
    ensures FoldLeft(f, a, xs + [x]) == f(FoldLeft(f, a, xs), x)
  {
    assert (xs + [x])[..|xs|] == xs;
  }

  /** An element `f` ignores can be dropped, wherever it stands. */
  lemma {:induction false} FoldSkips<A, T>(f: (A, T) -> A, a: A, xs: seq<T>, x: T, ys: seq<T>)
    requires forall b :: f(b, x) == b
    ensures FoldLeft(f, a, xs + [x] + ys) == FoldLeft(f, a, xs + ys)
    decreases |ys|
  {
    if ys == [] {
      assert xs + [x] + ys == xs + [x] && xs + ys == xs;
      FoldSnoc(f, a, xs, x);
    } else {
      var ys', y := ys[..|ys| - 1], ys[|ys| - 1];
      FoldSkips(f, a, xs, x, ys');
      assert xs + [x] + ys == (xs + [x] + ys') + [y];
      assert xs + ys == (xs + ys') + [y];
      FoldSnoc(f, a, xs + [x] + ys', y);
      FoldSnoc(f, a, xs + ys', y);
    }
  }

  /** `xs.filter(p)`. */
  function Filter<T>(xs: seq<T>, p: T -> bool): (r: seq<T>)
    ensures |r| <= |xs|
    ensures forall i | 0 <= i < |r| :: p(r[i]) && r[i] in xs
    ensures forall i | 0 <= i < |xs| :: p(xs[i]) ==> xs[i] in r
  {
    if xs == [] then []
    else if p(xs[0]) then [xs[0]] + Filter(xs[1..], p)
    else Filter(xs[1..], p)
  }

  /** Filtering keeps relative order: it distributes over concatenation. */
  lemma {:induction false} FilterAppend<T>(xs: seq<T>, ys: seq<T>, p: T -> bool)
    ensures Filter(xs + ys, p) == Filter(xs, p) + Filter(ys, p)
  {
    if xs != [] {
      assert (xs + ys)[0] == xs[0];
      assert (xs + ys)[1..] == xs[1..] + ys;
      FilterAppend(xs[1..], ys, p);
    } else {
      assert xs + ys == ys;
    }
  }

  /** A filter that rejects nothing changes nothing. */
  lemma {:induction false} FilterKeepsAll<T>(xs: seq<T>, p: T -> bool)
    requires forall i | 0 <= i < |xs| :: p(xs[i])
    ensures Filter(xs, p) == xs
  {
    if xs != [] {
      FilterKeepsAll(xs[1..], p);
    }
  }

  /** Elements with pairwise different keys. */
  predicate DistinctBy<T, K(==)>(xs: seq<T>, key: T -> K) {
    forall i, j | 0 <= i < j < |xs| :: key(xs[i]) != key(xs[j])
  }

  /** Filtering keeps keys pairwise different. */
  lemma {:induction false} FilterKeepsDistinct<T, K>(xs: seq<T>, p: T -> bool, key: T -> K)
    requires DistinctBy(xs, key)
    ensures DistinctBy(Filter(xs, p), key)
  {
    if xs != [] {
      var rest := Filter(xs[1..], p);
      FilterKeepsDistinct(xs[1..], p, key);
      forall y | y in rest ensures key(y) != key(xs[0]) {
        var k :| 0 <= k < |xs[1..]| && xs[1..][k] == y;
        assert xs[k + 1] == y;
      }
    }
  }
}

=== FILE: Store.dfy ===
/** The application state of the React version of the builder: the
    `formBuilder` slice of src/store/index.ts, with the record types of
    src/types/index.ts. Each reducer is a pure function from the state (and
    the action's payload) to the next state; the fresh form id and the clock
    reading a reducer would take from the host are parameters. */
module Store {
  import opened Wrappers
  import opened JsText
  import opened Lists

  /* ---------------------------------------------------------------- types */

  datatype FieldType = TextType | NumberType | TextAreaType | SelectType | RadioType | CheckboxType | DateType

  datatype RuleType = RequiredRule | MinLengthRule | MaxLengthRule | EmailRule | PasswordRule | MinRule | MaxRule

  /** A `string | number` value; numbers are kept as the reducers only copy
      them. */
  datatype Scalar = TextScalar(text: string) | NumberScalar(number: real)

  datatype ValidationRule = ValidationRule(kind: RuleType, value: Option<Scalar>, message: Option<string>)

  datatype SelectOption = SelectOption(caption: string, value: string)

  datatype DerivedType = AgeType | FullNameType | CalculationType | ConditionalType

  datatype DerivedField = DerivedField(parentFields: seq<string>, formula: string, kind: DerivedType)

  /** A default value: `string | string[] | boolean`. */
  datatype DefaultValue = TextDefault(text: string) | ListDefault(items: seq<string>) | FlagDefault(flag: bool)

  /** Everything a `FormField` holds besides its `id` and `order`: what the
      `addField` payload carries. `caption` is the source's `label`. */
  datatype FieldBody = FieldBody(
    kind: FieldType,
    caption: string,
    required: bool,
    defaultValue: Option<DefaultValue>,
    validation: seq<ValidationRule>,
    options: Option<seq<SelectOption>>,
    isDerived: Option<bool>,
    derivedConfig: Option<DerivedField>)

  datatype FormField = FormField(id: string, order: int, body: FieldBody)

  datatype FormSchema = FormSchema(id: string, name: string, fields: seq<FormField>, createdAt: string)

  /** A value typed into the preview (`any` in the source). */
  datatype PreviewValue = PreviewText(text: string) | PreviewList(items: seq<string>) | PreviewFlag(flag: bool)

  datatype State = State(
    currentForm: Option<FormSchema>,
    savedForms: seq<FormSchema>,
    currentFieldId: int,
    previewData: map<string, PreviewValue>,
    validationErrors: map<string, seq<string>>)

  const Initial := State(None, [], 1, map[], map[])

  /* ---------------------------------------------------------- predicates */

  /** Every field's `order` is its position. */
  predicate Ordered(fields: seq<FormField>) {
    forall i | 0 <= i < |fields| :: fields[i].order == i
  }

  predicate DistinctFieldIds(fields: seq<FormField>) {
    forall i, j | 0 <= i < j < |fields| :: fields[i].id != fields[j].id
  }

  /** At most one saved form per id. */
  predicate UniqueFormIds(saved: seq<FormSchema>) {
    forall i, j | 0 <= i < j < |saved| :: saved[i].id != saved[j].id
  }

  /** The id `addField` gives when the counter reads `n`. */
  function FieldIdFor(n: int): string {
    "field_" + IntToString(n)
  }

  /** `id` is one the counter has already handed out. */
  predicate Issued(id: string, counter: int) {
    exists k | 1 <= k < counter :: id == FieldIdFor(k)
  }

  lemma FieldIdForInjective(a: int, b: int)
    requires FieldIdFor(a) == FieldIdFor(b)
    ensures a == b
  {
    assert FieldIdFor(a)[6..] == IntToString(a);
    assert FieldIdFor(b)[6..] == IntToString(b);
    IntToStringInjective(a, b);
  }

  /* ------------------------------------------------------------ reducers */

  /** `fields.map((f, index) => ({ ...f, order: index }))`. */
  function Renumber(fields: seq<FormField>): (r: seq<FormField>)
    ensures |r| == |fields| && Ordered(r)
    ensures forall i | 0 <= i < |r| :: r[i].id == fields[i].id && r[i].body == fields[i].body
  {
    seq(|fields|, i requires 0 <= i < |fields| => fields[i].(order := i))
  }

  /** Renumbering an already numbered list changes nothing. */
  lemma RenumberOrdered(fields: seq<FormField>)
    requires Ordered(fields)
    ensures Renumber(fields) == fields
  {
  }

  /** `createNewForm`: an empty, unnamed form with a fresh id and creation
      time; the preview and its errors are cleared. */
  function CreateNewForm(s: State, freshId: string, now: string): (r: State)
    ensures r.currentForm == Some(FormSchema(freshId, "", [], now))
    ensures r.previewData == map[] && r.validationErrors == map[]
    ensures r.savedForms == s.savedForms && r.currentFieldId == s.currentFieldId
  {
    State(Some(FormSchema(freshId, "", [], now)), s.savedForms, s.currentFieldId, map[], map[])
  }

  /** `addField`: with a form open, appends the payload under the id
      `field_<counter>` at the next position and advances the counter by one;
      with none, does nothing. */
  function AddField(s: State, body: FieldBody): (r: State)
    ensures s.currentForm.None? ==> r == s
    ensures s.currentForm.Some? ==>
              var fields := s.currentForm.value.fields;
              && r.currentFieldId == s.currentFieldId + 1
              && r.currentForm == Some(s.currentForm.value.(fields := fields + [FormField(FieldIdFor(s.currentFieldId), |fields|, body)]))
              && r.savedForms == s.savedForms && r.previewData == s.previewData
              && r.validationErrors == s.validationErrors
    ensures s.currentForm.Some? && Ordered(s.currentForm.value.fields) ==> Ordered(r.currentForm.value.fields)
  {
    match s.currentForm
    case None => s
    case Some(form) =>
      var fields := form.fields;
      var field := FormField(FieldIdFor(s.currentFieldId), |fields|, body);
      s.(currentForm := Some(form.(fields := fields + [field])), currentFieldId := s.currentFieldId + 1)
  }

  /** `updateField`: the first field with the payload's id is replaced by the
      payload; nothing else changes. */
  function UpdateField(s: State, field: FormField): (r: State)
    ensures s.currentForm.None? ==> r == s
    ensures r.(currentForm := s.currentForm) == s
    ensures s.currentForm.Some? ==> r.currentForm.Some? && r.currentForm.value.(fields := s.currentForm.value.fields) == s.currentForm.value
    ensures s.currentForm.Some? ==>
              var before := s.currentForm.value.fields;
              var after := r.currentForm.value.fields;
              var i := IndexWhere(before, (f: FormField) => f.id == field.id);
              && |after| == |before|
              && (i < |before| ==> after[i] == field)
              && forall j | 0 <= j < |before| && j != i :: after[j] == before[j]
  {
    match s.currentForm
    case None => s
    case Some(form) =>
      var i := IndexWhere(form.fields, (f: FormField) => f.id == field.id);
      if i == |form.fields| then s
      else s.(currentForm := Some(form.(fields := form.fields[i := field])))
  }

  /** `deleteField`: drops every field with that id and renumbers the rest. */
  function DeleteField(s: State, id: string): (r: State)
    ensures s.currentForm.None? ==> r == s
    ensures r.(currentForm := s.currentForm) == s
    ensures s.currentForm.Some? ==> r.currentForm.Some?
    ensures s.currentForm.Some? ==>
              var after := r.currentForm.value.fields;
              && r.currentForm.value.(fields := s.currentForm.value.fields) == s.currentForm.value
              && Ordered(after)
              && (forall i | 0 <= i < |after| :: after[i].id != id)
  {
    match s.currentForm
    case None => s
    case Some(form) =>
      s.(currentForm := Some(form.(fields := Renumber(Filter(form.fields, (f: FormField) => f.id != id)))))
  }

  /** The remaining fields keep their relative order: deleting from `xs + ys`
      deletes from each part. */
  lemma DeleteFieldKeepsOrder(s: State, id: string, xs: seq<FormField>, ys: seq<FormField>)
    requires s.currentForm.Some? && s.currentForm.value.fields == xs + ys
    ensures var keep := (f: FormField) => f.id != id;
      DeleteField(s, id).currentForm.value.fields == Renumber(Filter(xs, keep) + Filter(ys, keep))
  {
    FilterAppend(xs, ys, (f: FormField) => f.id != id);
  }

  /** A field whose id differs survives a deletion with its contents. */
  lemma DeleteFieldKeepsOthers(s: State, id: string, k: nat)
    requires s.currentForm.Some? && k < |s.currentForm.value.fields|
    requires s.currentForm.value.fields[k].id != id
    ensures exists i | 0 <= i < |DeleteField(s, id).currentForm.value.fields| ::
              DeleteField(s, id).currentForm.value.fields[i] == s.currentForm.value.fields[k].(order := i)
  {
    var keep := (f: FormField) => f.id != id;
    var kept := Filter(s.currentForm.value.fields, keep);
    var f := s.currentForm.value.fields[k];
    assert f in kept;
    var i :| 0 <= i < |kept| && kept[i] == f;
    assert Renumber(kept)[i] == f.(order := i);
  }

  /** `reorderFields`: the payload becomes the field list, renumbered. */
  function ReorderFields(s: State, payload: seq<FormField>): (r: State)
    ensures s.currentForm.None? ==> r == s
    ensures r.(currentForm := s.currentForm) == s
    ensures s.currentForm.Some? ==> r.currentForm.Some?
    ensures s.currentForm.Some? ==>
              var after := r.currentForm.value.fields;
              && r.currentForm.value.(fields := s.currentForm.value.fields) == s.currentForm.value
              && Ordered(after) && |after| == |payload|
              && forall i | 0 <= i < |payload| :: after[i].id == payload[i].id && after[i].body == payload[i].body
  {
    match s.currentForm
    case None => s
    case Some(form) => s.(currentForm := Some(form.(fields := Renumber(payload))))
  }

  /** `findIndex` on the saved forms, `|saved|` when absent. */
  function SavedIndex(saved: seq<FormSchema>, id: string): (i: nat)
    ensures i <= |saved|
    ensures i < |saved| ==> saved[i].id == id
    ensures forall j | 0 <= j < i :: saved[j].id != id
  {
    IndexWhere(saved, (f: FormSchema) => f.id == id)
  }

  /** The write of `saveForm`: replace the saved form with the same id in
      place, or append. */
  function Upsert(saved: seq<FormSchema>, form: FormSchema): (r: seq<FormSchema>)
    ensures |r| == |saved| || r == saved + [form]
    ensures SavedIndex(r, form.id) < |r| && r[SavedIndex(r, form.id)] == form
    ensures forall i | 0 <= i < |saved| && saved[i].id != form.id :: r[i] == saved[i]
    ensures forall i | 0 <= i < |r| :: r[i] == form || r[i] in saved
    ensures UniqueFormIds(saved) ==> UniqueFormIds(r)
  {
    var i := SavedIndex(saved, form.id);
    var r := if i < |saved| then saved[i := form] else saved + [form];
    assert r[i] == form;
    r
  }

  /** `saveForm`: the open form, renamed and stamped with `now` (also when it
      was saved before), is written to the saved forms; the open form itself
      is not changed. */
  function SaveForm(s: State, name: string, now: string): (r: State)
    ensures s.currentForm.None? ==> r == s
    ensures s.currentForm.Some? ==>
              && r == s.(savedForms := Upsert(s.savedForms, s.currentForm.value.(name := name, createdAt := now)))
              && |s.savedForms| <= |r.savedForms| <= |s.savedForms| + 1
  {
    match s.currentForm
    case None => s
    case Some(form) => s.(savedForms := Upsert(s.savedForms, form.(name := name, createdAt := now)))
  }

  /** `loadForm`: the first saved form with that id becomes the open form and
      the preview is cleared; an unknown id changes nothing. The counter is
      left alone. */
  function LoadForm(s: State, id: string): (r: State)
    ensures SavedIndex(s.savedForms, id) == |s.savedForms| ==> r == s
    ensures SavedIndex(s.savedForms, id) < |s.savedForms| ==>
              r == State(Some(s.savedForms[SavedIndex(s.savedForms, id)]), s.savedForms, s.currentFieldId, map[], map[])
  {
    var i := SavedIndex(s.savedForms, id);
    if i == |s.savedForms| then s
    else State(Some(s.savedForms[i]), s.savedForms, s.currentFieldId, map[], map[])
  }

  /** Saving and then loading the open form's id brings back what was saved,
      under the new name and time. */
  lemma SaveThenLoad(s: State, name: string, now: string)
    requires s.currentForm.Some?
    ensures var form := s.currentForm.value;
      LoadForm(SaveForm(s, name, now), form.id).currentForm == Some(form.(name := name, createdAt := now))
  {
  }

  /** `updatePreviewData`: sets one entry and keeps every other. */
  function UpdatePreviewData(s: State, key: string, value: PreviewValue): (r: State)
    ensures key in r.previewData && r.previewData[key] == value
    ensures forall k | k != key :: (k in r.previewData <==> k in s.previewData)
    ensures forall k | k != key && k in s.previewData :: r.previewData[k] == s.previewData[k]
    ensures r.(previewData := s.previewData) == s
  {
    s.(previewData := s.previewData[key := value])
  }

  /** `setValidationErrors`. */
  function SetValidationErrors(s: State, errors: map<string, seq<string>>): (r: State)
    ensures r.validationErrors == errors && r.(validationErrors := s.validationErrors) == s
  {
    s.(validationErrors := errors)
  }

  /** `clearValidationErrors`. */
  function ClearValidationErrors(s: State): (r: State)
    ensures r.validationErrors == map[] && r.(validationErrors := s.validationErrors) == s
  {
    s.(validationErrors := map[])
  }

  /* ------------------------------------------------------------ sessions */

  datatype Action =
    | NewForm(freshId: string, now: string)
    | Add(body: FieldBody)
    | Update(field: FormField)
    | Remove(id: string)
    | Reorder(payload: seq<FormField>)
    | Save(name: string, now: string)
    | Load(id: string)
    | Preview(key: string, value: PreviewValue)
    | SetErrors(errors: map<string, seq<string>>)
    | ClearErrors

  /** The slice's reducer. */
  function Reduce(s: State, a: Action): State {
    match a
    case NewForm(id, now) => CreateNewForm(s, id, now)
    case Add(body) => AddField(s, body)
    case Update(f) => UpdateField(s, f)
    case Remove(id) => DeleteField(s, id)
    case Reorder(p) => ReorderFields(s, p)
    case Save(name, now) => SaveForm(s, name, now)
    case Load(id) => LoadForm(s, id)
    case Preview(k, v) => UpdatePreviewData(s, k, v)
    case SetErrors(e) => SetValidationErrors(s, e)
    case ClearErrors => ClearValidationErrors(s)
  }

  function Run(s: State, actions: seq<Action>): State
    decreases |actions|
  {
    if actions == [] then s else Run(Reduce(s, actions[0]), actions[1..])
  }

  /** No action lowers the counter; only `addField` on an open form moves it,
      by one. */
  lemma ReduceCounter(s: State, a: Action)
    ensures Reduce(s, a).currentFieldId == s.currentFieldId
         || (a.Add? && s.currentForm.Some? && Reduce(s, a).currentFieldId == s.currentFieldId + 1)
  {
  }

  lemma {:induction false} CounterNeverDecreases(s: State, actions: seq<Action>)
    ensures Run(s, actions).currentFieldId >= s.currentFieldId
    decreases |actions|
  {
    if actions != [] {
      ReduceCounter(s, actions[0]);
      CounterNeverDecreases(Reduce(s, actions[0]), actions[1..]);
    }
  }

  /** The fields of a form carry distinct ids, all handed out by the counter. */
  predicate FieldsIssued(fields: seq<FormField>, counter: int) {
    DistinctFieldIds(fields) && forall i | 0 <= i < |fields| :: Issued(fields[i].id, counter)
  }

  /** What a session keeps: every field id, open or saved, was handed out
      by the counter and is unique within its form, and each saved id occurs
      once. */
  predicate Good(s: State) {
    && s.currentFieldId >= 1
    && (s.currentForm.Some? ==> FieldsIssued(s.currentForm.value.fields, s.currentFieldId))
    && (forall i | 0 <= i < |s.savedForms| :: FieldsIssued(s.savedForms[i].fields, s.currentFieldId))
    && UniqueFormIds(s.savedForms)
  }

  /** What the page passes: a reorder payload lists fields of the open form
      without repeating an id. */
  predicate Sensible(s: State, a: Action) {
    a.Reorder? && s.currentForm.Some? ==>
      && DistinctFieldIds(a.payload)
      && forall i | 0 <= i < |a.payload| :: exists j | 0 <= j < |s.currentForm.value.fields| ::
           a.payload[i].id == s.currentForm.value.fields[j].id
  }

  /** The id `addField` hands out is new: no field of the open form or of a
      saved form has it. */
  lemma NextIdIsFresh(s: State)
    requires Good(s)
    ensures s.currentForm.Some? ==> forall i | 0 <= i < |s.currentForm.value.fields| ::
              s.currentForm.value.fields[i].id != FieldIdFor(s.currentFieldId)
    ensures forall k, i | 0 <= k < |s.savedForms| && 0 <= i < |s.savedForms[k].fields| ::
              s.savedForms[k].fields[i].id != FieldIdFor(s.currentFieldId)
  {
    forall id | Issued(id, s.currentFieldId) ensures id != FieldIdFor(s.currentFieldId) {
      var k :| 1 <= k < s.currentFieldId && id == FieldIdFor(k);
      if id == FieldIdFor(s.currentFieldId) {
        FieldIdForInjective(k, s.currentFieldId);
      }
    }
  }

  lemma IssuedGrows(fields: seq<FormField>, counter: int)
    requires FieldsIssued(fields, counter)
    ensures FieldsIssued(fields, counter + 1)
  {
    forall i | 0 <= i < |fields| ensures Issued(fields[i].id, counter + 1) {
      assert Issued(fields[i].id, counter);
      var k :| 1 <= k < counter && fields[i].id == FieldIdFor(k);
    }
  }

  lemma AddKeepsGood(s: State, body: FieldBody)
    requires Good(s)
    ensures Good(AddField(s, body))
  {
    if s.currentForm.Some? {
      var fields := s.currentForm.value.fields;
      NextIdIsFresh(s);
      AppendIssued(fields, FormField(FieldIdFor(s.currentFieldId), |fields|, body), s.currentFieldId);
      forall k | 0 <= k < |s.savedForms| ensures FieldsIssued(s.savedForms[k].fields, s.currentFieldId + 1) {
        IssuedGrows(s.savedForms[k].fields, s.currentFieldId);
      }
    }
  }

  /** A field carrying the counter's id joins a list of issued fields
      without it, once the counter has moved on. */
  lemma AppendIssued(fields: seq<FormField>, f: FormField, counter: int)
    requires FieldsIssued(fields, counter) && counter >= 1 && f.id == FieldIdFor(counter)
    requires forall i | 0 <= i < |fields| :: fields[i].id != f.id
    ensures FieldsIssued(fields + [f], counter + 1)
  {
    IssuedGrows(fields, counter);
    assert Issued(f.id, counter + 1);
    assert forall i | 0 <= i < |fields| :: (fields + [f])[i] == fields[i];
  }

  lemma ReorderKeepsGood(s: State, payload: seq<FormField>)
    requires Good(s) && Sensible(s, Reorder(payload))
    ensures Good(ReorderFields(s, payload))
  {
    if s.currentForm.Some? {
      var fields := s.currentForm.value.fields;
      var after := ReorderFields(s, payload).currentForm.value.fields;
      forall i | 0 <= i < |after| ensures Issued(after[i].id, s.currentFieldId) {
        var a := Reorder(payload);
        assert exists j | 0 <= j < |fields| :: a.payload[i].id == fields[j].id;
        var j :| 0 <= j < |fields| && payload[i].id == fields[j].id;
        assert Issued(fields[j].id, s.currentFieldId);
      }
    }
  }

  lemma DeleteKeepsGood(s: State, id: string)
    requires Good(s)
    ensures Good(DeleteField(s, id))
  {
    if s.currentForm.Some? {
      var keep := (f: FormField) => f.id != id;
      var fields := s.currentForm.value.fields;
      FilterKeepsDistinct(fields, keep, (f: FormField) => f.id);
      var kept := Filter(fields, keep);
      var after := DeleteField(s, id).currentForm.value.fields;
      forall i | 0 <= i < |after| ensures Issued(after[i].id, s.currentFieldId) {
        assert kept[i] in fields;
      }
    }
  }

  lemma UpdateKeepsGood(s: State, field: FormField)
    requires Good(s)
    ensures Good(UpdateField(s, field))
  {
    if s.currentForm.Some? {
      var fields := s.currentForm.value.fields;
      var i := IndexWhere(fields, (f: FormField) => f.id == field.id);
      if i < |fields| {
        var after := UpdateField(s, field).currentForm.value.fields;
        assert after == fields[i := field];
        assert forall j | 0 <= j < |after| :: after[j].id == fields[j].id;
      }
    }
  }

  lemma SaveKeepsGood(s: State, name: string, now: string)
    requires Good(s)
    ensures Good(SaveForm(s, name, now))
  {
    if s.currentForm.Some? {
      var form := s.currentForm.value.(name := name, createdAt := now);
      var r := SaveForm(s, name, now);
      forall k | 0 <= k < |r.savedForms| ensures FieldsIssued(r.savedForms[k].fields, s.currentFieldId) {
        if r.savedForms[k] != form {
          assert r.savedForms[k] in s.savedForms;
        }
      }
    }
  }

  lemma ReduceKeepsGood(s: State, a: Action)
    requires Good(s) && Sensible(s, a)
    ensures Good(Reduce(s, a))
  {
    match a
    case Add(body) => AddKeepsGood(s, body);
    case Update(f) => UpdateKeepsGood(s, f);
    case Remove(id) => DeleteKeepsGood(s, id);
    case Reorder(p) => ReorderKeepsGood(s, p);
    case Save(name, now) => SaveKeepsGood(s, name, now);
    case _ =>
  }

  /** From the initial state, every session of sensible actions keeps field
      ids unique within each form and saved ids unique in the collection. */
  lemma {:induction false} RunKeepsGood(s: State, actions: seq<Action>)
    requires Good(s)
    requires forall i | 0 <= i < |actions| :: Sensible(Run(s, actions[..i]), actions[i])
    ensures Good(Run(s, actions))
    decreases |actions|
  {
    if actions != [] {
      assert actions[..0] == [];
      ReduceKeepsGood(s, actions[0]);
      var t := Reduce(s, actions[0]);
      forall i | 0 <= i < |actions[1..]| ensures Sensible(Run(t, actions[1..][..i]), actions[1..][i]) {
        assert actions[..i + 1] == [actions[0]] + actions[1..][..i];
        assert Run(s, actions[..i + 1]) == Run(t, actions[1..][..i]);
      }
      RunKeepsGood(t, actions[1..]);
    }
  }

  lemma InitialIsGood()
    ensures Good(Initial)
  {
  }
}

=== FILE: Validation.dfy ===
/** Per-field validation of the plain form builder (`validateField`,
    `isValidEmail`, `isValidPassword` in app.js): a required check, then the
    length, email and password rules in a fixed order, reporting only the
    first message. */
module Validation {
  import opened Wrappers
  import opened JsText
  import opened Lists
  import opened Fields

  datatype Verdict = Valid | Invalid(message: string)

  const RequiredMessage := "This field is required"

  /* --------------------------------------------------------------- email */

  /** No white space and no '@' anywhere in `t`: the class `[^\s@]`. */
  predicate Plain(t: string) {
    forall k | 0 <= k < |t| :: t[k] != '@' && !IsWhitespace(t[k])
  }

  /** `isValidEmail`: exactly one '@', no white space, something before the
      '@', and a '.' after it that is neither the first nor the last
      character of the domain. */
  predicate IsValidEmail(s: string) {
    var at := IndexWhere(s, (c: char) => c == '@');
    && 0 < at < |s|
    && Plain(s[..at])
    && Plain(s[at + 1..])
    && exists j | at + 1 < j < |s| - 1 :: s[j] == '.'
  }

  /** The language of `/^[^\s@]+@[^\s@]+\.[^\s@]+$/`: the string splits as
      local part, '@', a name, '.', a suffix, each part non-empty and plain. */
  ghost predicate EmailShape(s: string) {
    exists i, j | 0 < i && i + 1 < j && j + 1 < |s| ::
      && s[i] == '@' && s[j] == '.'
      && Plain(s[..i]) && Plain(s[i + 1..j]) && Plain(s[j + 1..])
  }

  lemma EmailMatchesPattern(s: string)
    ensures IsValidEmail(s) <==> EmailShape(s)
  {
    if IsValidEmail(s) {
      ValidEmailHasShape(s);
    }
    if EmailShape(s) {
      var i, j :| 0 < i && i + 1 < j && j + 1 < |s|
        && s[i] == '@' && s[j] == '.'
        && Plain(s[..i]) && Plain(s[i + 1..j]) && Plain(s[j + 1..]);
      ShapeIsValidEmail(s, i, j);
    }
  }

  lemma ValidEmailHasShape(s: string)
    requires IsValidEmail(s)
    ensures EmailShape(s)
  {
    var at := IndexWhere(s, (c: char) => c == '@');
    var domain := s[at + 1..];
    var j :| at + 1 < j < |s| - 1 && s[j] == '.';
    assert s[at + 1..j] == domain[..j - at - 1];
    assert s[j + 1..] == domain[j - at..];
    assert Plain(s[at + 1..j]);
    assert Plain(s[j + 1..]);
  }

  lemma ShapeIsValidEmail(s: string, i: nat, j: nat)
    requires 0 < i && i + 1 < j && j + 1 < |s|
    requires s[i] == '@' && s[j] == '.'
    requires Plain(s[..i]) && Plain(s[i + 1..j]) && Plain(s[j + 1..])
    ensures IsValidEmail(s)
  {
    var at := IndexWhere(s, (c: char) => c == '@');
    assert forall k | 0 <= k < i :: s[k] == s[..i][k];
    assert at == i;
    var domain := s[at + 1..];
    var name := s[i + 1..j];
    var suffix := s[j + 1..];
    forall k | 0 <= k < |domain| ensures domain[k] != '@' && !IsWhitespace(domain[k]) {
      if k < j - i - 1 {
        assert domain[k] == name[k];
      } else if k > j - i - 1 {
        assert domain[k] == suffix[k - (j - i)];
      }
    }
  }

  /* ------------------------------------------------------------ password */

  /** `/\d/.test(s)`: some ASCII digit. */
  predicate HasDigit(s: string) {
    exists k | 0 <= k < |s| :: IsDigit(s[k])
  }

  /** `isValidPassword`: at least eight UTF-16 units and a digit. */
  predicate IsValidPassword(s: string) {
    JsLength(s) >= 8 && HasDigit(s)
  }

  /* --------------------------------------------------------------- rules */

  datatype RuleName = MinLength | MaxLength | Email | Password

  /** The order the rules are checked in. */
  const RuleOrder: seq<RuleName> := [MinLength, MaxLength, Email, Password]

  function ParamOf(rules: Rules, name: RuleName): Option<RuleParam> {
    match name
    case MinLength => rules.minLength
    case MaxLength => rules.maxLength
    case Email => rules.email
    case Password => rules.password
  }

  /** `rules` with the entry for `name` set to `p`. */
  function WithParam(rules: Rules, name: RuleName, p: Option<RuleParam>): (r: Rules)
    ensures ParamOf(r, name) == p
    ensures forall other: RuleName | other != name :: ParamOf(r, other) == ParamOf(rules, other)
  {
    match name
    case MinLength => rules.(minLength := p)
    case MaxLength => rules.(maxLength := p)
    case Email => rules.(email := p)
    case Password => rules.(password := p)
  }

  /** The test a rule applies to a value, given its parameter. */
  predicate Breaks(name: RuleName, p: RuleParam, v: string) {
    match name
    case MinLength => JsLength(v) < Amount(p)
    case MaxLength => JsLength(v) > Amount(p)
    case Email => !IsValidEmail(v)
    case Password => !IsValidPassword(v)
  }

  /** A rule fails when its entry is truthy and its test breaks. */
  predicate Fails(rules: Rules, name: RuleName, v: string) {
    Enabled(ParamOf(rules, name)) && Breaks(name, ParamOf(rules, name).value, v)
  }

  function MessageOf(name: RuleName, p: RuleParam): string {
    match name
    case MinLength => "Minimum " + ParamText(p) + " characters required"
    case MaxLength => "Maximum " + ParamText(p) + " characters allowed"
    case Email => "Please enter a valid email address"
    case Password => "Password must be at least 8 characters and contain a number"
  }

  /** The failure list of one rule: its message when it fails, else nothing. */
  function FailureOf(rules: Rules, name: RuleName, v: string): seq<string> {
    if Fails(rules, name, v) then [MessageOf(name, ParamOf(rules, name).value)] else []
  }

  /** Every message the source collects into its `errors` list: the required
      message for a blank required value, then, for a non-blank value only,
      the failing rules in order. */
  function Failures(required: bool, rules: Rules, v: string): seq<string> {
    (if required && Blank(v) then [RequiredMessage] else [])
    + (if !Blank(v)
       then FailureOf(rules, MinLength, v) + FailureOf(rules, MaxLength, v)
            + FailureOf(rules, Email, v) + FailureOf(rules, Password, v)
       else [])
  }

  /** The verdict shown for a value: the first failing check, or valid. */
  function Validate(required: bool, rules: Rules, v: string): (verdict: Verdict)
    ensures Blank(v) ==> (verdict == Valid <==> !required)
    ensures !Blank(v) && rules == Rules(None, None, None, None) ==> verdict == Valid
  {
    if required && Blank(v) then Invalid(RequiredMessage)
    else if Blank(v) then Valid
    else if Fails(rules, MinLength, v) then Invalid(MessageOf(MinLength, rules.minLength.value))
    else if Fails(rules, MaxLength, v) then Invalid(MessageOf(MaxLength, rules.maxLength.value))
    else if Fails(rules, Email, v) then Invalid(MessageOf(Email, rules.email.value))
    else if Fails(rules, Password, v) then Invalid(MessageOf(Password, rules.password.value))
    else Valid
  }

  /** The password rule on its own: a non-blank value passes exactly when it
      is at least eight UTF-16 units long and holds a decimal digit, and
      otherwise shows the password message. */
  lemma PasswordRuleAlone(required: bool, v: string)
    requires !Blank(v)
    ensures var verdict := Validate(required, Rules(None, None, None, Some(Flag(true))), v);
      && (verdict == Valid <==> JsLength(v) >= 8 && exists k | 0 <= k < |v| :: '0' <= v[k] <= '9')
      && (verdict != Valid ==> verdict == Invalid("Password must be at least 8 characters and contain a number"))
  {
    var rules := Rules(None, None, None, Some(Flag(true)));
    assert forall j | 0 <= j < 3 :: !Fails(rules, RuleOrder[j], v);
    if IsValidPassword(v) {
      ValidIffNothingFails(required, rules, v);
    } else {
      FirstFailingRuleWins(required, rules, v, 3);
    }
    HasDigitIff(v);
  }

  /** `/\d/` finds a character between '0' and '9'. */
  lemma HasDigitIff(v: string)
    ensures HasDigit(v) <==> exists k | 0 <= k < |v| :: '0' <= v[k] <= '9'
  {
    if exists k | 0 <= k < |v| :: '0' <= v[k] <= '9' {
      var k :| 0 <= k < |v| && '0' <= v[k] <= '9';
      assert IsDigit(v[k]);
    }
  }

  /** The verdict is the head of the full error list: valid exactly when the
      list is empty, and otherwise its first message. */
  lemma ValidateReportsFirstFailure(required: bool, rules: Rules, v: string)
    ensures Validate(required, rules, v) == Valid <==> Failures(required, rules, v) == []
    ensures Validate(required, rules, v).Invalid? ==>
              Validate(required, rules, v).message == Failures(required, rules, v)[0]
  {
  }

  /** A blank value on a required field reports the required message and
      nothing else runs. */
  lemma RequiredBlankShortCircuits(rules: Rules, v: string)
    requires Blank(v)
    ensures Validate(true, rules, v) == Invalid(RequiredMessage)
    ensures Failures(true, rules, v) == [RequiredMessage]
  {
  }

  /** On a non-blank value the report names the first rule, in the order
      minLength, maxLength, email, password, that fails. */
  lemma FirstFailingRuleWins(required: bool, rules: Rules, v: string, k: nat)
    requires !Blank(v) && k < |RuleOrder|
    requires Fails(rules, RuleOrder[k], v)
    requires forall j | 0 <= j < k :: !Fails(rules, RuleOrder[j], v)
    ensures Validate(required, rules, v) ==
              Invalid(MessageOf(RuleOrder[k], ParamOf(rules, RuleOrder[k]).value))
  {
    if k > 0 { assert !Fails(rules, RuleOrder[0], v); }
    if k > 1 { assert !Fails(rules, RuleOrder[1], v); }
    if k > 2 { assert !Fails(rules, RuleOrder[2], v); }
  }

  /** Valid exactly when the required check passes and, for a non-blank
      value, no rule fails. */
  lemma ValidIffNothingFails(required: bool, rules: Rules, v: string)
    ensures Validate(required, rules, v) == Valid <==>
              && !(required && Blank(v))
              && (Blank(v) || forall k | 0 <= k < |RuleOrder| :: !Fails(rules, RuleOrder[k], v))
  {
    ValidateReportsFirstFailure(required, rules, v);
    assert RuleOrder[0] == MinLength && RuleOrder[1] == MaxLength;
    assert RuleOrder[2] == Email && RuleOrder[3] == Password;
    if !Blank(v) && Validate(required, rules, v) == Valid {
      forall k | 0 <= k < |RuleOrder| ensures !Fails(rules, RuleOrder[k], v) {
        assert k == 0 || k == 1 || k == 2 || k == 3;
      }
    }
  }

  /** A rule whose entry is falsy (0, false, missing) behaves as if absent. */
  lemma FalsyRuleIsSkipped(required: bool, rules: Rules, name: RuleName, v: string)
    requires !Enabled(ParamOf(rules, name))
    ensures Validate(required, rules, v) == Validate(required, WithParam(rules, name, None), v)
  {
  }

  /** Lengths are counted on the untrimmed value, bounds inclusive: a value
      of exactly `n` units passes both `minLength: n` and `maxLength: n`. */
  lemma LengthBoundsInclusive(required: bool, n: int, v: string)
    requires n != 0 && JsLength(v) == n && !Blank(v)
    ensures Validate(required, Rules(Some(Bound(n)), Some(Bound(n)), None, None), v) == Valid
  {
  }

  /** One unit short of `minLength` fails with the minimum message; one unit
      over `maxLength` fails with the maximum message. */
  lemma LengthBoundsTight(required: bool, n: int, v: string, w: string)
    requires n != 0 && !Blank(v) && JsLength(v) == n - 1
    requires !Blank(w) && JsLength(w) == n + 1
    ensures Validate(required, Rules(Some(Bound(n)), None, None, None), v)
              == Invalid("Minimum " + IntToString(n) + " characters required")
    ensures Validate(required, Rules(None, Some(Bound(n)), None, None), w)
              == Invalid("Maximum " + IntToString(n) + " characters allowed")
  {
  }

  /** `validateField` by id: a field that is not in the form, or whose element
      is not on the page, counts as valid; otherwise its live value is
      validated against its own rules. */
  function ValidateField(fields: seq<Field>, id: int, controls: map<int, Control>): (verdict: Verdict)
    ensures FindField(fields, id).None? || id !in controls ==> verdict == Valid
    ensures verdict.Invalid? ==> exists i | 0 <= i < |fields| :: fields[i].id == id
    ensures (&& FindField(fields, id).Some? && id in controls && !FindField(fields, id).value.required
             && Blank(LiveValue(FindField(fields, id).value, controls[id]))) ==> verdict == Valid
    ensures FindField(fields, id).Some? && id in controls ==>
              var f := FindField(fields, id).value;
              verdict == Validate(f.required, f.validation, LiveValue(f, controls[id]))
  {
    match FindField(fields, id)
    case None => Valid
    case Some(f) =>
      if id !in controls then Valid
      else Validate(f.required, f.validation, LiveValue(f, controls[id]))
  }

  /** On the preview app.js renders, a radio or checkbox field is never
      checked, since it has no element by id: even a required one with
      nothing ticked passes. */
  lemma ChoiceGroupAlwaysPasses(fields: seq<Field>, id: int, controls: map<int, Control>)
    requires PreviewPage(fields, controls)
    requires FindField(fields, id).Some? && ChoiceGroup(FindField(fields, id).value)
    ensures ValidateField(fields, id, controls) == Valid
  {
    var i :| 0 <= i < |fields| && fields[i] == FindField(fields, id).value;
    assert id !in controls;
  }
}

=== FILE: Wrappers.dfy ===
/** The optional value used wherever the JavaScript source works with `null`,
    `undefined` or a `find` that may come back empty. */
module Wrappers {

  datatype Option<+T> = None | Some(value: T) {

    /** The carried value, or `default` when there is none. */
    function GetOr(default: T): T {
      match this
      case Some(v) => v
      case None => default
    }
  }
}
